=== FILE: README.md ===
# portfolio-v2 core, modelled in Dafny

This project models the logic of the LunarcatOwO portfolio site. That logic is its server-side response
cache, the proxy routes built on that cache, and the client components that decide what a visitor sees.
Each route and component module states the behaviour of one source file as contracts and lemmas; the
remaining modules hold shared helpers and records. Every module verifies:

- `ServerCache` (`server_cache.dfy`): the bounded TTL store behind the avatar route (utils/cache.ts also creates a
  project-icon store, but no route in the core reads or writes it; only the cleanup timer sweeps it).
  - Its JavaScript `Map` is an insertion-ordered sequence of `(key, entry)` pairs.
  - The clock is a parameter in milliseconds: `now` for each operation.
  - `set` evicts the oldest pair whenever the store is full.
  - `get` and `has` expire lazily; `cleanup` sweeps; `getStats` sweeps before it counts.
- `ChangelogRoute` (`changelog_route.dfy`): the single-slot commit cache valid for six hours.
  - It is refilled by the paginated commits loop.
  - It serves stale contents when a refill fails, and answers 500 only when it was never filled.
- `AvatarRoute` (`avatar_route.dfy`): the cache-first avatar proxy (HIT/MISS, one hour, `image/jpeg` default).
- `GitHubUtils` (`github_utils.dfy`):
  - `parseGitHubUrl`, which keeps the first two non-empty path segments;
  - `getProjectIcon`, which probes seven extensions on `main`, then on `master`.
- `ProjectIconRoute` (`project_icon_route.dfy`): request validation, the probe-then-download loop, and the
  generated SVG badge used as a fallback.
- `ProjectIconView` (`project_icon_view.dfy`): the client icon.
  - The 32-bit string hash, written over unbounded integers with explicit ToInt32/ToUint32 and truncating `%`.
  - The gradient derived from that hash.
  - The spinner / real icon / letter decision.
- `SocialPost`, `TwitterRoute`, `BlueskyRoute` (`social_post.dfy`, `twitter_route.dfy`, `bluesky_route.dfy`):
  the two posts routes and the common post record they map into.
- `SocialFeed` (`social_feed.dfy`): merging the two answers, the stable newest-first sort, the relative-time
  label, the platform tabs, the `maxPosts` slice and the four views.
- `ProjectCarousel` (`project_carousel.dfy`): wrap-around pagination, `goToSlide`, and the status badge
  colour (case-insensitive).
- `ContributionGraph` (`contribution_graph.dfy`):
  - grouping commits by day, with the loop proved equal to a declarative grouping;
  - the colour bucket of a day's count;
  - splitting the days into weeks;
  - selecting a day.
- `TechCard` (`tech_card.dfy`): the column count, how many cards the collapsed grid shows, and when the
  toggle appears.
- Shared helpers:
  - `Wrappers` (Option);
  - `Strings`: `split`/`join`, `filter(Boolean)`, ASCII case mapping, decimal rendering;
  - `Seqs`: `find`/`filter`.

Calls the model cannot see are parameters of the operations that make them:

- The upstream `fetch`es of the avatar, Twitter, Bluesky and project-icon routes are functions from the
  request to a datatype of the possible answers (ok, not ok, thrown).
- The changelog's upstream is a sequence of page answers, `PageOk` or `PageError`; a thrown request counts
  as `PageError`.
- `encodeURIComponent` (`encode`), date parsing (`parseDate`) and the day-key formatting (`dayKey`) are plain
  functions on strings.
- The URL constructor (`parse`) answers an optional pathname; `None` stands for the constructor throwing.

Behaviour that the code has and a reader might not expect:

- The store treats an entry as live at `now == expiresAt`: expiry is the strict `now > expiresAt`, both in
  `get`/`has` and in `cleanup`, so a sweep at `now == expiresAt` keeps the entry.
- `set` evicts the oldest pair whenever `size >= maxSize`, even when the key being written is already
  present. The store then shrinks (`ServerCache.FullSetOfPresentKeyShrinks`).
- `set` never evicts a first key that is the empty string, because of the `if (firstKey)` guard. A store can
  then grow past its capacity (`ServerCache.EmptyFirstKeyOverflows`). No caller writes an empty key.
- `getProjectIcon` does not look up the default branch. It tries `main` and then `master`, with the
  extensions `png, jpg, jpeg, svg, ico, webp, avif`. The project-icon route uses its own list: `png, jpg,
  jpeg, svg, webp, gif`.
- The avatar route has no stale path and no generated fallback. A failed user lookup or image download
  passes the upstream status through, a missing avatar URL gives 404, and a thrown error gives 500.
- The project-icon route modelled here sets no `X-Project-Icon` header. The view decides "real icon" from
  that header alone, so the view takes the HEAD answer as a parameter.

## Model

| member | source | states |
|---|---|---|
| ServerCache.Put | utils/cache.ts:43 | `Map.set`: the key reads the new entry; every other key reads as before; a present key keeps its position; a new key is appended last |
| ServerCache.Remove | utils/cache.ts:55 | `Map.delete`: the key is gone, every other key reads as before, and the size drops by one exactly when the key was present |
| ServerCache.EffectiveTtl | utils/cache.ts:33 | `ttl \|\| defaultTtl`: an absent ttl and a ttl of 0 both give the default; any other ttl is used as given |
| ServerCache.Set | utils/cache.ts:32-44 | after `set`, the key reads `value` expiring at `now + ttl`; a full store loses its oldest pair unless that pair holds the key written; every other key reads as before; no key appears that was not there or written; keys stay distinct |
| ServerCache.Get | utils/cache.ts:46-60 | a missing key reads absent and changes nothing; a live entry reads its data and changes nothing; an expired entry reads absent and is removed |
| ServerCache.Has | utils/cache.ts:62-76 | `has` answers present exactly when `get` returns a value, and leaves the store exactly as `get` does |
| ServerCache.Delete | utils/cache.ts:78-80 | answers whether the key was stored (even if expired); the key is gone afterwards; every other key reads as before |
| ServerCache.Clear | utils/cache.ts:82-84 | after `clear` every key misses at every time, and the capacity and default TTL are unchanged |
| ServerCache.Expired | utils/cache.ts:53 | an entry has expired only strictly after its `expiresAt`; `SetThenGet` shows it still reads back at that exact instant |
| ServerCache.Live | utils/cache.ts:87-94 | the sweep keeps only unexpired pairs, and keeps all of them exactly when none has expired |
| ServerCache.LiveKeys | utils/cache.ts:87-94 | a sweep introduces no key and keeps keys distinct |
| ServerCache.LiveLookup | utils/cache.ts:87-94 | after a sweep, a key whose entry was live reads the same entry, and any other key reads absent |
| ServerCache.LiveAppend | utils/cache.ts:89-93 | the sweep walks pairs in order and never reorders what it keeps (it distributes over concatenation) |
| ServerCache.LiveIdempotent | utils/cache.ts:87-94 | sweeping twice at the same time is sweeping once |
| ServerCache.Cleanup | utils/cache.ts:87-94 | the in-order deleting loop leaves exactly the sweep of the entries, with capacity and TTL unchanged |
| ServerCache.GetStats | utils/cache.ts:97-103 | the reported size is the number of live entries; it equals the stored count exactly when nothing has expired; maxSize is the store's |
| ServerCache.SetKeepsValid | utils/cache.ts:35-43 | with capacity at least 1 and non-empty keys, `set` keeps the store within `maxSize` and its keys distinct and non-empty |
| ServerCache.EmptyFirstKeyOverflows | utils/cache.ts:37-40 | a store of capacity 1 whose only key is "" grows to two entries on the next `set` |
| ServerCache.FullSetOfPresentKeyShrinks | utils/cache.ts:36-43 | writing an already-present key into a full store evicts the oldest other pair, so the store shrinks by one |
| ServerCache.EvictionOrder | utils/cache.ts:35-43 | with capacity 2, writing `a`, `b`, `c` evicts `a`, the oldest, while `b` and `c` read back their values |
| ServerCache.SetThenGet | utils/cache.ts:32-60 | a written value reads back at every time up to and including its expiry |
| ServerCache.SetThenGetExpired | utils/cache.ts:53-57 | after its expiry time a written key misses and is removed from the store |
| ServerCache.CleanupPreservesGet | utils/cache.ts:87-94 | a sweep never changes what `get` answers at the same time |
| ChangelogRoute.FullRun | app/api/changelog/route.ts:61-81 | counts the leading pages that are ok and full (100 items); the loop asks for the next page after each of them and not after the next one |
| ChangelogRoute.FirstLine | app/api/changelog/route.ts:72 | the message's first line: a newline-free prefix of the message that is either all of it or ends at its first newline |
| ChangelogRoute.Transform | app/api/changelog/route.ts:67-74 | the commit keeps the sha, author date and author name; its message is a newline-free prefix of the API message that is either all of it or stops at its first newline |
| ChangelogRoute.TransformAll | app/api/changelog/route.ts:67-74 | one commit per API item, in order, with the sha, author date, author name and first line |
| ChangelogRoute.FetchCommits | app/api/changelog/route.ts:24-85 | the fetch succeeds exactly when the first page that stops the loop is ok; the commit count is the items of the full pages plus that page's; every message is a single line |
| ChangelogRoute.GetCommitsFromGitHub | app/api/changelog/route.ts:30-84 | the paginated loop, with its early `break` on an empty page and its throw on a non-ok page, yields exactly `FetchCommits` |
| ChangelogRoute.Get | app/api/changelog/route.ts:87-141 | four outcomes: a valid cache served with its age; a successful refill served and cached with the write-time clock reading; stale contents served with the error note when the refill fails; 500 only with no cache |
| ChangelogRoute.IsCacheValid | app/api/changelog/route.ts:18-22 | a cache exists and is strictly younger than six hours; `CacheValidityWindow` pins the bound at 21,600,000 ms |
| ChangelogRoute.CacheValidityWindow | app/api/changelog/route.ts:16-22 | a cache stamped at `t` is valid exactly before `t` + 21,600,000 ms, and once stale it stays stale as the clock advances |
| ChangelogRoute.ValidCacheIgnoresUpstream | app/api/changelog/route.ts:89-98 | while the cache is younger than six hours the answer depends neither on the upstream nor on the write-time clock: nothing is fetched or written |
| ChangelogRoute.CacheNeverFails | app/api/changelog/route.ts:115-131 | once any cache exists every answer is a 200 success and a cache remains |
| ChangelogRoute.FailsOnlyWithoutCache | app/api/changelog/route.ts:133-139 | the route answers 500 if and only if it holds no cache and the fetch fails |
| ChangelogRoute.ServedMessagesAreSingleLines | app/api/changelog/route.ts:72 | whichever path answers, every served and every cached commit message is a single line |
| ChangelogRoute.RefillThenHit | app/api/changelog/route.ts:16-22 | after a refill, every request less than six hours after the cache was stamped gets the same commits, marked cached with their age since the stamp, whatever the upstream says |
| ChangelogRoute.FirstLineOfMessage | app/api/changelog/route.ts:72 | a message `head + "\n" + rest` keeps exactly `head` |
| ChangelogRoute.SingleCommitScenario | app/api/changelog/route.ts:87-114 | one commit with a multi-line message is cached and served as its first line with total 1 |
| AvatarRoute.Get | apps/web/app/api/github-avatar/route.ts:20-89 | the store keeps distinct keys and its capacity through every path of the route; a miss whose user lookup and download succeed is served as a MISS and stores the bytes with their type (`image/jpeg` if absent) for one hour from the write-time clock reading |
| AvatarRoute.MissStores | apps/web/app/api/github-avatar/route.ts:68-84 | after a successful download, `avatar:<username>` holds exactly the downloaded bytes and type, expiring one hour after the clock reading taken when it was written, after both upstream answers |
| AvatarRoute.MissingUsername | apps/web/app/api/github-avatar/route.ts:22-26 | without a username the answer is 400 "Username is required", with no upstream request and no store change |
| AvatarRoute.LiveEntryHits | apps/web/app/api/github-avatar/route.ts:31-41 | a live entry under `avatar:<username>` is served as a HIT with its bytes and type and no upstream request |
| AvatarRoute.MissServesNothingStale | apps/web/app/api/github-avatar/route.ts:43-84 | on a miss the user record is requested first; an image answer carries the freshly downloaded bytes as a MISS; an error leaves the store as the read left it |
| AvatarRoute.UpstreamStatusPassedThrough | apps/web/app/api/github-avatar/route.ts:50-66 | non-ok user or image statuses are passed through; a throw gives 500; a missing avatar URL gives 404 |
| AvatarRoute.MissThenHit | apps/web/app/api/github-avatar/route.ts:68-84 | a download is served as a MISS and stored for one hour with its type (`image/jpeg` if absent); up to an hour after that write the same user is a HIT with the same bytes and no request |
| GitHubUtils.PathParts | utils/github-utils.ts:23 | the path's segments are non-empty and contain no '/' |
| GitHubUtils.ParseGitHubUrl | utils/github-utils.ts:20-36 | a URL that does not parse gives null; otherwise owner and repo are the first two non-empty segments, and null when there are fewer than two |
| GitHubUtils.ParseRoundTrip | utils/github-utils.ts:22-30 | a pathname `/owner/repo`, optionally followed by further segments, parses back to exactly that owner and repo |
| GitHubUtils.ShortPathRefused | utils/github-utils.ts:25-32 | pathnames `/owner` and `/owner/` are refused |
| GitHubUtils.IconUrl | utils/github-utils.ts:55-71 | the raw-content address of `project-icon.<ext>` on a branch; `Candidates` lists it for main, then master |
| GitHubUtils.Candidates | utils/github-utils.ts:53-81 | the probe order: every extension on `main`, then every extension on `master`, each with its raw-content URL |
| GitHubUtils.GetProjectIcon | utils/github-utils.ts:42-84 | an unparseable URL gives null; a returned URL answered its HEAD with ok and is the raw URL of one branch/extension pair of the repository |
| GitHubUtils.UnparseableNeverProbes | utils/github-utils.ts:43-46 | for an unparseable URL the result does not depend on the probes |
| GitHubUtils.ProbeOrder | utils/github-utils.ts:53-81 | the answer is the first candidate in branch-then-extension order whose HEAD is ok |
| ProjectIconRoute.GenerateFallbackIcon | app/api/project-icon/route.ts:21-37 | the badge is the fixed trimmed template with the upper-cased first character, and only that, between its head and tail |
| ProjectIconRoute.FallbackDependsOnlyOnInitial | app/api/project-icon/route.ts:21-22 | two names get byte-identical badges if and only if their upper-cased initials agree |
| ProjectIconRoute.EmptyNameBadge | app/api/project-icon/route.ts:22 | an empty name gives the template with an empty letter |
| ProjectIconRoute.Get | app/api/project-icon/route.ts:39-113 | a missing or empty `repoUrl` gives 400 "Repository URL is required"; an unparseable one gives 400 "Invalid GitHub URL"; every error answer is a 400 |
| ProjectIconRoute.ParsedUrlServes | app/api/project-icon/route.ts:52-99 | a parsed URL always gets 200: the bytes of the first candidate whose HEAD and GET both succeed, typed `image/<ext>` if the upstream gives no type; else the repository's badge, exactly when no candidate serves |
| ProjectIconRoute.FailedDownloadSkipped | app/api/project-icon/route.ts:64-87 | a candidate whose GET fails or throws is skipped: the answer is the same as if that URL had never been served |
| ProjectIconView.ToInt32 | apps/web/components/home/ProjectIcon.tsx:39 | `hash \|= 0`: the int32 value congruent to the input modulo 2^32 |
| ProjectIconView.ToUint32 | apps/web/components/home/ProjectIcon.tsx:41 | `hash >>> 0`: the uint32 value congruent to the input modulo 2^32 |
| ProjectIconView.JsRem | apps/web/components/home/ProjectIcon.tsx:42-45 | JavaScript `%`: the remainder has the dividend's sign and satisfies `a == b * trunc(a / b) + r` |
| ProjectIconView.CodeUnits | apps/web/components/home/ProjectIcon.tsx:37-38 | the UTF-16 code units `charCodeAt` walks: each below 2^16, at least one per character, none for "" |
| ProjectIconView.BmpCodeUnits | apps/web/components/home/ProjectIcon.tsx:37-38 | for a name without supplementary characters the code units are the characters |
| ProjectIconView.JsStepIsTimes31 | apps/web/components/home/ProjectIcon.tsx:38-39 | `(hash << 5) - hash + c`, then `\|= 0`, is `31 * hash + c` reduced to int32 |
| ProjectIconView.Hash | apps/web/components/home/ProjectIcon.tsx:35-40 | the `(hash << 5) - hash + code` loop with `hash \|= 0` over the code units; `HashIsPolynomial` states its value |
| ProjectIconView.HashIsPolynomial | apps/web/components/home/ProjectIcon.tsx:35-40 | the loop's result is the textbook polynomial hash (base 31) reduced to int32 |
| ProjectIconView.GradientOf | apps/web/components/home/ProjectIcon.tsx:41-47 | as written: hues in [0, 360), lightness 45/55, saturations only in [51, 89], and in [70, 89] for every non-negative hash |
| ProjectIconView.GradientStyle | apps/web/components/home/ProjectIcon.tsx:34-51 | a name's gradient is the as-written derivation applied to the base-31 polynomial of its UTF-16 code units reduced to int32; hues in [0, 360) and saturations in [51, 89] |
| ProjectIconView.EmptyNameGradient | apps/web/components/home/ProjectIcon.tsx:35-47 | the empty name hashes to 0 and gets hues 0 and 120 with saturation 70 on both stops |
| ProjectIconView.SaturationFloor | apps/web/components/home/ProjectIcon.tsx:44 | the hash -19 * 2^16 drives the first saturation down to 51 |
| ProjectIconView.PortfolioHash | apps/web/components/home/ProjectIcon.tsx:36-40 | the code units of "portfolio-v2" hash to -160805599 |
| ProjectIconView.PortfolioSaturation | apps/web/components/home/ProjectIcon.tsx:34-51 | the name "portfolio-v2" gets saturations 56 and 60, outside the commented 70-89 |
| ProjectIconView.GradientOfUnsigned | apps/web/components/home/ProjectIcon.tsx:41-47 | with unsigned shifts: hues in [0, 360), both saturations in [70, 89], lightness 45/55 |
| ProjectIconView.UnsignedAgreesOnNonNegative | apps/web/components/home/ProjectIcon.tsx:41-45 | on a non-negative hash the unsigned derivation is the one written |
| ProjectIconView.GradientStyleUnsigned | apps/web/components/home/ProjectIcon.tsx:34-51 | with unsigned shifts every name's saturations lie in [70, 89] |
| ProjectIconView.Initial | apps/web/components/home/ProjectIcon.tsx:29-31 | the first render is loading exactly when a non-empty `repoUrl` is given, with no icon and not real |
| ProjectIconView.ApiUrl | apps/web/components/home/ProjectIcon.tsx:62 | the icon address is never empty |
| ProjectIconView.Effect | apps/web/components/home/ProjectIcon.tsx:53-76 | once settled, loading is off; without `repoUrl` only loading changes; otherwise the icon is the API address and is real exactly when the header is `real` |
| ProjectIconView.OnImageError | apps/web/components/home/ProjectIcon.tsx:91-95 | an image error drops the address and the real flag and leaves loading alone |
| ProjectIconView.Render | apps/web/components/home/ProjectIcon.tsx:79-103 | spinner exactly while loading; the image exactly when not loading with a non-empty address marked real; otherwise the upper-cased initial |
| ProjectIconView.NoRepoShowsLetter | apps/web/components/home/ProjectIcon.tsx:53-57 | without `repoUrl` the letter is shown from the first render on, whatever the HEAD would say |
| ProjectIconView.RealIconIffHeader | apps/web/components/home/ProjectIcon.tsx:65-75 | after the HEAD settles, the image is shown if and only if the header said `real`, otherwise the letter |
| ProjectIconView.ImageErrorShowsLetter | apps/web/components/home/ProjectIcon.tsx:91-100 | after an image error the letter is shown |
| TwitterRoute.FindAuthor | app/api/social/twitter/route.ts:70 | a found author is one of the included users and has the tweet's author id; none is found only when no included user has that id |
| TwitterRoute.AuthorUsername | app/api/social/twitter/route.ts:75 | the author's username when found and non-empty, else the requested username |
| TwitterRoute.AuthorDisplayName | app/api/social/twitter/route.ts:76 | the author's name when found and non-empty, else the requested username |
| TwitterRoute.PostUrl | app/api/social/twitter/route.ts:81 | `https://x.com/<username>/status/<id>`, with the attributed username as `ToPost` chooses it |
| TwitterRoute.ToPost | app/api/social/twitter/route.ts:71-87 | id, platform and text come from the tweet; the post is attributed to the author found among the included users (username, name and profile image), each name falling back to the requested username; the URL links the attributed username; absent metrics are all zero |
| TwitterRoute.ToPosts | app/api/social/twitter/route.ts:69-88 | no `data` gives no posts; otherwise one post per tweet, in order |
| TwitterRoute.Get | app/api/social/twitter/route.ts:19-98 | every error is a 500; without a token the answer is "Twitter API token not configured" |
| TwitterRoute.MissingTokenCallsNothing | app/api/social/twitter/route.ts:25-32 | without a token the answer does not depend on either upstream |
| TwitterRoute.PostsFollowTweets | app/api/social/twitter/route.ts:34-90 | the username defaults to LunarcatOwO; a failed lookup or fetch gives the generic 500; else one post per tweet, attributed to the requested name when no author is included |
| TwitterRoute.MissingMetricsAreZero | app/api/social/twitter/route.ts:82-86 | each missing count becomes 0 and each present count is kept |
| BlueskyRoute.PostUrl | app/api/social/bluesky/route.ts:58 | the address is the author's profile post path followed by a '/'-free suffix of the URI that follows a '/' or is the whole URI |
| BlueskyRoute.ToPost | app/api/social/bluesky/route.ts:48-64 | id is the URI; the author is the feed item's author, its display name falling back to the handle; the URL is the profile post address ending in the URI's record key; missing counts are zero |
| BlueskyRoute.ToPosts | app/api/social/bluesky/route.ts:48-64 | over a feed whose every element has the fields the mapping reads: one post per feed item, each the mapping of the item at the same position |
| BlueskyRoute.Get | app/api/social/bluesky/route.ts:19-74 | the only error is the generic "Failed to fetch Bluesky posts" 500 |
| BlueskyRoute.PostsFollowFeed | app/api/social/bluesky/route.ts:21-66 | the handle defaults to lunarcatowo.space; a failed resolution, failed feed, missing feed or a feed element without `post`, `post.author`, `post.record` or `post.uri` gives the 500; otherwise, and only otherwise, one post per item, in order |
| BlueskyRoute.UrlEndsInRecordKey | app/api/social/bluesky/route.ts:58 | a URI `…/<rkey>` links to `/post/<rkey>` |
| SocialFeed.Received | components/home/SocialFeed.tsx:69-88 | an ok answer contributes its posts; a failed or thrown request contributes none |
| SocialFeed.Insert | components/home/SocialFeed.tsx:100 | inserting adds exactly the one post (as a multiset) |
| SocialFeed.InsertSorted | components/home/SocialFeed.tsx:100 | insertion keeps a list newest first |
| SocialFeed.SortNewestFirst | components/home/SocialFeed.tsx:100 | the sort result is newest first and a permutation of its input |
| SocialFeed.SortIsStable | components/home/SocialFeed.tsx:100 | posts sharing a timestamp keep their relative order (Bluesky's before Twitter's) |
| SocialFeed.SortKeepsSorted | components/home/SocialFeed.tsx:100 | a list already newest first is unchanged, so sorting twice is sorting once |
| SocialFeed.Load | components/home/SocialFeed.tsx:61-109 | loading ends; with no posts at all the error is "Failed to load social posts" and the old posts stay; else no error and the posts are both answers' posts, newest first |
| SocialFeed.NothingLoadedIsError | components/home/SocialFeed.tsx:90-92 | two failed or empty answers give the error |
| SocialFeed.FormatTimestamp | components/home/SocialFeed.tsx:117-126 | whole days ago when at least a day; else whole hours (1 to 23) when at least an hour; else "Just now", also for a future time |
| SocialFeed.FloorOfFloor | components/home/SocialFeed.tsx:120-121 | flooring to hours and then to days is flooring to days |
| SocialFeed.DaysLabelReadsBack | components/home/SocialFeed.tsx:123 | the days label is decimal digits followed by "d ago" and reads back as the elapsed whole days |
| SocialFeed.Filtered | components/home/SocialFeed.tsx:128-130 | "all" shows every post; a platform tab shows exactly the posts of that platform |
| SocialFeed.TabOfConcatenation | components/home/SocialFeed.tsx:128-130 | a tab keeps feed order: the tab of two lists joined is the two tabs joined |
| SocialFeed.TabsPartitionFeed | components/home/SocialFeed.tsx:128-130 | the sizes of the two platform tabs add up to the size of the feed |
| SocialFeed.SliceTo | components/home/SocialFeed.tsx:232 | `slice(0, end)`: a prefix of length `min(end, n)`, with a negative end counted back from the length |
| SocialFeed.Render | components/home/SocialFeed.tsx:201-232 | skeleton exactly while loading; the error view exactly when there is an error; "no posts" exactly when the tab is empty; otherwise the list is the tab's `slice(0, maxPosts)`: a prefix, at most `maxPosts` long, of a non-empty tab |
| SocialFeed.ShowsNewestOfPlatform | components/home/SocialFeed.tsx:128-232 | after a load the tab shows "no posts" exactly when it is empty; else its first `maxPosts` posts, newest first |
| SocialFeed.FilterKeepsOrder | components/home/SocialFeed.tsx:128-130 | filtering a newest-first list keeps it newest first |
| ProjectCarousel.Paginate | apps/web/components/home/ProjectCarousel.tsx:111-119 | the direction is recorded, and an in-range step moves the index by the step |
| ProjectCarousel.PaginateIsModular | apps/web/components/home/ProjectCarousel.tsx:114-117 | on a non-empty list a step of one either way stays in range and moves the index modulo the length |
| ProjectCarousel.PaginateWraps | apps/web/components/home/ProjectCarousel.tsx:115-116 | forward from the last slide goes to the first; back from the first goes to the last |
| ProjectCarousel.ForwardThenBack | apps/web/components/home/ProjectCarousel.tsx:111-119 | a step forward and a step back, in either order, return to the same slide |
| ProjectCarousel.EmptyListBackstep | apps/web/components/home/ProjectCarousel.tsx:115-116 | with no projects a step back leaves the index at -1 |
| ProjectCarousel.GoToSlide | apps/web/components/home/ProjectCarousel.tsx:121-124 | jumps to the index, with direction 1 exactly when moving forward and -1 otherwise |
| ProjectCarousel.GetStatusColor | apps/web/components/home/ProjectCarousel.tsx:70-84 | gray exactly for statuses outside the five known ones (in lower case); green exactly for "active" and "currently in active development"; blue exactly for "completed", yellow exactly for "in development", purple exactly for "wip" |
| ProjectCarousel.StatusIsCaseInsensitive | apps/web/components/home/ProjectCarousel.tsx:71 | statuses that differ only in letter case get the same colour |
| ProjectCarousel.StatusOfLowered | apps/web/components/home/ProjectCarousel.tsx:71 | lower-casing a status first changes nothing |
| ContributionGraph.DayCommits | components/changelog/ContributionGraph.tsx:69-75 | a day's commits, all made on that day |
| ContributionGraph.DayCommitsIsFilter | components/changelog/ContributionGraph.tsx:69-75 | a day's commits are the commits filtered by that day, in their original order |
| ContributionGraph.DayCommitsEmpty | components/changelog/ContributionGraph.tsx:71-74 | a day has no commits exactly when no commit falls on it |
| ContributionGraph.Days | components/changelog/ContributionGraph.tsx:66-78 | the listed days are distinct |
| ContributionGraph.DaysCover | components/changelog/ContributionGraph.tsx:66-78 | a day is listed exactly when some commit falls on it |
| ContributionGraph.Grouping | components/changelog/ContributionGraph.tsx:66-78 | the grouping's keys are the days in order of first appearance |
| ContributionGraph.Bucket | components/changelog/ContributionGraph.tsx:173 | `commitsByDate[dateStr] \|\| []`: the bucket of the day's entry, or nothing; `GroupingBuckets` proves it is that day's commits |
| ContributionGraph.GroupingBuckets | components/changelog/ContributionGraph.tsx:173 | `commitsByDate[day] \|\| []` is exactly that day's commits; a day has an entry exactly when it has commits |
| ContributionGraph.EachCommitInOneBucket | components/changelog/ContributionGraph.tsx:69-75 | a commit lies in a day's bucket if and only if it was made on that day |
| ContributionGraph.AddToGroups | components/changelog/ContributionGraph.tsx:69-73 | one commit joins the bucket of its own day (opened at the end on the day's first commit), so the grouping of the longer prefix results and the total size grows by one |
| ContributionGraph.TotalSize | components/changelog/ContributionGraph.tsx:132 | `Object.values(commitsByDate).flat().length`; `GroupByDate` proves it equals the number of commits |
| ContributionGraph.GroupByDate | components/changelog/ContributionGraph.tsx:66-78 | the push-per-commit loop builds exactly the declarative grouping, and its buckets hold every commit once in total |
| ContributionGraph.GroupingStepExisting | components/changelog/ContributionGraph.tsx:71-74 | a commit of a day already present goes to the end of that day's bucket |
| ContributionGraph.GroupingStepNew | components/changelog/ContributionGraph.tsx:71-74 | a commit of a new day opens its own bucket at the end |
| ContributionGraph.MaxCommits | components/changelog/ContributionGraph.tsx:99-102 | at least 1, at least every bucket's size, and attained by a bucket unless it is 1 |
| ContributionGraph.GetColor | components/changelog/ContributionGraph.tsx:105-114 | slate exactly for 0; each pink shade exactly on its quarter of `count / maxCommits`: below 1/4, from 1/4 to below 1/2, from 1/2 to below 3/4, and from 3/4 on (ratios above 1 included) |
| ContributionGraph.ColorIsMonotone | components/changelog/ContributionGraph.tsx:105-114 | more commits never give a darker shade |
| ContributionGraph.BusiestDayBrightest | components/changelog/ContributionGraph.tsx:99-114 | the busiest day gets the brightest shade |
| ContributionGraph.Weeks | components/changelog/ContributionGraph.tsx:117-123 | the weeks join back to the dates; all but the last have seven days; none is empty; there are ceil(n/7) of them |
| ContributionGraph.Toggle | components/changelog/ContributionGraph.tsx:179-183 | clicking the selected day deselects it; clicking any other day selects it |
| ContributionGraph.ToggleTwice | components/changelog/ContributionGraph.tsx:179-183 | clicking a day twice leaves nothing selected, whatever was selected before, unless that day was the selected one, which stays selected |
| ContributionGraph.SelectedCommits | components/changelog/ContributionGraph.tsx:125 | nothing without a non-empty selection; else something exactly when the day has an entry, and then it is that day's bucket |
| ContributionGraph.SelectedDayLists | components/changelog/ContributionGraph.tsx:125 | after grouping, a selected day lists exactly its commits, or nothing when it has none |
| ContributionGraph.ShortHash | components/changelog/ContributionGraph.tsx:224 | the first seven characters of the hash, or all of a shorter hash |
| TechCard.ColumnsFor | components/home/TechCard.tsx:89-97 | the md breakpoint gives 3 columns, else sm gives 2, else 1 |
| TechCard.DisplayCount | components/home/TechCard.tsx:109 | 3, 4 and 6 cards for 1, 2 and 3 columns |
| TechCard.Displayed | components/home/TechCard.tsx:110 | expanded shows every card; collapsed shows the first `min(n, count)` cards in order |
| TechCard.ShowToggle | components/home/TechCard.tsx:174 | `techCards.length > responsiveDisplayCount`; `ToggleIffSomethingHidden` proves it holds exactly when a card is hidden |
| TechCard.ToggleIffSomethingHidden | components/home/TechCard.tsx:174 | the toggle appears exactly when the collapsed grid leaves a card out |
| TechCard.CollapsedFillsRows | components/home/TechCard.tsx:108-110 | with enough cards the collapsed grid fills whole rows |
| TechCard.WiderShowsMore | components/home/TechCard.tsx:109-110 | a wider layout shows a longer prefix of the same cards |
| Strings.OrDefault | app/api/social/twitter/route.ts:21 | `x \|\| fallback`: a non-empty value is kept; absent and empty both give the fallback |
| Strings.Split | utils/github-utils.ts:23 | `split('/')` gives at least one part, and no part contains the separator |
| Strings.JoinSplit | utils/github-utils.ts:23 | joining the parts of a split gives back the string |
| Strings.SplitJoin | utils/github-utils.ts:23 | splitting a join of separator-free parts gives back the parts |
| Strings.SplitAtSep | utils/github-utils.ts:23 | the first separator ends the first part |
| Strings.SplitWithoutSep | utils/github-utils.ts:23 | a string without the separator splits into itself alone |
| Strings.Compact | utils/github-utils.ts:23 | `filter(Boolean)` keeps exactly the non-empty parts |
| Strings.CompactAppend | utils/github-utils.ts:23 | `filter(Boolean)` keeps the order of the parts |
| Strings.FirstPart | app/api/changelog/route.ts:72 | `split(sep)[0]`: a separator-free prefix ending at the first separator or the end |
| Strings.FirstPartIsPrefix | app/api/changelog/route.ts:72 | the first element of the split is that prefix |
| Strings.FirstPartAt | app/api/changelog/route.ts:72 | the first part ends exactly at the first separator |
| Strings.LastPart | app/api/social/bluesky/route.ts:58 | `split(sep).pop()`: a separator-free suffix that follows a separator or is the whole string |
| Strings.LastPartAfterSep | app/api/social/bluesky/route.ts:58 | the part after the last separator of `a + sep + b` is `b` |
| Strings.LastPartIsSuffix | app/api/social/bluesky/route.ts:58 | the last element of the split is that suffix |
| Strings.Lower | apps/web/components/home/ProjectCarousel.tsx:71 | `toLowerCase` over ASCII: same length, each character lowered |
| Strings.LowerIdempotent | apps/web/components/home/ProjectCarousel.tsx:71 | lowering twice is lowering once |
| Strings.UpperFirst | app/api/project-icon/route.ts:22 | `charAt(0).toUpperCase()`: empty exactly for the empty name, else the upper-cased first character (one code unit for a name starting in the Basic Multilingual Plane) |
| Strings.NatToString | components/home/SocialFeed.tsx:123-124 | the template-literal rendering of a count: decimal digits without a leading zero |
| Strings.NatToStringRoundTrip | components/home/SocialFeed.tsx:123 | the rendered digits read back as the number |
| Seqs.FirstMatch | app/api/social/twitter/route.ts:70 | `find`: the first accepted position, and none only when no element is accepted |
| Seqs.SameAcceptanceSameMatch | app/api/project-icon/route.ts:60-89 | two tests that agree on every element find the same first match |
| Seqs.Filter | components/home/SocialFeed.tsx:130 | `filter`: only accepted elements, every accepted element, and everything exactly when everything is accepted |
| Seqs.FilterEmpty | components/home/SocialFeed.tsx:130 | nothing passes exactly when no element is accepted |
| Seqs.FilterAppend | components/home/SocialFeed.tsx:130 | filtering distributes over concatenation |
| Seqs.FilterIdempotent | components/home/SocialFeed.tsx:130 | filtering twice is filtering once |
| Seqs.FilterPartition | components/home/SocialFeed.tsx:128-130 | complementary filters split a list, as a multiset, into two parts |

## Left out

- HTTP transport. Request headers, `fetch` and the response objects are left out. Upstream answers are parameters, shaped as listed above: a datatype of answers per route call, and a sequence of page answers for the changelog.
- JSON decoding. A body missing a field the code reads is one of the answer cases: Twitter's `data.id`, Bluesky's `feed`, and a Bluesky feed element without `post`, `post.author`, `post.record` or `post.uri`, which makes `feed.map` throw (the `Malformed` entry). Other missing fields, which JavaScript reads as `undefined` without throwing, are not modelled.
- The clock. `Date.now()` and `new Date()` are parameters. The routes take two readings: `now` for the reads before the upstream requests, and `storedAt` for the write after them.
- Date strings. They become instants through the parameter `parseDate`, and day keys through the parameter `dayKey`.
- The date helpers. `formatDate`, `getStartOfWeek`, `addDays` and the 52-week `allDates` range need calendars and time zones. `Weeks` is generic over the dates.
- The cleanup timer. The `setInterval` in utils/cache.ts:119-125 is timer scheduling; `Cleanup` models what each tick does.
- Module-level state. The two cache singletons and the changelog's module variable are explicit state. Each route takes that state and returns it.
- Overlapping requests. Two requests interleaving at an `await` are not modelled; each request runs to completion.
- `new URL(...)` and `searchParams.get`. A URL's pathname is the parameter `parse`, and query values arrive as `Option<string>`.
- `encodeURIComponent`. It is the parameter `encode`.
- `parseInt(limit)` in the posts routes. The limit is only forwarded to the upstream, so the model forwards the unparsed string for every input. `parseInt`'s normalisation is not modelled: "05", " 5", "5abc" and "5.9" all become 5, and a non-numeric limit becomes `NaN`.
- Case mapping outside ASCII. `toUpperCase` and `toLowerCase` are modelled for ASCII letters only.
- Strings.UpperFirst: `charAt(0)` returns one UTF-16 code unit. For a name that starts with a character outside the Basic Multilingual Plane (an emoji, say) the source's initial is a lone high surrogate. Dafny strings hold Unicode scalar values and cannot hold a lone surrogate, so the model's initial is the whole first character.
- Floating-point values: `NaN` timestamps in the sort or the relative-time label, and non-integer TTLs. `getColor` divides in floating point; the model compares by cross-multiplication. That is exact for commit counts.
- Markup and styling. Animation variants, Tailwind classes other than the badge and shade choices, swipe physics (`swipePower`) and card-height measurement are presentational.
- Media-query listeners. `ColumnsFor` takes the two breakpoint answers.
- Files outside the core: the Open Graph image route, the pages, layouts and other components.
- ProjectIconView.Effect: models the state after the HEAD request settles. It does not model the render between `setLoading(true)` and the answer, where the spinner shows.
- ProjectIconView.GradientOf: returns the six numbers, not the CSS `linear-gradient` string built from them.
- ChangelogRoute.PageAt: pages past the last one supplied answer an empty ok page, as GitHub does. This also bounds the pagination loop.
- ChangelogRoute.Get: the cache age is taken at the same `now` as the validity check; the source reads the clock twice, synchronously, one after the other.

## Findings

| source | as written | input that shows it | evidently intended | confidence | as-written member | corrected member |
|---|---|---|---|---|---|---|
| apps/web/components/home/ProjectIcon.tsx:43-45 | `uhash >> 8`, `>> 16` and `>> 24` are signed shifts. When the hash is negative (`uhash` at or above 2^31) the shifted value is negative, and JavaScript's `%` keeps the sign, so `70 + (… % 20)` drops below 70 | the name "portfolio-v2" hashes to -160805599. It gets saturations 56 and 60, and the hash -19 * 2^16 gives 51 | `>>>` (unsigned shifts), which keeps both saturations in the commented 70-89 | not executed | ProjectIconView.PortfolioSaturation | ProjectIconView.GradientStyleUnsigned |

=== FILE: avatar_route.dfy ===
/**
 * The avatar route: a cache-first proxy for a user's avatar image. A live
 * cache entry is served as a HIT; otherwise the user record and then the
 * image are fetched, the image is cached for one hour and served as a MISS.
 * There is no stale path: every upstream failure becomes an error status.
 */
module AvatarRoute {
  import opened Wrappers
  import opened ServerCache
  import opened Strings

  /** The answer to the user lookup: the `avatar_url` field, a non-ok status, or a thrown error. */
  datatype UserLookup = UserOk(avatarUrl: Option<string>) | UserNotOk(status: int) | UserThrew

  /** The answer to the image download. */
  datatype ImageFetch = ImageOk(bytes: seq<bv8>, contentType: Option<string>) | ImageNotOk(status: int) | ImageThrew

  const CacheControl: string := "public, max-age=3600, s-maxage=3600"

  datatype Response =
    | ImageResponse(bytes: seq<bv8>, contentType: string, cacheControl: string, xCache: string)
    | JsonError(status: int, error: string)
  {
    function Status(): int
    {
      if ImageResponse? then 200 else status
    }
  }

  /** The response, the avatar store afterwards, and the upstream URLs requested, in order. */
  datatype Outcome = Outcome(response: Response, cache: Cache<AvatarData>, calls: seq<string>)

  function CacheKey(username: string): string
  {
    "avatar:" + username
  }

  function UserUrl(username: string): string
  {
    "https://api.github.com/users/" + username
  }

  /**
   * `GET ?username=…`: the store is read at time `now`; `storedAt` is the
   * clock reading taken when the downloaded image is written, after both
   * upstream requests have answered.
   */
  function Get(username: Option<string>, cache: Cache<AvatarData>, now: int, storedAt: int,
               user: string -> UserLookup, image: string -> ImageFetch): (r: Outcome)
    requires DistinctKeys(cache.entries)
    ensures DistinctKeys(r.cache.entries)
    ensures r.cache.maxSize == cache.maxSize && r.cache.defaultTtl == cache.defaultTtl
    // a miss whose download succeeds is served and stored for an hour
    ensures username.Some? && username.value != "" &&
            ServerCache.Get(cache, CacheKey(username.value), now).value.None? &&
            user(UserUrl(username.value)).UserOk? &&
            user(UserUrl(username.value)).avatarUrl.Some? && user(UserUrl(username.value)).avatarUrl.value != "" &&
            image(user(UserUrl(username.value)).avatarUrl.value).ImageOk? ==>
      var fetched := image(user(UserUrl(username.value)).avatarUrl.value);
      var ct := OrDefault(fetched.contentType, "image/jpeg");
      && r.response == ImageResponse(fetched.bytes, ct, CacheControl, "MISS")
      && r.cache == Set(ServerCache.Get(cache, CacheKey(username.value), now).cache, CacheKey(username.value),
                        AvatarData(fetched.bytes, ct), Some(Hour), storedAt)
  {
    if username.None? || username.value == "" then
      Outcome(JsonError(400, "Username is required"), cache, [])
    else
      var key := CacheKey(username.value);
      var read := ServerCache.Get(cache, key, now);
      if read.value.Some? then
        Outcome(ImageResponse(read.value.value.buffer, read.value.value.contentType, CacheControl, "HIT"),
                read.cache, [])
      else
        var userUrl := UserUrl(username.value);
        match user(userUrl)
        case UserThrew => Outcome(JsonError(500, "Internal server error"), read.cache, [userUrl])
        case UserNotOk(status) => Outcome(JsonError(status, "Failed to fetch user data"), read.cache, [userUrl])
        case UserOk(avatarUrl) =>
          if avatarUrl.None? || avatarUrl.value == "" then
            Outcome(JsonError(404, "Avatar not found"), read.cache, [userUrl])
          else
            var calls := [userUrl, avatarUrl.value];
            match image(avatarUrl.value)
            case ImageThrew => Outcome(JsonError(500, "Internal server error"), read.cache, calls)
            case ImageNotOk(status) => Outcome(JsonError(status, "Failed to fetch avatar image"), read.cache, calls)
            case ImageOk(bytes, contentType) =>
              var ct := OrDefault(contentType, "image/jpeg");
              var stored := Set(read.cache, key, AvatarData(bytes, ct), Some(Hour), storedAt);
              Outcome(ImageResponse(bytes, ct, CacheControl, "MISS"), stored, calls)
  }

  /** Without a username the route answers 400 and touches neither the store nor the upstream. */
  lemma MissingUsername(username: Option<string>, cache: Cache<AvatarData>, now: int, storedAt: int,
                        user: string -> UserLookup, image: string -> ImageFetch)
    requires DistinctKeys(cache.entries)
    requires username.None? || username == Some("")
    ensures Get(username, cache, now, storedAt, user, image) == Outcome(JsonError(400, "Username is required"), cache, [])
  {
  }

  /** A live entry under `"avatar:" + username` is served as a HIT with no upstream request. */
  lemma LiveEntryHits(u: string, cache: Cache<AvatarData>, now: int, storedAt: int,
                      user: string -> UserLookup, image: string -> ImageFetch)
    requires DistinctKeys(cache.entries) && u != ""
    requires Lookup(cache.entries, "avatar:" + u).Some?
    requires !Expired(Lookup(cache.entries, "avatar:" + u).value, now)
    ensures var data := Lookup(cache.entries, "avatar:" + u).value.data;
      Get(Some(u), cache, now, storedAt, user, image) ==
        Outcome(ImageResponse(data.buffer, data.contentType, CacheControl, "HIT"), cache, [])
  {
  }

  /**
   * On a miss the route only ever errs or serves the freshly downloaded
   * image: it never serves an expired entry, and a failed request stores nothing.
   */
  lemma MissServesNothingStale(u: string, cache: Cache<AvatarData>, now: int, storedAt: int,
                               user: string -> UserLookup, image: string -> ImageFetch)
    requires DistinctKeys(cache.entries) && u != ""
    requires ServerCache.Get(cache, "avatar:" + u, now).value.None?
    ensures var r := Get(Some(u), cache, now, storedAt, user, image);
      && |r.calls| >= 1 && r.calls[0] == UserUrl(u)
      && (r.response.ImageResponse? ==>
            |r.calls| == 2 && image(r.calls[1]).ImageOk? && r.response.bytes == image(r.calls[1]).bytes
            && r.response.xCache == "MISS")
      && (r.response.JsonError? ==> r.cache == ServerCache.Get(cache, "avatar:" + u, now).cache)
  {
  }

  /** A non-ok upstream answer is passed through as the response status. */
  lemma UpstreamStatusPassedThrough(u: string, cache: Cache<AvatarData>, now: int, storedAt: int,
                                    user: string -> UserLookup, image: string -> ImageFetch)
    requires DistinctKeys(cache.entries) && u != ""
    requires ServerCache.Get(cache, "avatar:" + u, now).value.None?
    ensures user(UserUrl(u)).UserNotOk? ==>
      Get(Some(u), cache, now, storedAt, user, image).response.Status() == user(UserUrl(u)).status
    ensures user(UserUrl(u)).UserThrew? ==> Get(Some(u), cache, now, storedAt, user, image).response.Status() == 500
    ensures user(UserUrl(u)) == UserOk(None) || user(UserUrl(u)) == UserOk(Some("")) ==>
      Get(Some(u), cache, now, storedAt, user, image).response == JsonError(404, "Avatar not found")
    ensures var lookup := user(UserUrl(u));
      lookup.UserOk? && lookup.avatarUrl.Some? && lookup.avatarUrl.value != "" ==>
        var fetched := image(lookup.avatarUrl.value);
        && (fetched.ImageNotOk? ==> Get(Some(u), cache, now, storedAt, user, image).response.Status() == fetched.status)
        && (fetched.ImageThrew? ==> Get(Some(u), cache, now, storedAt, user, image).response.Status() == 500)
  {
  }

  /** A successful download is served as a MISS and stored under the key until one hour after it was written. */
  lemma MissStores(u: string, cache: Cache<AvatarData>, now: int, storedAt: int,
                   user: string -> UserLookup, image: string -> ImageFetch)
    requires DistinctKeys(cache.entries) && u != ""
    requires ServerCache.Get(cache, "avatar:" + u, now).value.None?
    requires var lookup := user(UserUrl(u));
      lookup.UserOk? && lookup.avatarUrl.Some? && lookup.avatarUrl.value != "" &&
      image(lookup.avatarUrl.value).ImageOk?
    ensures var fetched := image(user(UserUrl(u)).avatarUrl.value);
      var ct := OrDefault(fetched.contentType, "image/jpeg");
      var first := Get(Some(u), cache, now, storedAt, user, image);
      && first.response == ImageResponse(fetched.bytes, ct, CacheControl, "MISS")
      && Lookup(first.cache.entries, "avatar:" + u) == Some(Entry(AvatarData(fetched.bytes, ct), storedAt + Hour))
  {
    var read := ServerCache.Get(cache, CacheKey(u), now);
    assert EffectiveTtl(Some(Hour), read.cache.defaultTtl) == Hour;
  }

  /**
   * A successful download is stored under the key for one hour with its
   * content type (`image/jpeg` when the header is absent), served as a MISS,
   * and every request for the same user up to an hour after the write is a
   * HIT with the same bytes.
   */
  lemma MissThenHit(u: string, cache: Cache<AvatarData>, now: int, storedAt: int, later: int, laterStoredAt: int,
                    user: string -> UserLookup, image: string -> ImageFetch,
                    user2: string -> UserLookup, image2: string -> ImageFetch)
    requires DistinctKeys(cache.entries) && u != ""
    requires ServerCache.Get(cache, "avatar:" + u, now).value.None?
    requires var lookup := user(UserUrl(u));
      lookup.UserOk? && lookup.avatarUrl.Some? && lookup.avatarUrl.value != "" &&
      image(lookup.avatarUrl.value).ImageOk?
    requires later <= storedAt + Hour
    ensures var fetched := image(user(UserUrl(u)).avatarUrl.value);
      var ct := OrDefault(fetched.contentType, "image/jpeg");
      var first := Get(Some(u), cache, now, storedAt, user, image);
      && first.response == ImageResponse(fetched.bytes, ct, CacheControl, "MISS")
      && Lookup(first.cache.entries, "avatar:" + u) == Some(Entry(AvatarData(fetched.bytes, ct), storedAt + Hour))
      && Get(Some(u), first.cache, later, laterStoredAt, user2, image2).response == ImageResponse(fetched.bytes, ct, CacheControl, "HIT")
      && Get(Some(u), first.cache, later, laterStoredAt, user2, image2).calls == []
  {
    MissStores(u, cache, now, storedAt, user, image);
    LiveEntryHits(u, Get(Some(u), cache, now, storedAt, user, image).cache, later, laterStoredAt, user2, image2);
  }
}

=== FILE: bluesky_route.dfy ===
/**
 * The Bluesky posts route: resolve the handle to a DID, fetch the author
 * feed, and map each feed item to a common post. Upstream answers are
 * parameters; a non-ok answer or a thrown error becomes the same 500.
 * `parseDate` stands for `new Date(createdAt).getTime()`.
 */
module BlueskyRoute {
  import opened Wrappers
  import opened Strings
  import opened SocialPost

  const DefaultHandle: string := "lunarcatowo.space"
  const DefaultLimit: string := "5"

  datatype BskyAuthor = BskyAuthor(handle: string, displayName: Option<string>, avatar: Option<string>)

  /** A feed item's post: its AT URI, author, record text and date, and optional counts. */
  datatype FeedItem = FeedItem(
    uri: string,
    author: BskyAuthor,
    text: string,
    createdAt: string,
    likeCount: Option<int>,
    repostCount: Option<int>,
    replyCount: Option<int>)

  /**
   * One element of `feed`: a post with the fields the mapping reads, or an
   * element missing `post`, `post.author`, `post.record` or `post.uri`, on
   * which the mapping throws.
   */
  datatype FeedEntry = FeedPost(item: FeedItem) | Malformed

  datatype Resolve = Resolved(did: string) | ResolveFailed

  /** The feed answer: `feed` (absent makes `.map` throw), or a failure. */
  datatype FeedFetch = FeedOk(feed: Option<seq<FeedEntry>>) | FeedFailed

  /** Every element of the feed can be mapped without throwing. */
  predicate AllWellFormed(entries: seq<FeedEntry>)
  {
    forall i :: 0 <= i < |entries| ==> entries[i].FeedPost?
  }

  const FetchFailed: RouteResponse := ErrorBody(500, "Failed to fetch Bluesky posts")

  function ResolveUrl(handle: string): string
  {
    "https://public.api.bsky.app/xrpc/com.atproto.identity.resolveHandle?handle=" + handle
  }

  /** The post's web address: the author's profile and the last '/'-segment of the URI (the record key). */
  function PostUrl(handle: string, uri: string): (r: string)
    ensures var prefix := "https://bsky.app/profile/" + handle + "/post/";
      && |prefix| <= |r| && r[..|prefix|] == prefix
      && var rkey := r[|prefix|..];
      && '/' !in rkey
      && |rkey| <= |uri| && rkey == uri[|uri| - |rkey|..]
      && (|rkey| < |uri| ==> uri[|uri| - |rkey| - 1] == '/')
  {
    var rkey := LastPart(uri, '/');
    var r := "https://bsky.app/profile/" + handle + "/post/" + rkey;
    assert r[|"https://bsky.app/profile/" + handle + "/post/"|..] == rkey;
    r
  }

  /** The mapping of one feed item to a post. */
  function ToPost(item: FeedItem, parseDate: string -> int): (p: Post)
    ensures p.id == item.uri && p.platform == Bluesky && p.content == item.text
    ensures p.author.username == item.author.handle
    ensures p.author.displayName == (if item.author.displayName.Some? && item.author.displayName.value != ""
                                     then item.author.displayName.value else item.author.handle)
    ensures p.metrics.likes == (if item.likeCount.Some? then item.likeCount.value else 0)
    ensures p.metrics.reposts == (if item.repostCount.Some? then item.repostCount.value else 0)
    ensures p.metrics.replies == (if item.replyCount.Some? then item.replyCount.value else 0)
    ensures p.url == PostUrl(item.author.handle, item.uri)
    ensures p.author.avatar == item.author.avatar
  {
    Post(
      item.uri,
      Bluesky,
      Author(item.author.handle, OrDefault(item.author.displayName, item.author.handle), item.author.avatar),
      item.text,
      parseDate(item.createdAt),
      PostUrl(item.author.handle, item.uri),
      Metrics(item.likeCount.GetOr(0), item.repostCount.GetOr(0), item.replyCount.GetOr(0)))
  }

  /** `data.feed.map(...)` over a feed it can map: one post per feed item, in order. */
  function ToPosts(entries: seq<FeedEntry>, parseDate: string -> int): (r: seq<Post>)
    requires AllWellFormed(entries)
    ensures |r| == |entries|
    ensures forall i :: 0 <= i < |entries| ==> r[i] == ToPost(entries[i].item, parseDate)
  {
    seq(|entries|, i requires 0 <= i < |entries| => ToPost(entries[i].item, parseDate))
  }

  /**
   * `GET ?handle=…&limit=…`: `resolve(url)` answers the handle resolution
   * and `feed(did, limit)` the author-feed fetch.
   */
  function Get(handleParam: Option<string>, limitParam: Option<string>,
               resolve: string -> Resolve, feed: (string, string) -> FeedFetch,
               parseDate: string -> int): (r: RouteResponse)
    ensures r.ErrorBody? ==> r == FetchFailed
  {
    var handle := OrDefault(handleParam, DefaultHandle);
    var limit := OrDefault(limitParam, DefaultLimit);
    match resolve(ResolveUrl(handle))
    case ResolveFailed => FetchFailed
    case Resolved(did) =>
      match feed(did, limit)
      case FeedFailed => FetchFailed
      case FeedOk(None) => FetchFailed
      case FeedOk(Some(entries)) =>
        if AllWellFormed(entries) then PostsBody(ToPosts(entries, parseDate)) else FetchFailed
  }

  /**
   * The handle defaults to `lunarcatowo.space`; a failed resolution or feed,
   * or a feed element the mapping throws on, gives the generic 500;
   * otherwise there is one post per feed item, in order, identified by the
   * item's URI.
   */
  lemma PostsFollowFeed(handleParam: Option<string>, limitParam: Option<string>,
                        resolve: string -> Resolve, feed: (string, string) -> FeedFetch,
                        parseDate: string -> int)
    ensures var r := Get(handleParam, limitParam, resolve, feed, parseDate);
      var handle := if handleParam.None? || handleParam == Some("") then "lunarcatowo.space" else handleParam.value;
      var limit := if limitParam.None? || limitParam == Some("") then "5" else limitParam.value;
      var resolved := resolve(ResolveUrl(handle));
      && (resolved.ResolveFailed? ==> r == FetchFailed)
      && (resolved.Resolved? ==>
            var fetched := feed(resolved.did, limit);
            && (fetched.FeedFailed? || fetched == FeedOk(None) ==> r == FetchFailed)
            && (fetched.FeedOk? && fetched.feed.Some? ==>
                  var entries := fetched.feed.value;
                  && (r.PostsBody? <==> AllWellFormed(entries))
                  && (!AllWellFormed(entries) ==> r == FetchFailed)
                  && (AllWellFormed(entries) ==>
                        && |r.posts| == |entries|
                        && forall i :: 0 <= i < |r.posts| ==>
                             && r.posts[i].id == entries[i].item.uri
                             && r.posts[i].platform == Bluesky)))
  {
  }

  /** A post's address ends in the URI's record key, the text after its last '/'. */
  lemma UrlEndsInRecordKey(handle: string, collection: string, rkey: string)
    requires '/' !in rkey
    ensures PostUrl(handle, collection + "/" + rkey) == "https://bsky.app/profile/" + handle + "/post/" + rkey
  {
    LastPartAfterSep(collection, '/', rkey);
    assert collection + "/" + rkey == collection + ['/'] + rkey;
  }
}

=== FILE: changelog_route.dfy ===
/**
 * The changelog route: a single-slot commit cache valid for six hours,
 * refilled from the paginated commits API, that serves its last contents
 * stale when a refill fails and answers 500 only when it has never been filled.
 */
module ChangelogRoute {
  import opened Wrappers
  import Strings

  /** A commit as the route returns it. */
  datatype Commit = Commit(hash: string, date: string, author: string, message: string)

  /** One item of the commits API: sha, author name and date, full message. */
  datatype ApiCommit = ApiCommit(sha: string, authorName: string, authorDate: string, message: string)

  /** The answer to one page request: the decoded items, or a non-ok status (a thrown request lands here too). */
  datatype Page = PageOk(items: seq<ApiCommit>) | PageError(statusText: string)

  /** The outcome of the whole paginated fetch: every commit, or the error that aborted it. */
  datatype Fetch = Fetched(commits: seq<Commit>) | FetchFailed(statusText: string)

  const PerPage: nat := 100
  /** Six hours in milliseconds. */
  const CacheDuration: int := 6 * 60 * 60 * 1000

  datatype CacheData = CacheData(commits: seq<Commit>, timestamp: int)

  /**
   * The upstream, as the answers it would give: page `p` (counted from 1) is
   * `pages[p - 1]`; a page past the end of the history is an empty ok page.
   */
  function PageAt(pages: seq<Page>, p: int): Page
  {
    if 1 <= p <= |pages| then pages[p - 1] else PageOk([])
  }

  /** Whether the loop asks for the next page after this one. */
  predicate Continues(page: Page)
  {
    page.PageOk? && |page.items| >= PerPage
  }

  /** The number of leading pages after which the loop asks for another one. */
  function FullRun(pages: seq<Page>): (n: nat)
    ensures n <= |pages|
    ensures forall p :: 1 <= p <= n ==> Continues(PageAt(pages, p))
    ensures !Continues(PageAt(pages, n + 1))
  {
    if |pages| == 0 || !Continues(pages[0]) then 0
    else
      var n := FullRun(pages[1..]);
      assert forall p :: 2 <= p <= n + 2 ==> PageAt(pages, p) == PageAt(pages[1..], p - 1);
      n + 1
  }

  /** The items of a run of pages, concatenated in page order. */
  function ItemsOf(pages: seq<Page>): seq<ApiCommit>
  {
    if |pages| == 0 then []
    else
      var last := pages[|pages| - 1];
      ItemsOf(pages[..|pages| - 1]) + (if last.PageOk? then last.items else [])
  }

  /** `message.split('\n')[0]`: the first line, never containing a newline. */
  function FirstLine(message: string): (r: string)
    ensures '\n' !in r
    ensures |r| <= |message| && r == message[..|r|]
    ensures r == message || message[|r|] == '\n'
  {
    Strings.FirstPart(message, '\n')
  }

  function Transform(item: ApiCommit): (c: Commit)
    ensures c.hash == item.sha && c.date == item.authorDate && c.author == item.authorName
    ensures '\n' !in c.message && |c.message| <= |item.message| && c.message == item.message[..|c.message|]
    ensures c.message == item.message || item.message[|c.message|] == '\n'
  {
    Commit(item.sha, item.authorDate, item.authorName, FirstLine(item.message))
  }

  /** The per-item transform, one commit per item in order. */
  function TransformAll(items: seq<ApiCommit>): (r: seq<Commit>)
    ensures |r| == |items|
    ensures forall i :: 0 <= i < |items| ==> r[i] == Transform(items[i])
  {
    seq(|items|, i requires 0 <= i < |items| => Transform(items[i]))
  }

  /**
   * What `getCommitsFromGitHub` yields: the pages are read from page 1 while
   * they are ok and hold at least 100 items; the first page that is not ok
   * aborts everything, and the first short (or empty) page ends the list.
   */
  function FetchCommits(pages: seq<Page>): (r: Fetch)
    ensures var last := PageAt(pages, FullRun(pages) + 1);
      r.Fetched? <==> last.PageOk?
    ensures r.Fetched? ==>
      |r.commits| == |ItemsOf(pages[..FullRun(pages)])| + |PageAt(pages, FullRun(pages) + 1).items|
    ensures r.Fetched? ==> forall i :: 0 <= i < |r.commits| ==> '\n' !in r.commits[i].message
  {
    var n := FullRun(pages);
    var last := PageAt(pages, n + 1);
    if last.PageError? then FetchFailed(last.statusText)
    else Fetched(TransformAll(ItemsOf(pages[..n]) + last.items))
  }

  /** The pagination loop itself. */
  method GetCommitsFromGitHub(pages: seq<Page>) returns (r: Fetch)
    ensures r == FetchCommits(pages)
  {
    var commits: seq<Commit> := [];
    var page := 1;
    var hasMore := true;
    while hasMore
      invariant 1 <= page <= FullRun(pages) + 1
      invariant hasMore ==> commits == TransformAll(ItemsOf(pages[..page - 1]))
      invariant !hasMore ==>
        && page == FullRun(pages) + 1 && PageAt(pages, page).PageOk?
        && commits == TransformAll(ItemsOf(pages[..page - 1]) + PageAt(pages, page).items)
      decreases hasMore, |pages| + 1 - page
    {
      var response := PageAt(pages, page);
      if response.PageError? {
        return FetchFailed(response.statusText);
      }
      var data := response.items;
      if |data| == 0 {
        assert ItemsOf(pages[..page - 1]) + data == ItemsOf(pages[..page - 1]);
        hasMore := false;
        break;
      }
      assert TransformAll(ItemsOf(pages[..page - 1]) + data) ==
        TransformAll(ItemsOf(pages[..page - 1])) + TransformAll(data);
      commits := commits + TransformAll(data);
      if |data| < PerPage {
        hasMore := false;
      } else {
        assert pages[..page][..page - 1] == pages[..page - 1];
        assert ItemsOf(pages[..page]) == ItemsOf(pages[..page - 1]) + data;
        page := page + 1;
      }
    }
    return Fetched(commits);
  }

  /** `isCacheValid()` at time `now`: a cache exists and is strictly younger than six hours. */
  predicate IsCacheValid(cache: Option<CacheData>, now: int)
  {
    cache.Some? && now - cache.value.timestamp < CacheDuration
  }

  /** A cache stamped at `t` is valid up to, but not at, `t` plus six hours, and once stale it stays stale. */
  lemma CacheValidityWindow(commits: seq<Commit>, t: int, now: int, later: int)
    requires now <= later
    ensures IsCacheValid(Some(CacheData(commits, t)), now) <==> now < t + 21_600_000
    ensures !IsCacheValid(Some(CacheData(commits, t)), now) ==> !IsCacheValid(Some(CacheData(commits, t)), later)
  {
  }

  datatype Body =
    | Success(commits: seq<Commit>, total: int, cached: bool, stale: bool,
              cacheAge: Option<int>, error: Option<string>)
    | Failure(reason: string)

  datatype Response = Response(status: int, body: Body)

  /** The response and the route's cache slot after the request. */
  datatype Outcome = Outcome(response: Response, cache: Option<CacheData>)

  /**
   * `GET` with the cache slot `cache`, against the upstream `pages`: the
   * validity check and the age read the clock as `now`; a refill is stamped
   * `storedAt`, the clock reading taken after the upstream has answered.
   */
  function Get(cache: Option<CacheData>, now: int, storedAt: int, pages: seq<Page>): (r: Outcome)
    ensures IsCacheValid(cache, now) ==>
      r == Outcome(Response(200, Success(cache.value.commits, |cache.value.commits|, true, false,
                                         Some(now - cache.value.timestamp), None)), cache)
    ensures !IsCacheValid(cache, now) && FetchCommits(pages).Fetched? ==>
      var commits := FetchCommits(pages).commits;
      r == Outcome(Response(200, Success(commits, |commits|, false, false, None, None)),
                   Some(CacheData(commits, storedAt)))
    ensures !IsCacheValid(cache, now) && FetchCommits(pages).FetchFailed? && cache.Some? ==>
      r == Outcome(Response(200, Success(cache.value.commits, |cache.value.commits|, true, true,
                                         None, Some("Using stale cache due to error"))), cache)
    ensures !IsCacheValid(cache, now) && FetchCommits(pages).FetchFailed? && cache.None? ==>
      r == Outcome(Response(500, Failure("Failed to fetch commits")), None)
  {
    if IsCacheValid(cache, now) then
      var c := cache.value;
      Outcome(Response(200, Success(c.commits, |c.commits|, true, false, Some(now - c.timestamp), None)), cache)
    else
      match FetchCommits(pages)
      case Fetched(commits) =>
        Outcome(Response(200, Success(commits, |commits|, false, false, None, None)), Some(CacheData(commits, storedAt)))
      case FetchFailed(_) =>
        if cache.Some? then
          var c := cache.value;
          Outcome(Response(200, Success(c.commits, |c.commits|, true, true, None,
                                        Some("Using stale cache due to error"))), cache)
        else
          Outcome(Response(500, Failure("Failed to fetch commits")), None)
  }

  /** A valid cache answers without consulting the upstream, and without writing, at all. */
  lemma ValidCacheIgnoresUpstream(cache: Option<CacheData>, now: int, storedAt1: int, storedAt2: int,
                                  pages1: seq<Page>, pages2: seq<Page>)
    requires IsCacheValid(cache, now)
    ensures Get(cache, now, storedAt1, pages1) == Get(cache, now, storedAt2, pages2)
  {
  }

  /** Once any cache exists the route never fails: every answer is a 200 success. */
  lemma CacheNeverFails(cache: Option<CacheData>, now: int, storedAt: int, pages: seq<Page>)
    requires cache.Some?
    ensures Get(cache, now, storedAt, pages).response.status == 200
    ensures Get(cache, now, storedAt, pages).response.body.Success?
    ensures Get(cache, now, storedAt, pages).cache.Some?
  {
  }

  /** The route answers 500 exactly when it holds no cache and the fetch fails. */
  lemma FailsOnlyWithoutCache(cache: Option<CacheData>, now: int, storedAt: int, pages: seq<Page>)
    ensures Get(cache, now, storedAt, pages).response.status == 500 <==>
      cache.None? && FetchCommits(pages).FetchFailed?
  {
  }

  /** Every served commit message is a single line, whichever path served it. */
  lemma ServedMessagesAreSingleLines(cache: Option<CacheData>, now: int, storedAt: int, pages: seq<Page>)
    requires cache.Some? ==> forall i :: 0 <= i < |cache.value.commits| ==> '\n' !in cache.value.commits[i].message
    ensures var body := Get(cache, now, storedAt, pages).response.body;
      body.Success? ==> forall i :: 0 <= i < |body.commits| ==> '\n' !in body.commits[i].message
    ensures var c := Get(cache, now, storedAt, pages).cache;
      c.Some? ==> forall i :: 0 <= i < |c.value.commits| ==> '\n' !in c.value.commits[i].message
  {
  }

  /** A refill is served from the cache by every request in the six hours after it was stamped. */
  lemma RefillThenHit(now: int, storedAt: int, pages: seq<Page>, later: int, laterStoredAt: int, pages2: seq<Page>)
    requires FetchCommits(pages).Fetched?
    requires later < storedAt + CacheDuration
    ensures var first := Get(None, now, storedAt, pages);
      var second := Get(first.cache, later, laterStoredAt, pages2);
      && second.response.body == first.response.body.(cached := true, cacheAge := Some(later - storedAt))
      && second.cache == first.cache
  {
  }

  /** A message whose first line is `head` keeps just `head`. */
  lemma FirstLineOfMessage(head: string, rest: string)
    requires '\n' !in head
    ensures FirstLine(head + "\n" + rest) == head
  {
    var m := head + "\n" + rest;
    assert m[|head|] == '\n';
    assert forall j :: 0 <= j < |head| ==> m[j] == head[j];
    Strings.FirstPartAt(m, '\n', |head|);
    assert m[..|head|] == head;
  }

  /**
   * One commit whose message has a body (say "Initial commit\nmore body"):
   * the route caches it and serves only its first line, with a total of 1.
   */
  lemma SingleCommitScenario(now: int, storedAt: int, sha: string, date: string, author: string, head: string, rest: string)
    requires '\n' !in head
    ensures var item := ApiCommit(sha, author, date, head + "\n" + rest);
      var expected := [Commit(sha, date, author, head)];
      Get(None, now, storedAt, [PageOk([item])]) ==
        Outcome(Response(200, Success(expected, 1, false, false, None, None)), Some(CacheData(expected, storedAt)))
  {
    var item := ApiCommit(sha, author, date, head + "\n" + rest);
    var pages := [PageOk([item])];
    assert FullRun(pages) == 0;
    assert pages[..0] == [];
    FirstLineOfMessage(head, rest);
    assert TransformAll([] + [item]) == [Transform(item)];
  }
}

=== FILE: contribution_graph.dfy ===
/**
 * The contribution graph: grouping commits by calendar day, the colour
 * bucket of a day's count, splitting the days into weeks, and selecting a
 * day. `dayKey` stands for formatting a commit's date as YYYY-MM-DD in the
 * local time zone.
 */
module ContributionGraph {
  import opened Wrappers
  import opened Seqs
  import opened ChangelogRoute

  /** `commitsByDate`: day keys in the order they first appear, each with its commits. */
  type Groups = seq<(string, seq<Commit>)>

  /** The test "was made on day `day`". */
  function OnDay(dayKey: string -> string, day: string): Commit -> bool
  {
    (c: Commit) => dayKey(c.date) == day
  }

  /** The commits made on `day`, in their original order. */
  function DayCommits(dayKey: string -> string, commits: seq<Commit>, day: string): (r: seq<Commit>)
    ensures |r| <= |commits|
    ensures forall i :: 0 <= i < |r| ==> dayKey(r[i].date) == day
  {
    if |commits| == 0 then []
    else
      var last := commits[|commits| - 1];
      DayCommits(dayKey, commits[..|commits| - 1], day) + (if dayKey(last.date) == day then [last] else [])
  }

  /** The commits of a day are the commits filtered by that day. */
  lemma {:induction false} DayCommitsIsFilter(dayKey: string -> string, commits: seq<Commit>, day: string)
    ensures DayCommits(dayKey, commits, day) == Filter(commits, OnDay(dayKey, day))
  {
    if |commits| > 0 {
      var prefix := commits[..|commits| - 1];
      var last := commits[|commits| - 1];
      assert prefix + [last] == commits;
      DayCommitsIsFilter(dayKey, prefix, day);
      DayCommitsIsFilterStep(dayKey, prefix, last, day);
    }
  }

  lemma DayCommitsIsFilterStep(dayKey: string -> string, prefix: seq<Commit>, last: Commit, day: string)
    requires DayCommits(dayKey, prefix, day) == Filter(prefix, OnDay(dayKey, day))
    ensures DayCommits(dayKey, prefix + [last], day) == Filter(prefix + [last], OnDay(dayKey, day))
  {
    assert (prefix + [last])[..|prefix|] == prefix;
    FilterSnoc(prefix, last, OnDay(dayKey, day));
  }

  /** A day has no commits exactly when no commit falls on it. */
  lemma {:induction false} DayCommitsEmpty(dayKey: string -> string, commits: seq<Commit>, day: string)
    ensures DayCommits(dayKey, commits, day) == [] <==> forall i :: 0 <= i < |commits| ==> dayKey(commits[i].date) != day
  {
    if |commits| > 0 {
      var prefix := commits[..|commits| - 1];
      DayCommitsEmpty(dayKey, prefix, day);
      assert forall i :: 0 <= i < |prefix| ==> prefix[i] == commits[i];
    }
  }

  predicate Distinct(days: seq<string>)
  {
    forall i, j :: 0 <= i < j < |days| ==> days[i] != days[j]
  }

  /** The distinct days of the commits, in order of first appearance. */
  function Days(dayKey: string -> string, commits: seq<Commit>): (r: seq<string>)
    ensures Distinct(r)
  {
    if |commits| == 0 then []
    else
      var d := Days(dayKey, commits[..|commits| - 1]);
      var day := dayKey(commits[|commits| - 1].date);
      if day in d then d else d + [day]
  }

  /** A day is listed exactly when some commit falls on it. */
  lemma {:induction false} DaysCover(dayKey: string -> string, commits: seq<Commit>, day: string)
    ensures day in Days(dayKey, commits) <==> exists i :: 0 <= i < |commits| && dayKey(commits[i].date) == day
  {
    if |commits| > 0 {
      var prefix := commits[..|commits| - 1];
      DaysCover(dayKey, prefix, day);
      assert forall i :: 0 <= i < |prefix| ==> prefix[i] == commits[i];
      if exists i :: 0 <= i < |commits| && dayKey(commits[i].date) == day {
        var i :| 0 <= i < |commits| && dayKey(commits[i].date) == day;
        if i < |prefix| {
          assert dayKey(prefix[i].date) == day;
        }
      }
    }
  }

  /** The grouping as a definition: each day of the commits with exactly the commits of that day, in order. */
  function Grouping(dayKey: string -> string, commits: seq<Commit>): (g: Groups)
    ensures Firsts(g) == Days(dayKey, commits)
  {
    var days := Days(dayKey, commits);
    seq(|days|, i requires 0 <= i < |days| => (days[i], DayCommits(dayKey, commits, days[i])))
  }

  /** The commits `commitsByDate[day] || []` yields. */
  function Bucket(g: Groups, day: string): (r: seq<Commit>)
  {
    match FirstMatch(g, (e: (string, seq<Commit>)) => e.0 == day)
    case Some(i) => g[i].1
    case None => []
  }

  /**
   * Every commit lies in the bucket of its own day, and each bucket holds
   * exactly that day's commits in their original order; a day without
   * commits has no entry.
   */
  lemma GroupingBuckets(dayKey: string -> string, commits: seq<Commit>, day: string)
    ensures Bucket(Grouping(dayKey, commits), day) == DayCommits(dayKey, commits, day)
    ensures day in Firsts(Grouping(dayKey, commits)) <==> |DayCommits(dayKey, commits, day)| > 0
  {
    var g := Grouping(dayKey, commits);
    var days := Days(dayKey, commits);
    var m := FirstMatch(g, (e: (string, seq<Commit>)) => e.0 == day);
    DaysCover(dayKey, commits, day);
    DayCommitsEmpty(dayKey, commits, day);
    if m.Some? {
      assert days[m.value] == day;
    } else {
      assert day !in days;
    }
  }

  /** A commit is listed under its own day and under no other. */
  lemma EachCommitInOneBucket(dayKey: string -> string, commits: seq<Commit>, i: nat, day: string)
    requires i < |commits|
    ensures commits[i] in Bucket(Grouping(dayKey, commits), day) <==> dayKey(commits[i].date) == day
  {
    GroupingBuckets(dayKey, commits, day);
    DayCommitsIsFilter(dayKey, commits, day);
  }

  /** The sum of the bucket sizes. */
  function TotalSize(g: Groups): nat
  {
    if |g| == 0 then 0 else TotalSize(g[..|g| - 1]) + |g[|g| - 1].1|
  }

  lemma {:induction false} TotalSizeUpdate(g: Groups, j: nat, e: (string, seq<Commit>))
    requires j < |g|
    ensures TotalSize(g[j := e]) == TotalSize(g) - |g[j].1| + |e.1|
  {
    var n := |g|;
    if j < n - 1 {
      assert g[j := e][..n - 1] == g[..n - 1][j := e];
      TotalSizeUpdate(g[..n - 1], j, e);
    } else {
      assert g[j := e][..n - 1] == g[..n - 1];
    }
  }

  /**
   * `commitsByDate`, as the component builds it: for each commit in turn,
   * push it onto its day's list, creating the list on the day's first commit.
   */
  method GroupByDate(dayKey: string -> string, commits: seq<Commit>) returns (grouped: Groups)
    ensures grouped == Grouping(dayKey, commits)
    ensures TotalSize(grouped) == |commits|
  {
    grouped := [];
    var i := 0;
    while i < |commits|
      invariant i <= |commits|
      invariant grouped == Grouping(dayKey, commits[..i])
      invariant TotalSize(grouped) == i
    {
      assert commits[..i + 1] == commits[..i] + [commits[i]];
      grouped := AddToGroups(dayKey, commits[..i], grouped, commits[i]);
      i := i + 1;
    }
    assert commits[..i] == commits;
  }

  /** One step of the grouping loop: `c` joins its day's bucket, opened at the end if new. */
  method AddToGroups(dayKey: string -> string, prefix: seq<Commit>, grouped: Groups, c: Commit)
    returns (next: Groups)
    requires grouped == Grouping(dayKey, prefix) && TotalSize(grouped) == |prefix|
    ensures next == Grouping(dayKey, prefix + [c]) && TotalSize(next) == |prefix| + 1
  {
    var day := dayKey(c.date);
    assert (prefix + [c])[..|prefix|] == prefix;
    var found := FirstMatch(grouped, (e: (string, seq<Commit>)) => e.0 == day);
    if found.Some? {
      var j := found.value;
      TotalSizeUpdate(grouped, j, (day, grouped[j].1 + [c]));
      GroupingStepExisting(dayKey, prefix, c, j);
      next := grouped[j := (day, grouped[j].1 + [c])];
    } else {
      GroupingStepNew(dayKey, prefix, c);
      assert (grouped + [(day, [c])])[..|grouped|] == grouped;
      next := grouped + [(day, [c])];
    }
  }

  /** Appending a commit adds it to its own day and to no other. */
  lemma DayCommitsSnoc(dayKey: string -> string, xs: seq<Commit>, c: Commit, day: string)
    ensures DayCommits(dayKey, xs + [c], day)
         == DayCommits(dayKey, xs, day) + (if dayKey(c.date) == day then [c] else [])
  {
    var all := xs + [c];
    assert all[..|all| - 1] == xs;
  }

  lemma DaysSnoc(dayKey: string -> string, prefix: seq<Commit>, c: Commit)
    ensures var d := Days(dayKey, prefix);
      Days(dayKey, prefix + [c]) == if dayKey(c.date) in d then d else d + [dayKey(c.date)]
  {
    var all := prefix + [c];
    assert all[..|all| - 1] == prefix;
  }

  /** A commit of a day already present goes to the end of that day's bucket. */
  lemma GroupingStepExisting(dayKey: string -> string, prefix: seq<Commit>, c: Commit, j: nat)
    requires var g := Grouping(dayKey, prefix); j < |g| && g[j].0 == dayKey(c.date)
    ensures var g := Grouping(dayKey, prefix);
      Grouping(dayKey, prefix + [c]) == g[j := (dayKey(c.date), g[j].1 + [c])]
  {
    var g := Grouping(dayKey, prefix);
    var days := Days(dayKey, prefix);
    var day := dayKey(c.date);
    DaysSnoc(dayKey, prefix, c);
    var g2 := Grouping(dayKey, prefix + [c]);
    var target := g[j := (day, g[j].1 + [c])];
    assert days[j] == day;
    assert Days(dayKey, prefix + [c]) == days;
    forall k | 0 <= k < |g|
      ensures g2[k] == target[k]
    {
      DayCommitsSnoc(dayKey, prefix, c, days[k]);
      assert g2[k] == (days[k], DayCommits(dayKey, prefix + [c], days[k]));
      assert g[k] == (days[k], DayCommits(dayKey, prefix, days[k]));
      if k != j {
        assert days[k] != day;
        assert DayCommits(dayKey, prefix, days[k]) + [] == DayCommits(dayKey, prefix, days[k]);
      }
    }
  }

  /** A commit of a new day opens a bucket of its own at the end. */
  lemma GroupingStepNew(dayKey: string -> string, prefix: seq<Commit>, c: Commit)
    requires dayKey(c.date) !in Firsts(Grouping(dayKey, prefix))
    ensures Grouping(dayKey, prefix + [c]) == Grouping(dayKey, prefix) + [(dayKey(c.date), [c])]
  {
    var g := Grouping(dayKey, prefix);
    var days := Days(dayKey, prefix);
    var day := dayKey(c.date);
    DaysSnoc(dayKey, prefix, c);
    var g2 := Grouping(dayKey, prefix + [c]);
    var target := g + [(day, [c])];
    assert day !in days;
    assert Days(dayKey, prefix + [c]) == days + [day];
    forall k | 0 <= k < |g|
      ensures g2[k] == target[k]
    {
      DayCommitsSnoc(dayKey, prefix, c, days[k]);
      assert g2[k] == (days[k], DayCommits(dayKey, prefix + [c], days[k]));
      assert g[k] == (days[k], DayCommits(dayKey, prefix, days[k]));
      assert days[k] != day;
      assert DayCommits(dayKey, prefix, days[k]) + [] == DayCommits(dayKey, prefix, days[k]);
    }
    DayCommitsSnoc(dayKey, prefix, c, day);
    GroupingBuckets(dayKey, prefix, day);
    assert DayCommits(dayKey, prefix, day) == [];
    assert DayCommits(dayKey, prefix + [c], day) == [] + [c] == [c];
    assert g2[|g|] == (day, DayCommits(dayKey, prefix + [c], day)) == target[|g|];
    assert |g2| == |target|;
  }

  // ---------------------------------------------------------------------------
  // Colour buckets
  // ---------------------------------------------------------------------------

  /** `Math.max(...sizes, 1)`. */
  function MaxCommits(g: Groups): (r: nat)
    ensures r >= 1
    ensures forall i :: 0 <= i < |g| ==> |g[i].1| <= r
    ensures r == 1 || exists i :: 0 <= i < |g| && |g[i].1| == r
  {
    if |g| == 0 then 1
    else
      var m := MaxCommits(g[..|g| - 1]);
      var last := |g[|g| - 1].1|;
      assert forall i :: 0 <= i < |g| - 1 ==> g[..|g| - 1][i] == g[i];
      if last > m then last else m
  }

  datatype Shade = Slate | Pink900 | Pink700 | Pink600 | Pink500
  {
    /** Darker to brighter. */
    function Rank(): nat
    {
      match this
      case Slate => 0
      case Pink900 => 1
      case Pink700 => 2
      case Pink600 => 3
      case Pink500 => 4
    }
  }

  /**
   * `getColor(count)`: slate for no commits, otherwise the quarter of
   * `min(count / maxCommits, 1)` it falls in. The ratio is compared by
   * cross-multiplication, which is exact.
   */
  function GetColor(count: nat, maxCommits: nat): (r: Shade)
    requires maxCommits >= 1
    ensures r == Slate <==> count == 0
    ensures r == Pink900 <==> 0 < count && 4 * count < maxCommits
    ensures r == Pink700 <==> 0 < count && maxCommits <= 4 * count && 2 * count < maxCommits
    ensures r == Pink600 <==> 0 < count && maxCommits <= 2 * count && 4 * count < 3 * maxCommits
    ensures r == Pink500 <==> 0 < count && 4 * count >= 3 * maxCommits
  {
    if count == 0 then Slate
    else if count >= maxCommits then Pink500
    else if 4 * count < maxCommits then Pink900
    else if 2 * count < maxCommits then Pink700
    else if 4 * count < 3 * maxCommits then Pink600
    else Pink500
  }

  /** More commits never give a darker shade. */
  lemma ColorIsMonotone(a: nat, b: nat, maxCommits: nat)
    requires maxCommits >= 1 && a <= b
    ensures GetColor(a, maxCommits).Rank() <= GetColor(b, maxCommits).Rank()
  {
  }

  /** The busiest day, and any count at or above the maximum, gets the brightest shade. */
  lemma BusiestDayBrightest(g: Groups, i: nat)
    requires i < |g| && |g[i].1| == MaxCommits(g)
    ensures GetColor(|g[i].1|, MaxCommits(g)) == Pink500
  {
  }

  // ---------------------------------------------------------------------------
  // Weeks
  // ---------------------------------------------------------------------------

  function Flatten<T>(chunks: seq<seq<T>>): seq<T>
  {
    if |chunks| == 0 then [] else Flatten(chunks[..|chunks| - 1]) + chunks[|chunks| - 1]
  }

  /** `weeks`: consecutive slices of seven days; only the last may be shorter. */
  method Weeks<T>(allDates: seq<T>) returns (weeks: seq<seq<T>>)
    ensures Flatten(weeks) == allDates
    ensures forall w :: 0 <= w < |weeks| ==> 0 < |weeks[w]| <= 7
    ensures forall w :: 0 <= w < |weeks| - 1 ==> |weeks[w]| == 7
    ensures |weeks| == (|allDates| + 6) / 7
  {
    weeks := [];
    var i := 0;
    while i < |allDates|
      invariant i == 7 * |weeks| || (i >= |allDates| && |weeks| > 0)
      invariant i <= |allDates| ==> Flatten(weeks) == allDates[..i]
      invariant i > |allDates| ==> Flatten(weeks) == allDates
      invariant forall w :: 0 <= w < |weeks| ==> 0 < |weeks[w]| <= 7
      invariant forall w :: 0 <= w < |weeks| - 1 ==> |weeks[w]| == 7
      invariant i < |allDates| ==> forall w :: 0 <= w < |weeks| ==> |weeks[w]| == 7
      invariant |weeks| == (if i < |allDates| then i / 7 else (|allDates| + 6) / 7)
      decreases |allDates| - i
    {
      var end := if i + 7 < |allDates| then i + 7 else |allDates|;
      var week := allDates[i..end];
      assert (weeks + [week])[..|weeks|] == weeks;
      assert allDates[..i] + week == allDates[..end];
      weeks := weeks + [week];
      i := i + 7;
      if i >= |allDates| {
        assert allDates[..end] == allDates;
      }
    }
  }

  // ---------------------------------------------------------------------------
  // Selecting a day
  // ---------------------------------------------------------------------------

  /** Clicking a day's square: the selected day is deselected, any other day is selected. */
  function Toggle(selected: Option<string>, clicked: string): (r: Option<string>)
    ensures selected == Some(clicked) ==> r.None?
    ensures selected != Some(clicked) ==> r == Some(clicked)
  {
    if selected == Some(clicked) then None else Some(clicked)
  }

  /**
   * Clicking the same square twice leaves nothing selected, whatever was
   * selected before, unless that square was the selected one: then it is selected again.
   */
  lemma ToggleTwice(selected: Option<string>, clicked: string)
    ensures selected != Some(clicked) ==> Toggle(Toggle(selected, clicked), clicked) == None
    ensures selected == Some(clicked) ==> Toggle(Toggle(selected, clicked), clicked) == selected
  {
  }

  /**
   * `selectedDateCommits`: the commits listed under the graph. Nothing is
   * listed without a (non-empty) selection or when the selected day has no
   * entry; an entry is listed even if it were empty, as an empty array is truthy.
   */
  function SelectedCommits(g: Groups, selected: Option<string>): (r: Option<seq<Commit>>)
    ensures selected.None? || selected == Some("") ==> r.None?
    ensures selected.Some? && selected.value != "" ==>
      (r.Some? <==> selected.value in Firsts(g))
    ensures r.Some? ==> r.value == Bucket(g, selected.value)
  {
    if selected.None? || selected.value == "" then None
    else
      match FirstMatch(g, (e: (string, seq<Commit>)) => e.0 == selected.value)
      case None => None
      case Some(i) => Some(g[i].1)
  }

  /** After grouping, a selected day lists exactly that day's commits, or nothing when it has none. */
  lemma SelectedDayLists(dayKey: string -> string, commits: seq<Commit>, day: string)
    requires day != ""
    ensures var r := SelectedCommits(Grouping(dayKey, commits), Some(day));
      var own := DayCommits(dayKey, commits, day);
      && (|own| == 0 ==> r.None?)
      && (|own| > 0 ==> r == Some(own))
  {
    GroupingBuckets(dayKey, commits, day);
  }

  /** `commit.hash.substring(0, 7)`. */
  function ShortHash(hash: string): (r: string)
    ensures |r| == if |hash| < 7 then |hash| else 7
    ensures r == hash[..|r|]
  {
    if |hash| < 7 then hash else hash[..7]
  }
}

=== FILE: github_utils.dfy ===
/**
 * Repository URL helpers: extracting `owner/repo` from a URL's path, the
 * ordered list of raw-content icon candidates, and the first-hit probe.
 *
 * The URL constructor is a parameter: `parse(url)` is the URL's pathname,
 * or `None` when the constructor throws.
 */
module GitHubUtils {
  import opened Wrappers
  import Strings
  import opened Seqs

  datatype RepoRef = RepoRef(owner: string, repo: string)

  /** `pathname.split('/').filter(Boolean)`. */
  function PathParts(pathname: string): (r: seq<string>)
    ensures forall i :: 0 <= i < |r| ==> r[i] != "" && '/' !in r[i]
  {
    var parts := Strings.Split(pathname, '/');
    var r := Strings.Compact(parts);
    assert forall i :: 0 <= i < |r| ==> r[i] in parts;
    r
  }

  /** `parseGitHubUrl(url)`: the first two non-empty path segments; the host is not looked at. */
  function ParseGitHubUrl(url: string, parse: string -> Option<string>): (r: Option<RepoRef>)
    ensures parse(url).None? ==> r.None?
    ensures parse(url).Some? ==> (r.Some? <==> |PathParts(parse(url).value)| >= 2)
    ensures r.Some? ==> var parts := PathParts(parse(url).value);
      r.value == RepoRef(parts[0], parts[1])
    ensures r.Some? ==> r.value.owner != "" && '/' !in r.value.owner && r.value.repo != "" && '/' !in r.value.repo
  {
    match parse(url)
    case None => None
    case Some(pathname) =>
      var parts := PathParts(pathname);
      if |parts| >= 2 then Some(RepoRef(parts[0], parts[1])) else None
  }

  /** The path `/owner/repo` followed by nothing or by further segments parses back to `owner` and `repo`. */
  lemma {:induction false} ParseRoundTrip(url: string, parse: string -> Option<string>, owner: string, repo: string, tail: string)
    requires owner != "" && '/' !in owner && repo != "" && '/' !in repo
    requires tail == "" || tail[0] == '/'
    requires parse(url) == Some("/" + owner + "/" + repo + tail)
    ensures ParseGitHubUrl(url, parse) == Some(RepoRef(owner, repo))
  {
    var path := "/" + owner + "/" + repo + tail;
    assert path == "" + ['/'] + (owner + "/" + repo + tail);
    assert owner + "/" + repo + tail == owner + ['/'] + (repo + tail);
    Strings.SplitAtSep("", '/', owner + "/" + repo + tail);
    Strings.SplitAtSep(owner, '/', repo + tail);
    var rest: seq<string>;
    if tail == "" {
      assert repo + tail == repo;
      Strings.SplitWithoutSep(repo, '/');
      rest := [];
    } else {
      assert repo + tail == repo + ['/'] + tail[1..];
      Strings.SplitAtSep(repo, '/', tail[1..]);
      rest := Strings.Split(tail[1..], '/');
    }
    var parts := Strings.Split(path, '/');
    assert parts == [""] + [owner] + [repo] + rest;
    Strings.CompactAppend([""] + [owner] + [repo], rest);
    CompactTwo(owner, repo);
  }

  lemma CompactTwo(owner: string, repo: string)
    requires owner != "" && repo != ""
    ensures Strings.Compact([""] + [owner] + [repo]) == [owner, repo]
  {
    var x := [""] + [owner] + [repo];
    assert x[0] == "" && x[1..] == [owner, repo];
    assert [owner, repo][0] == owner && [owner, repo][1..] == [repo];
    assert [repo][0] == repo && [repo][1..] == [];
    assert Strings.Compact([repo]) == [repo];
    assert Strings.Compact([owner, repo]) == [owner] + [repo];
  }

  /** A URL whose pathname has fewer than two non-empty segments is refused. */
  lemma ShortPathRefused(url: string, parse: string -> Option<string>, owner: string)
    requires '/' !in owner
    requires parse(url) == Some("/" + owner) || parse(url) == Some("/" + owner + "/")
    ensures ParseGitHubUrl(url, parse).None?
  {
    Strings.SplitWithoutSep(owner, '/');
    Strings.SplitAtSep("", '/', owner);
    Strings.SplitAtSep(owner, '/', "");
    assert "/" + owner == "" + ['/'] + owner;
    assert "/" + owner + "/" == "" + ['/'] + (owner + ['/'] + "");
    Strings.SplitAtSep("", '/', owner + ['/'] + "");
    assert Strings.Split("", '/') == [""];
    if parse(url) == Some("/" + owner) {
      assert PathParts("/" + owner) == Strings.Compact([""] + [owner]);
      assert ([""] + [owner])[1..] == [owner];
    } else {
      var path := "/" + owner + "/";
      assert Strings.Split(owner + ['/'] + "", '/') == [owner] + [""];
      assert Strings.Split(path, '/') == [""] + ([owner] + [""]);
      assert [""] + ([owner] + [""]) == [""] + [owner] + [""];
      assert PathParts(path) == Strings.Compact([""] + [owner] + [""]);
      assert ([""] + [owner] + [""])[1..] == [owner] + [""];
      assert ([owner] + [""])[1..] == [""];
      var x := [""] + [owner] + [""];
      assert x[0] == "" && x[1..] == [owner, ""];
      assert Strings.Compact([""]) == [];
      assert |Strings.Compact([owner, ""])| <= 1 by {
        assert [owner, ""][1..] == [""];
      }
    }
  }

  const Branches: seq<string> := ["main", "master"]

  /** The extensions `getProjectIcon` tries, in order. */
  const IconExtensions: seq<string> := ["png", "jpg", "jpeg", "svg", "ico", "webp", "avif"]

  function IconUrl(owner: string, repo: string, branch: string, ext: string): string
  {
    "https://raw.githubusercontent.com/" + owner + "/" + repo + "/" + branch + "/project-icon." + ext
  }

  datatype Candidate = Candidate(branch: string, ext: string, url: string)

  function BranchCandidates(owner: string, repo: string, branch: string, exts: seq<string>): (r: seq<Candidate>)
    ensures |r| == |exts|
    ensures forall e :: 0 <= e < |exts| ==> r[e] == Candidate(branch, exts[e], IconUrl(owner, repo, branch, exts[e]))
  {
    seq(|exts|, e requires 0 <= e < |exts| => Candidate(branch, exts[e], IconUrl(owner, repo, branch, exts[e])))
  }

  /** Every extension on `main`, then every extension on `master`. */
  function Candidates(owner: string, repo: string, exts: seq<string>): (r: seq<Candidate>)
    ensures |r| == 2 * |exts|
    ensures forall b, e :: 0 <= b < 2 && 0 <= e < |exts| ==>
      r[b * |exts| + e] == Candidate(Branches[b], exts[e], IconUrl(owner, repo, Branches[b], exts[e]))
  {
    var r := BranchCandidates(owner, repo, "main", exts) + BranchCandidates(owner, repo, "master", exts);
    assert forall b, e :: 0 <= b < 2 && 0 <= e < |exts| ==>
      r[b * |exts| + e] == Candidate(Branches[b], exts[e], IconUrl(owner, repo, Branches[b], exts[e])) by {
      forall b, e | 0 <= b < 2 && 0 <= e < |exts|
        ensures r[b * |exts| + e] == Candidate(Branches[b], exts[e], IconUrl(owner, repo, Branches[b], exts[e]))
      {
        if b == 0 {
          assert b * |exts| + e == e;
        } else {
          assert b * |exts| + e == |exts| + e;
        }
      }
    }
    r
  }

  /** The answer to a HEAD probe. */
  datatype Probe = HeadOk | HeadNotOk | HeadThrew

  /** `getProjectIcon(repoUrl)`: the URL of the first candidate whose HEAD request is ok. */
  function GetProjectIcon(repoUrl: string, parse: string -> Option<string>, head: string -> Probe): (r: Option<string>)
    ensures ParseGitHubUrl(repoUrl, parse).None? ==> r.None?
    ensures r.Some? ==> head(r.value).HeadOk?
    ensures r.Some? ==> var ref := ParseGitHubUrl(repoUrl, parse).value;
      exists b, e :: 0 <= b < 2 && 0 <= e < |IconExtensions| && r.value == IconUrl(ref.owner, ref.repo, Branches[b], IconExtensions[e])
  {
    match ParseGitHubUrl(repoUrl, parse)
    case None => None
    case Some(ref) =>
      var cands := Candidates(ref.owner, ref.repo, IconExtensions);
      match FirstMatch(cands, (c: Candidate) => head(c.url).HeadOk?)
      case None => None
      case Some(i) =>
        assert cands[(i / 7) * |IconExtensions| + i % 7] == cands[i];
        assert cands[i].url == IconUrl(ref.owner, ref.repo, Branches[i / 7], IconExtensions[i % 7]);
        Some(cands[i].url)
  }

  /** When the URL does not parse, no HEAD request is made: the answer does not depend on the probes. */
  lemma UnparseableNeverProbes(repoUrl: string, parse: string -> Option<string>, head1: string -> Probe, head2: string -> Probe)
    requires ParseGitHubUrl(repoUrl, parse).None?
    ensures GetProjectIcon(repoUrl, parse, head1) == GetProjectIcon(repoUrl, parse, head2) == None
  {
  }

  /**
   * The search order: `main` before `master`, and within a branch the
   * extension order; the answer is the first candidate whose HEAD is ok.
   */
  lemma ProbeOrder(repoUrl: string, parse: string -> Option<string>, head: string -> Probe, b: nat, e: nat)
    requires ParseGitHubUrl(repoUrl, parse).Some?
    requires b < 2 && e < |IconExtensions|
    requires var ref := ParseGitHubUrl(repoUrl, parse).value;
      head(IconUrl(ref.owner, ref.repo, Branches[b], IconExtensions[e])).HeadOk?
    requires var ref := ParseGitHubUrl(repoUrl, parse).value;
      forall b', e' :: 0 <= b' < 2 && 0 <= e' < |IconExtensions| && b' * 7 + e' < b * 7 + e ==>
        !head(IconUrl(ref.owner, ref.repo, Branches[b'], IconExtensions[e'])).HeadOk?
    ensures var ref := ParseGitHubUrl(repoUrl, parse).value;
      GetProjectIcon(repoUrl, parse, head) == Some(IconUrl(ref.owner, ref.repo, Branches[b], IconExtensions[e]))
  {
    var ref := ParseGitHubUrl(repoUrl, parse).value;
    var cands := Candidates(ref.owner, ref.repo, IconExtensions);
    var ok := (c: Candidate) => head(c.url).HeadOk?;
    var k := b * 7 + e;
    assert ok(cands[k]);
    forall j | 0 <= j < k ensures !ok(cands[j]) {
      var b', e' := j / 7, j % 7;
      assert b' * 7 + e' == j;
      assert cands[b' * |IconExtensions| + e'] == cands[j];
      assert cands[j].url == IconUrl(ref.owner, ref.repo, Branches[b'], IconExtensions[e']);
      assert !head(IconUrl(ref.owner, ref.repo, Branches[b'], IconExtensions[e'])).HeadOk?;
    }
    var m := FirstMatch(cands, ok);
    assert m == Some(k) by {
      assert m.Some?;
      assert !(m.value < k);
      assert !(m.value > k);
    }
  }
}

=== FILE: project_carousel.dfy ===
/**
 * The project carousel's slide index: stepping with wrap-around, jumping
 * to a slide, and the status badge class. Swipe physics and animation are
 * not modelled.
 */
module ProjectCarousel {
  import opened Strings

  /** `currentIndex` and the `direction` the last move took. */
  datatype Carousel = Carousel(index: int, direction: int)

  const Initial: Carousel := Carousel(0, 0)

  /** `paginate(newDirection)` over `length` projects: step, then wrap below 0 and at the end. */
  function Paginate(c: Carousel, newDirection: int, length: nat): (r: Carousel)
    ensures r.direction == newDirection
    ensures 0 <= c.index + newDirection < length ==> r.index == c.index + newDirection
  {
    var next := c.index + newDirection;
    var next := if next < 0 then length - 1 else next;
    var next := if next >= length then 0 else next;
    Carousel(next, newDirection)
  }

  /** With a non-empty list and a step of one either way, the index stays in range and moves modulo the length. */
  lemma PaginateIsModular(c: Carousel, newDirection: int, length: nat)
    requires length > 0 && 0 <= c.index < length
    requires newDirection == 1 || newDirection == -1
    ensures 0 <= Paginate(c, newDirection, length).index < length
    ensures Paginate(c, newDirection, length).index == (c.index + newDirection) % length
  {
  }

  /** Forward from the last slide goes to the first; back from the first goes to the last. */
  lemma PaginateWraps(c: Carousel, length: nat)
    requires length > 0
    ensures c.index == length - 1 ==> Paginate(c, 1, length).index == 0
    ensures c.index == 0 ==> Paginate(c, -1, length).index == length - 1
  {
  }

  /** A step forward and a step back return to the same slide. */
  lemma ForwardThenBack(c: Carousel, length: nat)
    requires length > 0 && 0 <= c.index < length
    ensures Paginate(Paginate(c, 1, length), -1, length).index == c.index
    ensures Paginate(Paginate(c, -1, length), 1, length).index == c.index
  {
  }

  /** With no projects, stepping back leaves the index at -1: the wrap to the end comes first, the wrap to 0 does not fire. */
  lemma EmptyListBackstep(c: Carousel)
    requires c.index == 0
    ensures Paginate(c, -1, 0).index == -1
  {
  }

  /** `goToSlide(index)`: jump, with direction 1 when moving forward and -1 otherwise. */
  function GoToSlide(c: Carousel, index: int): (r: Carousel)
    ensures r.index == index
    ensures r.direction == 1 <==> index > c.index
    ensures r.direction == -1 <==> index <= c.index
  {
    Carousel(index, if index > c.index then 1 else -1)
  }

  datatype StatusColor = Green | Blue | Yellow | Purple | Gray
  {
    /** The Tailwind classes of the badge. */
    function Classes(): string
    {
      match this
      case Green => "bg-green-900 text-green-200"
      case Blue => "bg-blue-900 text-blue-200"
      case Yellow => "bg-yellow-900 text-yellow-200"
      case Purple => "bg-purple-900 text-purple-200"
      case Gray => "bg-gray-800 text-gray-200"
    }
  }

  /** The badge colour of each known status, in lower case. */
  function KnownStatus(lowered: string): (r: StatusColor)
  {
    if lowered == "active" || lowered == "currently in active development" then Green
    else if lowered == "completed" then Blue
    else if lowered == "in development" then Yellow
    else if lowered == "wip" then Purple
    else Gray
  }

  /** `getStatusColor(status)`: the status is lower-cased before it is matched. */
  function GetStatusColor(status: string): (r: StatusColor)
    ensures r == Gray <==> Lower(status) !in {"active", "currently in active development", "completed", "in development", "wip"}
    ensures r == Green <==> Lower(status) == "active" || Lower(status) == "currently in active development"
    ensures r == Blue <==> Lower(status) == "completed"
    ensures r == Yellow <==> Lower(status) == "in development"
    ensures r == Purple <==> Lower(status) == "wip"
  {
    KnownStatus(Lower(status))
  }

  /** Statuses that differ only in letter case get the same colour. */
  lemma StatusIsCaseInsensitive(a: string, b: string)
    requires Lower(a) == Lower(b)
    ensures GetStatusColor(a) == GetStatusColor(b)
  {
  }

  /** Lower-casing a status first changes nothing. */
  lemma StatusOfLowered(status: string)
    ensures GetStatusColor(Lower(status)) == GetStatusColor(status)
  {
    LowerIdempotent(status);
  }
}

=== FILE: project_icon_route.dfy ===
/**
 * The project-icon route: validates `repoUrl`, probes the raw-content icon
 * candidates in order, serves the first one whose HEAD and GET both succeed,
 * and otherwise serves a generated SVG badge with the repository's initial.
 */
module ProjectIconRoute {
  import opened Wrappers
  import opened Strings
  import opened GitHubUtils
  import opened Seqs

  /** The extensions this route tries, in order (not the same list as `getProjectIcon`). */
  const RouteExtensions: seq<string> := ["png", "jpg", "jpeg", "svg", "webp", "gif"]

  const CacheControl: string := "public, max-age=3600, s-maxage=3600"

  /** The answer to the full GET of a candidate. */
  datatype Download = DownloadOk(bytes: seq<bv8>, contentType: Option<string>) | DownloadNotOk | DownloadThrew

  datatype Response =
    | Image(bytes: seq<bv8>, contentType: string, cacheControl: string)
    | Svg(text: string, contentType: string, cacheControl: string)
    | JsonError(status: int, error: string)
  {
    function Status(): int
    {
      if JsonError? then status else 200
    }
  }

  /** The badge text before the letter (the trimmed template up to `${letter}`). */
  const SvgHead: string :=
    "<svg width=\"64\" height=\"64\" viewBox=\"0 0 64 64\" xmlns=\"http://www.w3.org/2000/svg\">\n" +
    "      <defs>\n" +
    "        <linearGradient id=\"grad\" x1=\"0%\" y1=\"0%\" x2=\"100%\" y2=\"100%\">\n" +
    "          <stop offset=\"0%\" style=\"stop-color:#10b981;stop-opacity:1\" />\n" +
    "          <stop offset=\"100%\" style=\"stop-color:#2563eb;stop-opacity:1\" />\n" +
    "        </linearGradient>\n" +
    "      </defs>\n" +
    "      <rect width=\"64\" height=\"64\" rx=\"8\" fill=\"url(#grad)\"/>\n" +
    "      <text x=\"32\" y=\"42\" font-family=\"Arial, sans-serif\" font-size=\"28\" font-weight=\"bold\" text-anchor=\"middle\" fill=\"white\">"

  /** The badge text after the letter. */
  const SvgTail: string := "</text>\n    </svg>"

  /** `generateFallbackIcon(projectName)`: the fixed badge around the upper-cased first character. */
  function GenerateFallbackIcon(projectName: string): (svg: string)
    ensures |svg| == |SvgHead| + |UpperFirst(projectName)| + |SvgTail|
    ensures svg[..|SvgHead|] == SvgHead && svg[|svg| - |SvgTail|..] == SvgTail
    ensures svg[|SvgHead|..|svg| - |SvgTail|] == UpperFirst(projectName)
  {
    var svg := SvgHead + UpperFirst(projectName) + SvgTail;
    assert svg[|SvgHead|..|svg| - |SvgTail|] == UpperFirst(projectName);
    svg
  }

  /** The letter a badge carries: the text between the fixed head and tail. */
  function BadgeLetter(svg: string): string
    requires |svg| >= |SvgHead| + |SvgTail|
  {
    svg[|SvgHead|..|svg| - |SvgTail|]
  }

  /** Two names get the same badge exactly when their upper-cased initials agree. */
  lemma {:induction false} FallbackDependsOnlyOnInitial(a: string, b: string)
    ensures GenerateFallbackIcon(a) == GenerateFallbackIcon(b) <==> UpperFirst(a) == UpperFirst(b)
  {
    var sa, sb := GenerateFallbackIcon(a), GenerateFallbackIcon(b);
    if sa == sb {
      assert BadgeLetter(sa) == BadgeLetter(sb);
    }
  }

  /** An empty name gives a badge with an empty letter. */
  lemma EmptyNameBadge()
    ensures GenerateFallbackIcon("") == SvgHead + SvgTail
  {
  }

  /** Whether a candidate is served: its HEAD is ok and its GET is ok. A throw counts as neither. */
  predicate Serves(c: Candidate, head: string -> Probe, get: string -> Download)
  {
    head(c.url).HeadOk? && get(c.url).DownloadOk?
  }

  /** `GET ?repoUrl=…`. */
  function Get(repoUrl: Option<string>, parse: string -> Option<string>,
               head: string -> Probe, get: string -> Download): (r: Response)
    ensures repoUrl.None? || repoUrl == Some("") ==> r == JsonError(400, "Repository URL is required")
    ensures repoUrl.Some? && repoUrl.value != "" && ParseGitHubUrl(repoUrl.value, parse).None? ==>
      r == JsonError(400, "Invalid GitHub URL")
    ensures r.JsonError? ==> r.status == 400
  {
    if repoUrl.None? || repoUrl.value == "" then JsonError(400, "Repository URL is required")
    else match ParseGitHubUrl(repoUrl.value, parse)
      case None => JsonError(400, "Invalid GitHub URL")
      case Some(ref) =>
        var cands := Candidates(ref.owner, ref.repo, RouteExtensions);
        match FirstMatch(cands, (c: Candidate) => Serves(c, head, get))
        case Some(i) =>
          var download := get(cands[i].url);
          Image(download.bytes, OrDefault(download.contentType, "image/" + cands[i].ext), CacheControl)
        case None =>
          Svg(GenerateFallbackIcon(ref.repo), "image/svg+xml", CacheControl)
  }

  /**
   * A parsed URL always gets a 200: the bytes of the first candidate (main
   * before master, extensions in order) whose HEAD and GET both succeed,
   * with `image/<ext>` when the upstream sends no content type; or, when
   * none does, the badge of the repository name.
   */
  lemma ParsedUrlServes(url: string, parse: string -> Option<string>, head: string -> Probe, get: string -> Download)
    requires url != "" && ParseGitHubUrl(url, parse).Some?
    ensures var r := Get(Some(url), parse, head, get);
      var ref := ParseGitHubUrl(url, parse).value;
      var cands := Candidates(ref.owner, ref.repo, RouteExtensions);
      && r.Status() == 200
      && (r.Svg? <==> forall j :: 0 <= j < |cands| ==> !Serves(cands[j], head, get))
      && (r.Svg? ==> r == Svg(GenerateFallbackIcon(ref.repo), "image/svg+xml", CacheControl))
      && (r.Image? ==>
            exists i ::
              && 0 <= i < |cands| && Serves(cands[i], head, get)
              && (forall j :: 0 <= j < i ==> !Serves(cands[j], head, get))
              && r.bytes == get(cands[i].url).bytes
              && r.contentType == OrDefault(get(cands[i].url).contentType, "image/" + cands[i].ext))
  {
    var ref := ParseGitHubUrl(url, parse).value;
    var cands := Candidates(ref.owner, ref.repo, RouteExtensions);
    var m := FirstMatch(cands, (c: Candidate) => Serves(c, head, get));
    if m.Some? {
      var i := m.value;
      assert Serves(cands[i], head, get);
    }
  }

  /** A candidate whose HEAD succeeds but whose GET fails or throws is skipped. */
  lemma FailedDownloadSkipped(url: string, parse: string -> Option<string>, head: string -> Probe,
                              get: string -> Download, get2: string -> Download, skipped: string)
    requires url != "" && ParseGitHubUrl(url, parse).Some?
    requires !get(skipped).DownloadOk? && !get2(skipped).DownloadOk?
    requires forall u :: u != skipped ==> get(u) == get2(u)
    ensures Get(Some(url), parse, head, get) == Get(Some(url), parse, head, get2)
  {
    var ref := ParseGitHubUrl(url, parse).value;
    var cands := Candidates(ref.owner, ref.repo, RouteExtensions);
    var ok1 := (c: Candidate) => Serves(c, head, get);
    var ok2 := (c: Candidate) => Serves(c, head, get2);
    assert forall j :: 0 <= j < |cands| ==> ok1(cands[j]) == ok2(cands[j]);
    SameAcceptanceSameMatch(cands, ok1, ok2);
  }
}

=== FILE: project_icon_view.dfy ===
/**
 * The client-side project icon: the deterministic gradient derived from a
 * 32-bit hash of the project name, and the choice between spinner, real
 * icon and letter. JavaScript's 32-bit operators are written out over
 * unbounded integers.
 */
module ProjectIconView {
  import opened Wrappers
  import opened Strings

  const TwoTo31: int := 0x8000_0000
  const TwoTo32: int := 0x1_0000_0000

  /** ECMAScript ToInt32: the representative of `x` modulo 2^32 in [-2^31, 2^31). */
  function ToInt32(x: int): (r: int)
    ensures -TwoTo31 <= r < TwoTo31
    ensures (x - r) % TwoTo32 == 0
  {
    var m := x % TwoTo32;
    assert x == TwoTo32 * (x / TwoTo32) + m;
    if m >= TwoTo31 then m - TwoTo32 else m
  }

  /** ECMAScript ToUint32 (`x >>> 0`): the representative of `x` modulo 2^32 in [0, 2^32). */
  function ToUint32(x: int): (r: int)
    ensures 0 <= r < TwoTo32
    ensures (x - r) % TwoTo32 == 0
  {
    var m := x % TwoTo32;
    assert x == TwoTo32 * (x / TwoTo32) + m;
    m
  }

  /** The JavaScript `/` followed by truncation toward zero. */
  function JsQuot(a: int, b: int): int
    requires b > 0
  {
    if a >= 0 then a / b else -((-a) / b)
  }

  /** The JavaScript `%`, which truncates toward zero: the remainder takes the dividend's sign. */
  function JsRem(a: int, b: int): (r: int)
    requires b > 0
    ensures a >= 0 ==> 0 <= r < b
    ensures a < 0 ==> -b < r <= 0
    ensures a == b * JsQuot(a, b) + r
  {
    if a >= 0 then a % b else -((-a) % b)
  }

  function Pow2(n: nat): (r: int)
    ensures r >= 1
  {
    if n == 0 then 1 else 2 * Pow2(n - 1)
  }

  /** The JavaScript `x >> n` for 0 <= n < 32: a signed shift, rounding toward minus infinity. */
  function SignedShift(x: int, n: nat): int
    requires n < 32
  {
    ToInt32(x) / Pow2(n)
  }

  /** Two integers congruent modulo 2^32 have the same ToInt32. */
  lemma ToInt32Congruent(a: int, b: int)
    requires (a - b) % TwoTo32 == 0
    ensures ToInt32(a) == ToInt32(b)
  {
    var k := (a - b) / TwoTo32;
    assert a == b + TwoTo32 * k;
    assert a / TwoTo32 == b / TwoTo32 + k;
  }

  /** Adding a multiple of 2^32 does not change ToInt32. */
  lemma ToInt32Plus(b: int, k: int)
    ensures ToInt32(b + TwoTo32 * k) == ToInt32(b)
  {
    assert (b + TwoTo32 * k) / TwoTo32 == b / TwoTo32 + k;
  }

  /** A value already in int32 range is its own ToInt32. */
  lemma ToInt32OfInt32(x: int)
    requires -TwoTo31 <= x < TwoTo31
    ensures ToInt32(x) == x
  {
    if x < 0 {
      assert (x + TwoTo32) / TwoTo32 == 0;
    }
  }

  /** The UTF-16 code units `charCodeAt` walks: one per BMP character, a surrogate pair for the rest. */
  function CodeUnits(s: string): (r: seq<int>)
    ensures |r| >= |s|
    ensures |r| == 0 <==> |s| == 0
    ensures forall i :: 0 <= i < |r| ==> 0 <= r[i] < 0x1_0000
  {
    if |s| == 0 then []
    else
      var c := s[0] as int;
      var head := if c < 0x1_0000 then [c] else [0xD800 + (c - 0x1_0000) / 0x400, 0xDC00 + (c - 0x1_0000) % 0x400];
      head + CodeUnits(s[1..])
  }

  /** For a name without supplementary characters, the code units are the characters. */
  lemma {:induction false} BmpCodeUnits(s: string)
    requires forall i :: 0 <= i < |s| ==> (s[i] as int) < 0x1_0000
    ensures |CodeUnits(s)| == |s|
    ensures forall i :: 0 <= i < |s| ==> CodeUnits(s)[i] == s[i] as int
  {
    if |s| > 0 {
      BmpCodeUnits(s[1..]);
    }
  }

  /** One iteration of the loop: `hash = (hash << 5) - hash + code; hash |= 0`. */
  function JsStep(hash: int, code: int): int
  {
    ToInt32(ToInt32(hash * 32) - hash + code)
  }

  /** The loop's step is multiply-by-31-and-add, reduced to int32. */
  lemma JsStepIsTimes31(hash: int, code: int)
    ensures JsStep(hash, code) == ToInt32(31 * hash + code)
  {
    var t := ToInt32(hash * 32);
    assert ((t - hash + code) - (31 * hash + code)) % TwoTo32 == 0 by {
      assert (hash * 32 - t) % TwoTo32 == 0;
      var k := (hash * 32 - t) / TwoTo32;
      assert t - hash * 32 == TwoTo32 * (-k);
    }
    ToInt32Congruent(t - hash + code, 31 * hash + code);
  }

  /** The hash loop over the code units, starting from 0. */
  function Hash(units: seq<int>): int
  {
    if |units| == 0 then 0 else JsStep(Hash(units[..|units| - 1]), units[|units| - 1])
  }

  /** The textbook polynomial hash over unbounded integers: sum of 31^(n-1-i) * unit i. */
  function Poly(units: seq<int>): int
  {
    if |units| == 0 then 0 else 31 * Poly(units[..|units| - 1]) + units[|units| - 1]
  }

  /** Stepping two values congruent modulo 2^32 gives the same ToInt32. */
  lemma StepCongruent(p: int, h: int, c: int)
    requires (p - h) % TwoTo32 == 0
    ensures ToInt32(31 * h + c) == ToInt32(31 * p + c)
  {
    var k := (p - h) / TwoTo32;
    assert p == h + TwoTo32 * k;
    assert 31 * p + c == (31 * h + c) + TwoTo32 * (31 * k);
    ToInt32Plus(31 * h + c, 31 * k);
  }

  /** The loop computes the polynomial hash reduced to a signed 32-bit integer. */
  lemma {:induction false} HashIsPolynomial(units: seq<int>)
    ensures Hash(units) == ToInt32(Poly(units))
    ensures -TwoTo31 <= Hash(units) < TwoTo31
  {
    if |units| > 0 {
      var pre, c := units[..|units| - 1], units[|units| - 1];
      HashIsPolynomial(pre);
      JsStepIsTimes31(Hash(pre), c);
      StepCongruent(Poly(pre), ToInt32(Poly(pre)), c);
    } else {
      ToInt32OfInt32(0);
    }
  }

  /** The CSS gradient parameters: hue, saturation and lightness of both stops. */
  datatype Gradient = Gradient(h1: int, s1: int, l1: int, h2: int, s2: int, l2: int)

  /** The hue and saturation derivation as written, from the signed hash. */
  function GradientOf(hash: int): (g: Gradient)
    requires -TwoTo31 <= hash < TwoTo31
    ensures 0 <= g.h1 < 360 && 0 <= g.h2 < 360
    ensures 51 <= g.s1 <= 89 && 51 <= g.s2 <= 89
    ensures hash >= 0 ==> 70 <= g.s1 <= 89 && 70 <= g.s2 <= 89
    ensures g.l1 == 45 && g.l2 == 55
  {
    var uhash := ToUint32(hash);
    var h1 := JsRem(uhash, 360);
    var h2 := JsRem(h1 + 120 + JsRem(SignedShift(uhash, 8), 120), 360);
    var s1 := 70 + JsRem(SignedShift(uhash, 16), 20);
    var s2 := 70 + JsRem(SignedShift(uhash, 24), 20);
    ShiftOfUnsigned(hash);
    Pow2Values();
    Gradient(h1, s1, 45, h2, s2, 55)
  }

  lemma Pow2Values()
    ensures Pow2(8) == 0x100 && Pow2(16) == 0x1_0000 && Pow2(24) == 0x100_0000
  {
    assert Pow2(4) == 16;
    assert Pow2(8) == 0x100;
    assert Pow2(12) == 0x1000;
    assert Pow2(16) == 0x1_0000;
    assert Pow2(20) == 0x10_0000;
  }

  /** `uhash >> n` reconverts to a signed value, so it shifts the signed hash. */
  lemma ShiftOfUnsigned(hash: int)
    requires -TwoTo31 <= hash < TwoTo31
    ensures ToInt32(ToUint32(hash)) == hash
  {
    ToInt32Congruent(ToUint32(hash), hash);
    ToInt32OfInt32(hash);
  }

  /** `gradientStyle`: the gradient of a project name. */
  function GradientStyle(projectName: string): (g: Gradient)
    ensures g == GradientOf(ToInt32(Poly(CodeUnits(projectName))))
    ensures 0 <= g.h1 < 360 && 0 <= g.h2 < 360 && 51 <= g.s1 <= 89 && 51 <= g.s2 <= 89
  {
    var units := CodeUnits(projectName);
    HashIsPolynomial(units);
    GradientOf(Hash(units))
  }

  /** The hash of the empty name is 0, giving hues 0 and 120 and saturation 70 on both stops. */
  lemma EmptyNameGradient()
    ensures GradientStyle("") == Gradient(0, 70, 45, 120, 70, 55)
  {
    assert Hash(CodeUnits("")) == 0;
    assert ToUint32(0) == 0;
    Pow2Values();
    ShiftOfSigned(0, 8);
    ShiftOfSigned(0, 16);
    ShiftOfSigned(0, 24);
  }

  /** `uhash >> n` on the unsigned image of a signed hash floors the signed hash. */
  lemma ShiftOfSigned(hash: int, n: nat)
    requires -TwoTo31 <= hash < TwoTo31 && n < 32
    ensures SignedShift(ToUint32(hash), n) == hash / Pow2(n)
  {
    ShiftOfUnsigned(hash);
  }

  /** A negative hash of -19 * 2^16 brings the first saturation down to 51, below the intended 70. */
  lemma SaturationFloor()
    ensures GradientOf(-19 * 0x1_0000).s1 == 51
  {
    var hash := -19 * 0x1_0000;
    Pow2Values();
    ShiftOfSigned(hash, 16);
    assert SignedShift(ToUint32(hash), 16) == -19;
    assert JsRem(-19, 20) == -19;
  }

  /** `ToInt32(x)` is `x` less `wraps` multiples of 2^32, for the one count that lands in range. */
  lemma ToInt32Wrap(x: int, wraps: int, r: int)
    requires r == x - wraps * TwoTo32 && -TwoTo31 <= r < TwoTo31
    ensures ToInt32(x) == r
  {
    assert x - r == TwoTo32 * wraps;
    ToInt32Congruent(x, r);
    ToInt32OfInt32(r);
  }

  /** Extending a prefix of the code units by one, with the hashes and the wrap count written out. */
  lemma HashPrefix(units: seq<int>, k: nat, before: int, wraps: int, after: int)
    requires k < |units| && Hash(units[..k]) == before
    requires after == 31 * before + units[k] - wraps * TwoTo32 && -TwoTo31 <= after < TwoTo31
    ensures Hash(units[..k + 1]) == after
  {
    assert units[..k + 1][..k] == units[..k];
    JsStepIsTimes31(before, units[k]);
    ToInt32Wrap(31 * before + units[k], wraps, after);
  }

  /** The hash of the first four code units of "portfolio-v2", and so on in blocks of four. */
  lemma PortfolioHash0(units: seq<int>)
    requires |units| == 12
    requires units[0] == 112 && units[1] == 111 && units[2] == 114 && units[3] == 116
    ensures Hash(units[..4]) == 3446913
  {
    assert units[..0] == [];
    HashPrefix(units, 0, 0, 0, 112);
    HashPrefix(units, 1, 112, 0, 3583);
    HashPrefix(units, 2, 3583, 0, 111187);
    HashPrefix(units, 3, 111187, 0, 3446913);
  }

  lemma PortfolioHash1(units: seq<int>)
    requires |units| == 12 && Hash(units[..4]) == 3446913
    requires units[4] == 102 && units[5] == 111 && units[6] == 108 && units[7] == 105
    ensures Hash(units[..8]) == 728923143
  {
    HashPrefix(units, 4, 3446913, 0, 106854405);
    HashPrefix(units, 5, 106854405, 1, -982480630);
    HashPrefix(units, 6, -982480630, -7, -392128350);
    HashPrefix(units, 7, -392128350, -3, 728923143);
  }

  lemma PortfolioHash2(units: seq<int>)
    requires |units| == 12 && Hash(units[..8]) == 728923143
    requires units[8] == 111 && units[9] == 45 && units[10] == 118 && units[11] == 50
    ensures Hash(units[..12]) == -160805599
  {
    HashPrefix(units, 8, 728923143, 5, 1121781064);
    HashPrefix(units, 9, 1121781064, 8, 415474661);
    HashPrefix(units, 10, 415474661, 3, -5187279);
    HashPrefix(units, 11, -5187279, 0, -160805599);
  }

  /** The code units of "portfolio-v2" hash to a negative value. */
  lemma PortfolioHash(units: seq<int>)
    requires |units| == 12
    requires units[0] == 112 && units[1] == 111 && units[2] == 114 && units[3] == 116 && units[4] == 102 && units[5] == 111 && units[6] == 108 && units[7] == 105 && units[8] == 111 && units[9] == 45 && units[10] == 118 && units[11] == 50
    ensures Hash(units) == -160805599
  {
    PortfolioHash0(units);
    PortfolioHash1(units);
    PortfolioHash2(units);
    assert units[..12] == units;
  }

  /** The name "portfolio-v2" gets saturations 56 and 60, outside the intended [70, 89]. */
  lemma PortfolioSaturation(name: string)
    requires |name| == 12
    requires name[0] == 'p' && name[1] == 'o' && name[2] == 'r' && name[3] == 't' && name[4] == 'f' && name[5] == 'o' && name[6] == 'l' && name[7] == 'i' && name[8] == 'o' && name[9] == '-' && name[10] == 'v' && name[11] == '2'
    ensures GradientStyle(name).s1 == 56 && GradientStyle(name).s2 == 60
  {
    var units := CodeUnits(name);
    BmpCodeUnits(name);
    PortfolioHash(units);
    NegativeHashSaturation();
    assert GradientStyle(name) == GradientOf(-160805599);
  }

  lemma NegativeHashSaturation()
    ensures GradientOf(-160805599).s1 == 56 && GradientOf(-160805599).s2 == 60
  {
    var hash := -160805599;
    Pow2Values();
    ShiftOfSigned(hash, 16);
    ShiftOfSigned(hash, 24);
    assert SignedShift(ToUint32(hash), 16) == -2454;
    assert SignedShift(ToUint32(hash), 24) == -10;
    assert JsRem(-2454, 20) == -14;
    assert JsRem(-10, 20) == -10;
  }

  /** The hue and saturation derivation with unsigned shifts (`>>>`), as the "70-89" range intends. */
  function GradientOfUnsigned(hash: int): (g: Gradient)
    requires -TwoTo31 <= hash < TwoTo31
    ensures 0 <= g.h1 < 360 && 0 <= g.h2 < 360
    ensures 70 <= g.s1 <= 89 && 70 <= g.s2 <= 89
    ensures g.l1 == 45 && g.l2 == 55
  {
    var uhash := ToUint32(hash);
    var h1 := uhash % 360;
    var h2 := (h1 + 120 + (uhash / 0x100) % 120) % 360;
    var s1 := 70 + (uhash / 0x1_0000) % 20;
    var s2 := 70 + (uhash / 0x100_0000) % 20;
    Gradient(h1, s1, 45, h2, s2, 55)
  }

  /** On non-negative hashes the unsigned derivation agrees with the one written. */
  lemma UnsignedAgreesOnNonNegative(hash: int)
    requires 0 <= hash < TwoTo31
    ensures GradientOfUnsigned(hash) == GradientOf(hash)
  {
    var u := ToUint32(hash);
    assert u == hash;
    Pow2Values();
    ShiftOfSigned(hash, 8);
    ShiftOfSigned(hash, 16);
    ShiftOfSigned(hash, 24);
    assert SignedShift(u, 8) == u / 0x100 >= 0;
    assert SignedShift(u, 16) == u / 0x1_0000 >= 0;
    assert SignedShift(u, 24) == u / 0x100_0000 >= 0;
  }

  /** `gradientStyle` with unsigned shifts: every name gets saturations in [70, 89]. */
  function GradientStyleUnsigned(projectName: string): (g: Gradient)
    ensures 70 <= g.s1 <= 89 && 70 <= g.s2 <= 89
  {
    var units := CodeUnits(projectName);
    HashIsPolynomial(units);
    GradientOfUnsigned(Hash(units))
  }

  // ---------------------------------------------------------------------------
  // Display state
  // ---------------------------------------------------------------------------

  /** The component's state: `iconUrl`, `loading`, `isRealIcon`. */
  datatype State = State(iconUrl: Option<string>, loading: bool, isRealIcon: bool)

  /** JavaScript truthiness of an optional string. */
  predicate Truthy(s: Option<string>)
  {
    s.Some? && s.value != ""
  }

  /** The first render: loading exactly when a non-empty `repoUrl` is given. */
  function Initial(repoUrl: Option<string>): (s: State)
    ensures s.loading <==> Truthy(repoUrl)
    ensures s.iconUrl.None? && !s.isRealIcon
  {
    State(None, Truthy(repoUrl), false)
  }

  /** The API address the effect points the image at; `encode` stands for `encodeURIComponent`. */
  function ApiUrl(repoUrl: string, encode: string -> string): (r: string)
    ensures |r| > 0
  {
    "/api/project-icon?repoUrl=" + encode(repoUrl)
  }

  /** What the lightweight HEAD request to the API produced. */
  datatype HeadResult = HeadResponse(projectIconHeader: Option<string>) | HeadFailed

  /**
   * The effect on `repoUrl`, followed by the settling of its HEAD request:
   * without a URL only `loading` is cleared and nothing is fetched;
   * otherwise the icon address is set and the icon counts as real exactly
   * when the response's `x-project-icon` header is `real`.
   */
  function Effect(s: State, repoUrl: Option<string>, encode: string -> string, head: HeadResult): (r: State)
    ensures !r.loading
    ensures !Truthy(repoUrl) ==> r == s.(loading := false)
    ensures Truthy(repoUrl) ==> r.iconUrl == Some(ApiUrl(repoUrl.value, encode))
    ensures Truthy(repoUrl) ==> (r.isRealIcon <==> head == HeadResponse(Some("real")))
  {
    if !Truthy(repoUrl) then s.(loading := false)
    else
      var url := ApiUrl(repoUrl.value, encode);
      var isReal := match head
        case HeadResponse(h) => h == Some("real")
        case HeadFailed => false;
      State(Some(url), false, isReal)
  }

  /** The `onError` handler of the image: drop the address and fall back to the letter. */
  function OnImageError(s: State): (r: State)
    ensures r.iconUrl.None? && !r.isRealIcon && r.loading == s.loading
  {
    State(None, s.loading, false)
  }

  /** What is drawn over the gradient. */
  datatype View = Spinner | IconImage(src: string) | Letter(letter: string)

  function Render(s: State, projectName: string): (v: View)
    ensures v.Spinner? <==> s.loading
    ensures v.IconImage? <==> !s.loading && Truthy(s.iconUrl) && s.isRealIcon
    ensures v.IconImage? ==> v.src == s.iconUrl.value
    ensures v.Letter? ==> v.letter == UpperFirst(projectName)
  {
    if s.loading then Spinner
    else if Truthy(s.iconUrl) && s.isRealIcon then IconImage(s.iconUrl.value)
    else Letter(UpperFirst(projectName))
  }

  /** Without a `repoUrl` nothing is fetched and the letter is shown from the first render on, once loading clears. */
  lemma NoRepoShowsLetter(repoUrl: Option<string>, encode: string -> string, head: HeadResult, projectName: string)
    requires !Truthy(repoUrl)
    ensures Render(Initial(repoUrl), projectName) == Letter(UpperFirst(projectName))
    ensures Render(Effect(Initial(repoUrl), repoUrl, encode, head), projectName) == Letter(UpperFirst(projectName))
  {
  }

  /** After the HEAD settles, the real icon is shown exactly when the header said `real`. */
  lemma RealIconIffHeader(repoUrl: string, encode: string -> string, head: HeadResult, projectName: string)
    requires repoUrl != ""
    ensures var v := Render(Effect(Initial(Some(repoUrl)), Some(repoUrl), encode, head), projectName);
      && (v.IconImage? <==> head == HeadResponse(Some("real")))
      && (v.IconImage? ==> v.src == ApiUrl(repoUrl, encode))
      && (!v.IconImage? ==> v == Letter(UpperFirst(projectName)))
  {
  }

  /** An image load error always leads back to the letter once loading is over. */
  lemma ImageErrorShowsLetter(s: State, projectName: string)
    requires !s.loading
    ensures Render(OnImageError(s), projectName) == Letter(UpperFirst(projectName))
  {
  }
}

=== FILE: seqs.dfy ===
/** Sequence helpers: the keys of a pair sequence, `Array.prototype.find`/`findIndex` and `filter`. */
module Seqs {
  import opened Wrappers

  /** The first components of a sequence of pairs: the keys of an ordered map. */
  function Firsts<A, B>(ps: seq<(A, B)>): (r: seq<A>)
    ensures |r| == |ps| && forall i :: 0 <= i < |ps| ==> r[i] == ps[i].0
  {
    seq(|ps|, i requires 0 <= i < |ps| => ps[i].0)
  }

  /** The position of the first element accepted by `ok`, if any. */
  function FirstMatch<T>(xs: seq<T>, ok: T -> bool): (r: Option<nat>)
    ensures r.Some? ==> r.value < |xs| && ok(xs[r.value])
    ensures r.Some? ==> forall j :: 0 <= j < r.value ==> !ok(xs[j])
    ensures r.None? <==> forall j :: 0 <= j < |xs| ==> !ok(xs[j])
  {
    if |xs| == 0 then None
    else if ok(xs[0]) then Some(0)
    else match FirstMatch(xs[1..], ok)
      case None => None
      case Some(i) => Some(i + 1)
  }

  /** Two tests that agree on the elements find the same first match. */
  lemma {:induction false} SameAcceptanceSameMatch<T>(xs: seq<T>, ok1: T -> bool, ok2: T -> bool)
    requires forall j :: 0 <= j < |xs| ==> ok1(xs[j]) == ok2(xs[j])
    ensures FirstMatch(xs, ok1) == FirstMatch(xs, ok2)
  {
    if |xs| > 0 {
      SameAcceptanceSameMatch(xs[1..], ok1, ok2);
    }
  }

  /** The elements accepted by `keep`, in their original order. */
  function Filter<T>(xs: seq<T>, keep: T -> bool): (r: seq<T>)
    ensures |r| <= |xs|
    ensures forall i :: 0 <= i < |r| ==> keep(r[i])
    ensures forall i :: 0 <= i < |r| ==> r[i] in xs
    ensures forall i :: 0 <= i < |xs| && keep(xs[i]) ==> xs[i] in r
    ensures |r| == |xs| <==> forall i :: 0 <= i < |xs| ==> keep(xs[i])
  {
    if |xs| == 0 then []
    else
      var rest := Filter(xs[1..], keep);
      if keep(xs[0]) then [xs[0]] + rest else rest
  }

  /** Nothing passes the filter exactly when no element passes the test. */
  lemma {:induction false} FilterEmpty<T>(xs: seq<T>, keep: T -> bool)
    ensures Filter(xs, keep) == [] <==> forall i :: 0 <= i < |xs| ==> !keep(xs[i])
  {
    if |xs| > 0 {
      FilterEmpty(xs[1..], keep);
      assert forall i :: 1 <= i < |xs| ==> xs[i] == xs[1..][i - 1];
    }
  }

  /** Filtering distributes over concatenation. */
  lemma {:induction false} FilterAppend<T>(a: seq<T>, b: seq<T>, keep: T -> bool)
    ensures Filter(a + b, keep) == Filter(a, keep) + Filter(b, keep)
  {
    if |a| > 0 {
      assert (a + b)[1..] == a[1..] + b;
      FilterAppend(a[1..], b, keep);
    } else {
      assert a + b == b;
    }
  }

  /** Filtering a sequence extended by one element extends the filtered prefix by that element or nothing. */
  lemma FilterSnoc<T>(xs: seq<T>, x: T, keep: T -> bool)
    ensures Filter(xs + [x], keep) == Filter(xs, keep) + if keep(x) then [x] else []
  {
    FilterAppend(xs, [x], keep);
    assert [x][1..] == [];
  }

  /** Filtering twice with the same test changes nothing the second time. */
  lemma {:induction false} FilterIdempotent<T>(xs: seq<T>, keep: T -> bool)
    ensures Filter(Filter(xs, keep), keep) == Filter(xs, keep)
  {
    if |xs| > 0 {
      FilterIdempotent(xs[1..], keep);
    }
  }

  /** Every element passes exactly one of two complementary tests. */
  lemma {:induction false} FilterPartition<T>(xs: seq<T>, keep: T -> bool, drop: T -> bool)
    requires forall i :: 0 <= i < |xs| ==> drop(xs[i]) == !keep(xs[i])
    ensures |Filter(xs, keep)| + |Filter(xs, drop)| == |xs|
    ensures multiset(Filter(xs, keep)) + multiset(Filter(xs, drop)) == multiset(xs)
  {
    if |xs| > 0 {
      var rest := xs[1..];
      assert forall i :: 0 <= i < |rest| ==> rest[i] == xs[i + 1];
      FilterPartition(rest, keep, drop);
      PartitionStep(xs, keep, drop);
    }
  }

  /** One step of the partition: the head goes to exactly one side. */
  lemma PartitionStep<T>(xs: seq<T>, keep: T -> bool, drop: T -> bool)
    requires |xs| > 0 && drop(xs[0]) == !keep(xs[0])
    requires multiset(Filter(xs[1..], keep)) + multiset(Filter(xs[1..], drop)) == multiset(xs[1..])
    ensures multiset(Filter(xs, keep)) + multiset(Filter(xs, drop)) == multiset(xs)
  {
    assert xs == [xs[0]] + xs[1..];
    HeadToOneSide(xs[0], xs[1..], Filter(xs[1..], keep), Filter(xs[1..], drop), Filter(xs, keep), Filter(xs, drop));
  }

  /** Adding `x` to one side of a split of `rest` splits `[x] + rest`. */
  lemma HeadToOneSide<T>(x: T, rest: seq<T>, k0: seq<T>, d0: seq<T>, k: seq<T>, d: seq<T>)
    requires multiset(k0) + multiset(d0) == multiset(rest)
    requires (k == [x] + k0 && d == d0) || (k == k0 && d == [x] + d0)
    ensures multiset(k) + multiset(d) == multiset([x] + rest)
  {
  }
}

=== FILE: server_cache.dfy ===
/**
 * The bounded in-memory key/value store shared by the proxy routes.
 *
 * The store is the insertion-ordered sequence of its `(key, entry)` pairs,
 * which is exactly the iteration order of the JavaScript `Map` behind it:
 * writing an existing key keeps its place, writing a new key appends it, and
 * "the oldest entry" is the first pair. The clock is a parameter (`now`, in
 * milliseconds) of every operation that reads it; every operation that can
 * change the store returns the new store.
 */
module ServerCache {
  import opened Wrappers
  import opened Seqs

  datatype Entry<T> = Entry(data: T, expiresAt: int)

  datatype Cache<T> = Cache(entries: seq<(string, Entry<T>)>, maxSize: int, defaultTtl: int)

  /** Constructor defaults: 1000 entries, 30 minutes. */
  const DefaultMaxSize: int := 1000
  const DefaultTtl: int := 30 * 60 * 1000
  const Hour: int := 60 * 60 * 1000

  /** A freshly constructed store. */
  function Empty<T>(maxSize: int, defaultTtl: int): Cache<T>
  {
    Cache([], maxSize, defaultTtl)
  }

  /** What the avatar store holds: the image bytes and their content type. */
  datatype AvatarData = AvatarData(buffer: seq<bv8>, contentType: string)

  /** What the project-icon store holds: image bytes or SVG text, and whether it is a real icon. */
  datatype IconBuffer = IconBytes(bytes: seq<bv8>) | IconSvg(text: string)
  datatype IconData = IconData(buffer: IconBuffer, contentType: string, isReal: bool)

  /** The two module-level instances: at most 500 avatars and 1000 icons, one hour each. */
  const AvatarCacheInit: Cache<AvatarData> := Empty(500, Hour)
  const ProjectIconCacheInit: Cache<IconData> := Empty(1000, Hour)

  // ---------------------------------------------------------------------
  // Keys and lookups on the ordered entry sequence
  // ---------------------------------------------------------------------

  /** The keys in iteration order. */
  predicate HasKey<T>(es: seq<(string, Entry<T>)>, k: string)
  {
    k in Firsts(es)
  }

  /** A `Map` never holds a key twice. */
  predicate DistinctKeys<T>(es: seq<(string, Entry<T>)>)
  {
    forall i, j :: 0 <= i < j < |es| ==> es[i].0 != es[j].0
  }

  /** The position of `k`, if present. */
  function Find<T>(es: seq<(string, Entry<T>)>, k: string): (r: Option<nat>)
    ensures r.Some? ==> r.value < |es| && es[r.value].0 == k
    ensures r.Some? ==> forall j :: 0 <= j < r.value ==> es[j].0 != k
    ensures r.None? <==> !HasKey(es, k)
  {
    if |es| == 0 then None
    else if es[0].0 == k then Some(0)
    else match Find(es[1..], k)
      case None => (assert Firsts(es) == [es[0].0] + Firsts(es[1..]); None)
      case Some(i) => Some(i + 1)
  }

  /** Under distinct keys, any position holding `k` is the one `Find` reports. */
  lemma FindUnique<T>(es: seq<(string, Entry<T>)>, k: string, p: nat)
    requires DistinctKeys(es) && p < |es| && es[p].0 == k
    ensures Find(es, k) == Some(p)
  {
    assert k in Firsts(es) by { assert Firsts(es)[p] == k; }
  }

  /** `map.get(k)`: the entry stored under `k`, if any. */
  function Lookup<T>(es: seq<(string, Entry<T>)>, k: string): Option<Entry<T>>
  {
    match Find(es, k)
    case None => None
    case Some(i) => Some(es[i].1)
  }

  /** `map.delete(k)`: drops the pair with key `k`, keeping the order of the rest. */
  function Remove<T>(es: seq<(string, Entry<T>)>, k: string): (r: seq<(string, Entry<T>)>)
    requires DistinctKeys(es)
    ensures DistinctKeys(r)
    ensures !HasKey(r, k)
    ensures forall k' :: k' != k ==> Lookup(r, k') == Lookup(es, k')
    ensures forall k' :: HasKey(r, k') <==> k' != k && HasKey(es, k')
    ensures |r| == if HasKey(es, k) then |es| - 1 else |es|
    ensures !HasKey(es, k) ==> r == es
  {
    match Find(es, k)
    case None => es
    case Some(i) =>
      RemoveAtKeepsOthers(es, i);
      es[..i] + es[i + 1..]
  }

  /** Dropping position `i` shifts the later pairs down by one and keeps keys distinct. */
  lemma RemoveAtShape<T>(es: seq<(string, Entry<T>)>, i: nat)
    requires DistinctKeys(es) && i < |es|
    ensures var r := es[..i] + es[i + 1..];
      && |r| == |es| - 1
      && (forall j :: 0 <= j < |r| ==> r[j] == if j < i then es[j] else es[j + 1])
      && DistinctKeys(r)
      && Firsts(r) == Firsts(es)[..i] + Firsts(es)[i + 1..]
  {
    var r := es[..i] + es[i + 1..];
    assert forall j :: 0 <= j < |r| ==> r[j] == if j < i then es[j] else es[j + 1];
    assert Firsts(r) == Firsts(es)[..i] + Firsts(es)[i + 1..];
  }

  /** Dropping position `i` leaves the lookup of every other key unchanged. */
  lemma RemoveAtLookup<T>(es: seq<(string, Entry<T>)>, i: nat, k: string)
    requires DistinctKeys(es) && i < |es| && k != es[i].0
    ensures Lookup(es[..i] + es[i + 1..], k) == Lookup(es, k)
    ensures HasKey(es[..i] + es[i + 1..], k) <==> HasKey(es, k)
  {
    var r := es[..i] + es[i + 1..];
    RemoveAtShape(es, i);
    match Find(es, k)
    case None =>
      assert forall j :: 0 <= j < |r| ==> r[j].0 != k by {
        assert forall j :: 0 <= j < |es| ==> Firsts(es)[j] != k;
      }
      assert !HasKey(r, k);
    case Some(p) =>
      var q := if p < i then p else p - 1;
      assert r[q] == es[p];
      FindUnique(r, k, q);
  }

  lemma RemoveAtKeepsOthers<T>(es: seq<(string, Entry<T>)>, i: nat)
    requires DistinctKeys(es) && i < |es|
    ensures var r := es[..i] + es[i + 1..];
      && DistinctKeys(r)
      && Firsts(r) == Firsts(es)[..i] + Firsts(es)[i + 1..]
      && (forall k' :: k' != es[i].0 ==> Lookup(r, k') == Lookup(es, k'))
      && (forall k' :: HasKey(r, k') <==> k' != es[i].0 && HasKey(es, k'))
  {
    var r := es[..i] + es[i + 1..];
    RemoveAtShape(es, i);
    forall k' | k' != es[i].0
      ensures Lookup(r, k') == Lookup(es, k') && (HasKey(r, k') <==> HasKey(es, k'))
    {
      RemoveAtLookup(es, i, k');
    }
    assert forall j :: 0 <= j < |r| ==> r[j].0 != es[i].0;
    assert !HasKey(r, es[i].0);
  }

  /** `map.set(k, e)`: overwrites in place when `k` is present, appends otherwise. */
  function Put<T>(es: seq<(string, Entry<T>)>, k: string, e: Entry<T>): (r: seq<(string, Entry<T>)>)
    requires DistinctKeys(es)
    ensures DistinctKeys(r)
    ensures Lookup(r, k) == Some(e)
    ensures forall k' :: k' != k ==> Lookup(r, k') == Lookup(es, k')
    ensures HasKey(es, k) ==> |r| == |es| && Find(r, k) == Find(es, k)
    ensures !HasKey(es, k) ==> |r| == |es| + 1 && r[|es|] == (k, e) && r[..|es|] == es
    ensures forall k' :: HasKey(r, k') <==> k' == k || HasKey(es, k')
  {
    match Find(es, k)
    case Some(i) =>
      OverwriteKeepsOthers(es, i, e);
      es[i := (k, e)]
    case None =>
      AppendKeepsOthers(es, k, e);
      es + [(k, e)]
  }

  lemma OverwriteKeepsOthers<T>(es: seq<(string, Entry<T>)>, i: nat, e: Entry<T>)
    requires DistinctKeys(es) && i < |es|
    ensures var r := es[i := (es[i].0, e)];
      && Firsts(r) == Firsts(es)
      && (forall k' :: k' != es[i].0 ==> Find(r, k') == Find(es, k'))
  {
    var r := es[i := (es[i].0, e)];
    assert Firsts(r) == Firsts(es);
    forall k' | k' != es[i].0
      ensures Find(r, k') == Find(es, k')
    {
      match Find(es, k')
      case None =>
      case Some(p) =>
        FindUnique(r, k', p);
    }
  }

  lemma AppendKeepsOthers<T>(es: seq<(string, Entry<T>)>, k: string, e: Entry<T>)
    requires DistinctKeys(es) && !HasKey(es, k)
    ensures var r := es + [(k, e)];
      && Firsts(r) == Firsts(es) + [k]
      && DistinctKeys(r)
      && (forall k' :: k' != k ==> Find(r, k') == Find(es, k'))
      && Find(r, k) == Some(|es|)
  {
    var r := es + [(k, e)];
    assert Firsts(r) == Firsts(es) + [k];
    forall i, j | 0 <= i < j < |r|
      ensures r[i].0 != r[j].0
    {
      if j == |es| {
        assert Firsts(es)[i] == r[i].0;
      }
    }
    forall k' | k' != k
      ensures Find(r, k') == Find(es, k')
    {
      match Find(es, k')
      case None =>
      case Some(p) =>
        FindUnique(r, k', p);
    }
    FindUnique(r, k, |es|);
  }

  // ---------------------------------------------------------------------
  // The store's operations
  // ---------------------------------------------------------------------

  predicate Expired<T>(e: Entry<T>, now: int)
  {
    now > e.expiresAt
  }

  /** `ttl || defaultTtl`: an absent ttl and a ttl of 0 both fall back to the default. */
  function EffectiveTtl(ttl: Option<int>, defaultTtl: int): (r: int)
    ensures ttl.Some? && ttl.value != 0 ==> r == ttl.value
    ensures ttl.None? || ttl == Some(0) ==> r == defaultTtl
  {
    match ttl
    case Some(t) => if t != 0 then t else defaultTtl
    case None => defaultTtl
  }

  /**
   * Whether `set` evicts the first pair: the store is at or over capacity
   * and its first key is truthy (so an empty-string first key is never evicted).
   */
  predicate EvictsFirst<T>(c: Cache<T>)
  {
    |c.entries| >= c.maxSize && |c.entries| > 0 && c.entries[0].0 != ""
  }

  /** Dropping the oldest pair forgets its key and nothing else. */
  lemma DropOldest<T>(es: seq<(string, Entry<T>)>)
    requires DistinctKeys(es) && |es| > 0
    ensures DistinctKeys(es[1..])
    ensures Lookup(es[1..], es[0].0).None?
    ensures forall k :: k != es[0].0 ==> Lookup(es[1..], k) == Lookup(es, k)
    ensures forall k :: HasKey(es[1..], k) ==> HasKey(es, k)
  {
    RemoveAtKeepsOthers(es, 0);
    assert es[..0] + es[1..] == es[1..];
  }

  lemma DropOldestWhenFull<T>(c: Cache<T>)
    requires DistinctKeys(c.entries)
    ensures EvictsFirst(c) ==>
      && DistinctKeys(c.entries[1..])
      && Lookup(c.entries[1..], c.entries[0].0).None?
      && (forall k :: k != c.entries[0].0 ==> Lookup(c.entries[1..], k) == Lookup(c.entries, k))
      && (forall k :: HasKey(c.entries[1..], k) ==> HasKey(c.entries, k))
  {
    if EvictsFirst(c) {
      DropOldest(c.entries);
    }
  }

  /** `set(key, value, ttl)` at time `now`. */
  function Set<T>(c: Cache<T>, key: string, value: T, ttl: Option<int>, now: int): (r: Cache<T>)
    requires DistinctKeys(c.entries)
    ensures DistinctKeys(r.entries)
    ensures r.maxSize == c.maxSize && r.defaultTtl == c.defaultTtl
    ensures Lookup(r.entries, key) == Some(Entry(value, now + EffectiveTtl(ttl, c.defaultTtl)))
    // the oldest pair goes first whenever the store is full, even if `key` is already present
    ensures EvictsFirst(c) && c.entries[0].0 != key ==> Lookup(r.entries, c.entries[0].0).None?
    ensures forall k :: k != key && !(EvictsFirst(c) && k == c.entries[0].0) ==>
      Lookup(r.entries, k) == Lookup(c.entries, k)
    ensures forall k :: HasKey(r.entries, k) ==> k == key || HasKey(c.entries, k)
  {
    var expiresAt := now + EffectiveTtl(ttl, c.defaultTtl);
    var kept := if EvictsFirst(c) then c.entries[1..] else c.entries;
    DropOldestWhenFull(c);
    c.(entries := Put(kept, key, Entry(value, expiresAt)))
  }

  /** The result of a read: what it returned and the store after its lazy expiry. */
  datatype Read<T> = Read(value: Option<T>, cache: Cache<T>)

  /** `get(key)` at time `now`: an expired entry reads as absent and is removed. */
  function Get<T>(c: Cache<T>, key: string, now: int): (r: Read<T>)
    requires DistinctKeys(c.entries)
    ensures DistinctKeys(r.cache.entries)
    ensures r.cache.maxSize == c.maxSize && r.cache.defaultTtl == c.defaultTtl
    ensures Lookup(c.entries, key).None? ==> r.value.None? && r.cache == c
    ensures Lookup(c.entries, key).Some? && !Expired(Lookup(c.entries, key).value, now) ==>
      r.value == Some(Lookup(c.entries, key).value.data) && r.cache == c
    ensures Lookup(c.entries, key).Some? && Expired(Lookup(c.entries, key).value, now) ==>
      r.value.None? && r.cache.entries == Remove(c.entries, key)
  {
    match Lookup(c.entries, key)
    case None => Read(None, c)
    case Some(e) =>
      if Expired(e, now) then Read(None, c.(entries := Remove(c.entries, key)))
      else Read(Some(e.data), c)
  }

  datatype Presence<T> = Presence(present: bool, cache: Cache<T>)

  /** `has(key)` at time `now`: the same answer and the same removal as `get`. */
  function Has<T>(c: Cache<T>, key: string, now: int): (r: Presence<T>)
    requires DistinctKeys(c.entries)
    ensures r.present == Get(c, key, now).value.Some?
    ensures r.cache == Get(c, key, now).cache
  {
    match Lookup(c.entries, key)
    case None => Presence(false, c)
    case Some(e) =>
      if Expired(e, now) then Presence(false, c.(entries := Remove(c.entries, key)))
      else Presence(true, c)
  }

  /** `delete(key)`: whether the key was stored (expired or not), and the store without it. */
  function Delete<T>(c: Cache<T>, key: string): (r: Presence<T>)
    requires DistinctKeys(c.entries)
    ensures r.present <==> HasKey(c.entries, key)
    ensures DistinctKeys(r.cache.entries) && !HasKey(r.cache.entries, key)
    ensures forall k :: k != key ==> Lookup(r.cache.entries, k) == Lookup(c.entries, k)
    ensures r.cache.maxSize == c.maxSize && r.cache.defaultTtl == c.defaultTtl
  {
    Presence(Find(c.entries, key).Some?, c.(entries := Remove(c.entries, key)))
  }

  /** `clear()`: every key reads as absent afterwards. */
  function Clear<T>(c: Cache<T>): (r: Cache<T>)
    ensures |r.entries| == 0 && DistinctKeys(r.entries)
    ensures forall k, now :: Get(r, k, now).value.None?
    ensures r.maxSize == c.maxSize && r.defaultTtl == c.defaultTtl
  {
    c.(entries := [])
  }

  /** The pairs a sweep at time `now` keeps: the unexpired ones, in their order. */
  function Live<T>(es: seq<(string, Entry<T>)>, now: int): (r: seq<(string, Entry<T>)>)
    ensures |r| <= |es|
    ensures |r| == |es| <==> forall i :: 0 <= i < |es| ==> !Expired(es[i].1, now)
    ensures forall i :: 0 <= i < |r| ==> !Expired(r[i].1, now)
  {
    if |es| == 0 then []
    else
      var rest := Live(es[1..], now);
      if Expired(es[0].1, now) then rest else [es[0]] + rest
  }

  lemma ConsKeys<T>(x: (string, Entry<T>), s: seq<(string, Entry<T>)>)
    ensures forall k :: HasKey([x] + s, k) <==> k == x.0 || HasKey(s, k)
  {
    assert Firsts([x] + s) == [x.0] + Firsts(s);
  }

  lemma ConsLookup<T>(x: (string, Entry<T>), s: seq<(string, Entry<T>)>)
    ensures forall k :: Lookup([x] + s, k) == if k == x.0 then Some(x.1) else Lookup(s, k)
  {
    assert ([x] + s)[1..] == s;
  }

  lemma ConsDistinct<T>(x: (string, Entry<T>), s: seq<(string, Entry<T>)>)
    ensures DistinctKeys([x] + s) <==> DistinctKeys(s) && !HasKey(s, x.0)
  {
    var r := [x] + s;
    if DistinctKeys(s) && !HasKey(s, x.0) {
      forall i, j | 0 <= i < j < |r|
        ensures r[i].0 != r[j].0
      {
        if i == 0 {
          assert Firsts(s)[j - 1] == r[j].0;
        } else {
          assert r[i] == s[i - 1] && r[j] == s[j - 1];
        }
      }
    }
    if DistinctKeys(r) {
      forall i, j | 0 <= i < j < |s|
        ensures s[i].0 != s[j].0
      {
        assert r[i + 1] == s[i];
        assert r[j + 1] == s[j];
      }
      forall p | 0 <= p < |s|
        ensures Firsts(s)[p] != x.0
      {
        assert r[p + 1] == s[p] && r[0] == x;
      }
    }
  }

  lemma ConsFacts<T>(x: (string, Entry<T>), s: seq<(string, Entry<T>)>)
    ensures forall k :: HasKey([x] + s, k) <==> k == x.0 || HasKey(s, k)
    ensures forall k :: Lookup([x] + s, k) == if k == x.0 then Some(x.1) else Lookup(s, k)
    ensures DistinctKeys([x] + s) <==> DistinctKeys(s) && !HasKey(s, x.0)
  {
    ConsKeys(x, s);
    ConsLookup(x, s);
    ConsDistinct(x, s);
  }

  /** A sweep introduces no key. */
  lemma {:induction false} LiveKeys<T>(es: seq<(string, Entry<T>)>, now: int)
    ensures forall k :: HasKey(Live(es, now), k) ==> HasKey(es, k)
    ensures DistinctKeys(es) ==> DistinctKeys(Live(es, now))
  {
    if |es| > 0 {
      var rest := Live(es[1..], now);
      LiveKeys(es[1..], now);
      assert es == [es[0]] + es[1..];
      ConsFacts(es[0], es[1..]);
      ConsFacts(es[0], rest);
    }
  }

  /**
   * A sweep keeps exactly the unexpired entries: every key reads the same
   * afterwards if its entry was live, and reads as absent otherwise.
   */
  lemma {:induction false} LiveLookup<T>(es: seq<(string, Entry<T>)>, now: int)
    requires DistinctKeys(es)
    ensures DistinctKeys(Live(es, now))
    ensures forall k ::
      Lookup(Live(es, now), k) == (if Lookup(es, k).Some? && !Expired(Lookup(es, k).value, now) then Lookup(es, k) else None)
  {
    LiveKeys(es, now);
    if |es| > 0 {
      var rest := Live(es[1..], now);
      assert es == [es[0]] + es[1..];
      ConsFacts(es[0], es[1..]);
      ConsFacts(es[0], rest);
      LiveLookup(es[1..], now);
      LiveKeys(es[1..], now);
    }
  }

  /** A sweep distributes over concatenation: it never reorders what it keeps. */
  lemma {:induction false} LiveAppend<T>(a: seq<(string, Entry<T>)>, b: seq<(string, Entry<T>)>, now: int)
    ensures Live(a + b, now) == Live(a, now) + Live(b, now)
    decreases |a|
  {
    if |a| == 0 {
      assert a + b == b;
    } else {
      assert (a + b)[0] == a[0];
      assert (a + b)[1..] == a[1..] + b;
      LiveAppend(a[1..], b, now);
    }
  }

  /** Sweeping twice at the same time is sweeping once. */
  lemma {:induction false} LiveIdempotent<T>(es: seq<(string, Entry<T>)>, now: int)
    ensures Live(Live(es, now), now) == Live(es, now)
  {
    var r := Live(es, now);
    assert |Live(r, now)| == |r|;
    LiveOfLive(r, now);
  }

  lemma {:induction false} LiveOfLive<T>(es: seq<(string, Entry<T>)>, now: int)
    requires forall i :: 0 <= i < |es| ==> !Expired(es[i].1, now)
    ensures Live(es, now) == es
  {
    if |es| > 0 {
      LiveOfLive(es[1..], now);
    }
  }

  /** `cleanup()` at time `now`: walks the pairs in order and drops every expired one. */
  method Cleanup<T>(c: Cache<T>, now: int) returns (r: Cache<T>)
    ensures r.entries == Live(c.entries, now)
    ensures r.maxSize == c.maxSize && r.defaultTtl == c.defaultTtl
  {
    var kept: seq<(string, Entry<T>)> := [];
    var i := 0;
    while i < |c.entries|
      invariant 0 <= i <= |c.entries|
      invariant kept == Live(c.entries[..i], now)
    {
      var p := c.entries[i];
      LiveAppend(c.entries[..i], [p], now);
      assert c.entries[..i + 1] == c.entries[..i] + [p];
      if !Expired(p.1, now) {
        kept := kept + [p];
      }
      i := i + 1;
    }
    assert c.entries[..i] == c.entries;
    r := c.(entries := kept);
  }

  datatype Stats = Stats(size: int, maxSize: int)

  /** `getStats()` at time `now`: sweeps first, then reports the live size and the capacity. */
  method GetStats<T>(c: Cache<T>, now: int) returns (stats: Stats, swept: Cache<T>)
    ensures swept.entries == Live(c.entries, now)
    ensures stats.size == |swept.entries| && stats.size <= |c.entries|
    ensures stats.size == |c.entries| <==> forall i :: 0 <= i < |c.entries| ==> !Expired(c.entries[i].1, now)
    ensures stats.maxSize == c.maxSize
  {
    swept := Cleanup(c, now);
    stats := Stats(|swept.entries|, swept.maxSize);
  }

  // ---------------------------------------------------------------------
  // Properties over several operations
  // ---------------------------------------------------------------------

  /** The store invariant that `set` maintains for non-empty keys and a positive capacity. */
  predicate Valid<T>(c: Cache<T>)
  {
    && DistinctKeys(c.entries)
    && |c.entries| <= c.maxSize
    && !HasKey(c.entries, "")
  }

  /** With a positive capacity and non-empty keys the store never grows past `maxSize`. */
  lemma SetKeepsValid<T>(c: Cache<T>, key: string, value: T, ttl: Option<int>, now: int)
    requires Valid(c) && c.maxSize >= 1 && key != ""
    ensures Valid(Set(c, key, value, ttl, now))
  {
    assert |c.entries| == c.maxSize ==> EvictsFirst(c);
  }

  /** An empty-string first key is never evicted, so the store can grow past its capacity. */
  lemma EmptyFirstKeyOverflows(e: Entry<int>, v: int, now: int)
    ensures |Set(Cache([("", e)], 1, Hour), "a", v, None, now).entries| == 2
  {
    var c := Cache([("", e)], 1, Hour);
    assert !EvictsFirst(c);
    assert Find(c.entries, "a") == None;
  }

  /** A full store evicts its oldest pair even when the key being written is already present. */
  lemma {:induction false} FullSetOfPresentKeyShrinks<T>(c: Cache<T>, key: string, value: T, ttl: Option<int>, now: int)
    requires DistinctKeys(c.entries) && EvictsFirst(c)
    requires HasKey(c.entries, key) && c.entries[0].0 != key
    ensures |Set(c, key, value, ttl, now).entries| == |c.entries| - 1
  {
    var p :| 0 <= p < |c.entries| && c.entries[p].0 == key;
    assert c.entries[1..][p - 1].0 == key;
  }

  /** Below capacity, `set` is a plain `map.set`. */
  lemma SetWithRoom<T>(c: Cache<T>, key: string, value: T, ttl: Option<int>, now: int)
    requires DistinctKeys(c.entries) && !EvictsFirst(c)
    ensures Set(c, key, value, ttl, now).entries == Put(c.entries, key, Entry(value, now + EffectiveTtl(ttl, c.defaultTtl)))
  {
  }

  /** A write into a store with room appends a new key after the existing pairs. */
  lemma WriteWithRoom<T>(c: Cache<T>, key: string, value: T, now: int)
    requires DistinctKeys(c.entries) && |c.entries| < c.maxSize && !HasKey(c.entries, key)
    ensures var r := Set(c, key, value, None, now);
      && DistinctKeys(r.entries) && r.maxSize == c.maxSize && r.defaultTtl == c.defaultTtl
      && |r.entries| == |c.entries| + 1 && r.entries[..|c.entries|] == c.entries
      && r.entries[|c.entries|] == (key, Entry(value, now + c.defaultTtl))
  {
    SetWithRoom(c, key, value, None, now);
  }

  lemma FirstWrite<T>(a: string, va: T, ttl: int, now: int)
    ensures var s := Set(Empty(2, ttl), a, va, None, now);
      && DistinctKeys(s.entries) && s.maxSize == 2 && s.defaultTtl == ttl
      && |s.entries| == 1 && s.entries[0].0 == a
  {
    WriteWithRoom(Empty<T>(2, ttl), a, va, now);
  }

  /** Two writes of distinct keys into an empty store with room for two fill it, oldest first. */
  lemma TwoWrites<T>(a: string, b: string, va: T, vb: T, ttl: int, now: int)
    requires a != b
    ensures var s := Set(Set(Empty(2, ttl), a, va, None, now), b, vb, None, now);
      && DistinctKeys(s.entries) && s.maxSize == 2 && |s.entries| == 2 && s.entries[0].0 == a
      && Lookup(s.entries, b) == Some(Entry(vb, now + ttl))
  {
    FirstWrite(a, va, ttl, now);
    var s1 := Set(Empty(2, ttl), a, va, None, now);
    assert !HasKey(s1.entries, b) by {
      assert Firsts(s1.entries) == [a];
    }
    WriteWithRoom(s1, b, vb, now);
    var s2 := Set(s1, b, vb, None, now);
    assert s2.entries[0] == s1.entries[0] by {
      assert s2.entries[..1] == s1.entries;
    }
    FindUnique(s2.entries, b, 1);
  }

  /** With room for two, writing `a`, `b` and then `c` evicts `a`, the oldest, and keeps `b` and `c`. */
  lemma EvictionOrder<T>(a: string, b: string, c: string, va: T, vb: T, vc: T, ttl: int, now: int)
    requires a != "" && a != b && b != c && a != c
    requires ttl >= 0
    ensures var s := Set(Set(Set(Empty(2, ttl), a, va, None, now), b, vb, None, now), c, vc, None, now);
      && Get(s, a, now).value.None?
      && Get(s, b, now).value == Some(vb)
      && Get(s, c, now).value == Some(vc)
  {
    TwoWrites(a, b, va, vb, ttl, now);
    var s2 := Set(Set(Empty(2, ttl), a, va, None, now), b, vb, None, now);
    assert EvictsFirst(s2);
  }

  /** What `set` wrote is what `get` reads back until it expires. */
  lemma SetThenGet<T>(c: Cache<T>, key: string, value: T, ttl: Option<int>, now: int, later: int)
    requires DistinctKeys(c.entries)
    requires later <= now + EffectiveTtl(ttl, c.defaultTtl)
    ensures Get(Set(c, key, value, ttl, now), key, later).value == Some(value)
  {
  }

  /** After the expiry time every read of the key misses. */
  lemma SetThenGetExpired<T>(c: Cache<T>, key: string, value: T, ttl: Option<int>, now: int, later: int)
    requires DistinctKeys(c.entries)
    requires later > now + EffectiveTtl(ttl, c.defaultTtl)
    ensures Get(Set(c, key, value, ttl, now), key, later).value == None
    ensures !HasKey(Get(Set(c, key, value, ttl, now), key, later).cache.entries, key)
  {
  }

  /** A sweep never changes what `get` answers at the same time. */
  lemma CleanupPreservesGet<T>(c: Cache<T>, key: string, now: int)
    requires DistinctKeys(c.entries)
    ensures DistinctKeys(Live(c.entries, now))
    ensures Get(c.(entries := Live(c.entries, now)), key, now).value == Get(c, key, now).value
  {
    LiveLookup(c.entries, now);
  }
}

=== FILE: social_feed.dfy ===
/**
 * The social feed component: merging what the two routes answered,
 * sorting newest first, the relative-time label, the platform filter, the
 * `maxPosts` slice, and which of the four views is shown.
 */
module SocialFeed {
  import opened Wrappers
  import opened Strings
  import opened Seqs
  import opened SocialPost

  const DefaultMaxPosts: int := 5
  const LoadError: string := "Failed to load social posts"

  // ---------------------------------------------------------------------------
  // Merge
  // ---------------------------------------------------------------------------

  /** The posts one route contributed: its posts when it answered ok, nothing when it failed or threw (`None`). */
  function Received(answer: Option<RouteResponse>): (r: seq<Post>)
    ensures answer.Some? && answer.value.PostsBody? ==> r == answer.value.posts
    ensures answer.None? || answer.value.ErrorBody? ==> r == []
  {
    if answer.Some? && answer.value.PostsBody? then answer.value.posts else []
  }

  // ---------------------------------------------------------------------------
  // Sorting, newest first (a stable sort, as `Array.prototype.sort` is)
  // ---------------------------------------------------------------------------

  predicate NewestFirst(posts: seq<Post>)
  {
    forall i, j :: 0 <= i < j < |posts| ==> posts[i].timestamp >= posts[j].timestamp
  }

  /** Inserts `p` before the first post that is not newer than it. */
  function Insert(p: Post, sorted: seq<Post>): (r: seq<Post>)
    ensures multiset(r) == multiset(sorted) + multiset{p}
  {
    if |sorted| == 0 then [p]
    else if sorted[0].timestamp <= p.timestamp then [p] + sorted
    else
      assert sorted == [sorted[0]] + sorted[1..];
      [sorted[0]] + Insert(p, sorted[1..])
  }

  /** The tail of a newest-first list is newest first. */
  lemma TailNewestFirst(posts: seq<Post>)
    requires NewestFirst(posts) && |posts| > 0
    ensures NewestFirst(posts[1..])
  {
    assert forall i :: 0 <= i < |posts| - 1 ==> posts[1..][i] == posts[i + 1];
  }

  /** Inserting under a bound keeps the bound. */
  lemma {:induction false} InsertBounded(p: Post, sorted: seq<Post>, t: int)
    requires p.timestamp <= t
    requires forall i :: 0 <= i < |sorted| ==> sorted[i].timestamp <= t
    ensures forall i :: 0 <= i < |Insert(p, sorted)| ==> Insert(p, sorted)[i].timestamp <= t
  {
    if |sorted| > 0 && sorted[0].timestamp > p.timestamp {
      var tail := sorted[1..];
      assert forall i :: 0 <= i < |tail| ==> tail[i] == sorted[i + 1];
      InsertBounded(p, tail, t);
      assert Insert(p, sorted) == [sorted[0]] + Insert(p, tail);
    }
  }

  /** Insertion into a newest-first list keeps it newest first. */
  lemma {:induction false} InsertSorted(p: Post, sorted: seq<Post>)
    requires NewestFirst(sorted)
    ensures NewestFirst(Insert(p, sorted))
  {
    if |sorted| > 0 {
      if sorted[0].timestamp <= p.timestamp {
        assert forall i :: 0 <= i < |sorted| ==> sorted[i].timestamp <= sorted[0].timestamp;
        ConsNewestFirst(p, sorted);
      } else {
        var tail := sorted[1..];
        TailNewestFirst(sorted);
        InsertSorted(p, tail);
        assert forall i :: 0 <= i < |tail| ==> tail[i] == sorted[i + 1];
        InsertBounded(p, tail, sorted[0].timestamp);
        ConsNewestFirst(sorted[0], Insert(p, tail));
      }
    }
  }

  /** `allPosts.sort((a, b) => b.timestamp - a.timestamp)`. */
  function SortNewestFirst(posts: seq<Post>): (r: seq<Post>)
    ensures NewestFirst(r)
    ensures multiset(r) == multiset(posts)
  {
    if |posts| == 0 then []
    else
      assert posts == [posts[0]] + posts[1..];
      var rest := SortNewestFirst(posts[1..]);
      InsertSorted(posts[0], rest);
      Insert(posts[0], rest)
  }

  /** The test "was posted at instant `t`". */
  function PostedAt(t: int): Post -> bool
  {
    (q: Post) => q.timestamp == t
  }

  lemma {:induction false} InsertKeepsTies(p: Post, sorted: seq<Post>, t: int)
    ensures Filter(Insert(p, sorted), PostedAt(t))
         == (if p.timestamp == t then [p] else []) + Filter(sorted, PostedAt(t))
  {
    if |sorted| > 0 && sorted[0].timestamp > p.timestamp {
      var rest := Insert(p, sorted[1..]);
      InsertKeepsTies(p, sorted[1..], t);
      assert ([sorted[0]] + rest)[1..] == rest;
    } else if |sorted| > 0 {
      assert ([p] + sorted)[1..] == sorted;
    }
  }

  /**
   * The sort is stable: the posts sharing any one timestamp appear in the
   * same relative order before and after (Bluesky's before Twitter's).
   */
  lemma {:induction false} SortIsStable(posts: seq<Post>, t: int)
    ensures Filter(SortNewestFirst(posts), PostedAt(t)) == Filter(posts, PostedAt(t))
  {
    if |posts| > 0 {
      SortIsStable(posts[1..], t);
      InsertKeepsTies(posts[0], SortNewestFirst(posts[1..]), t);
    }
  }

  /** A list already newest first is left as it is; in particular sorting twice is sorting once. */
  lemma {:induction false} SortKeepsSorted(posts: seq<Post>)
    requires NewestFirst(posts)
    ensures SortNewestFirst(posts) == posts
  {
    if |posts| > 0 {
      TailNewestFirst(posts);
      SortKeepsSorted(posts[1..]);
      assert posts[1..] == [] || posts[1..][0].timestamp <= posts[0].timestamp;
      assert posts == [posts[0]] + posts[1..];
    }
  }

  // ---------------------------------------------------------------------------
  // Loading
  // ---------------------------------------------------------------------------

  /** The component's state: `posts`, `loading`, `error`. */
  datatype State = State(posts: seq<Post>, loading: bool, error: Option<string>)

  const Initial: State := State([], true, None)

  /**
   * `fetchSocialPosts` once both requests have settled: Bluesky's posts then
   * Twitter's, an error when there are none, else all of them newest first.
   */
  function Load(s: State, bluesky: Option<RouteResponse>, twitter: Option<RouteResponse>): (r: State)
    ensures !r.loading
    ensures |Received(bluesky)| + |Received(twitter)| == 0 ==> r == s.(loading := false, error := Some(LoadError))
    ensures |Received(bluesky)| + |Received(twitter)| > 0 ==>
      && r.error.None?
      && NewestFirst(r.posts)
      && multiset(r.posts) == multiset(Received(bluesky)) + multiset(Received(twitter))
  {
    var all := Received(bluesky) + Received(twitter);
    if |all| == 0 then s.(loading := false, error := Some(LoadError))
    else State(SortNewestFirst(all), false, None)
  }

  /** When neither route delivers a post, whether by failing or by answering an empty list, the feed shows the error. */
  lemma NothingLoadedIsError(s: State, bluesky: Option<RouteResponse>, twitter: Option<RouteResponse>)
    requires bluesky.None? || bluesky.value.ErrorBody? || bluesky.value.posts == []
    requires twitter.None? || twitter.value.ErrorBody? || twitter.value.posts == []
    ensures Load(s, bluesky, twitter).error == Some(LoadError)
  {
  }

  // ---------------------------------------------------------------------------
  // Relative time
  // ---------------------------------------------------------------------------

  const HourMs: int := 1000 * 60 * 60
  const DayMs: int := 24 * HourMs

  /**
   * `formatTimestamp`: whole days ago when at least one, else whole hours
   * ago when at least one, else "Just now" (also for a time in the future).
   */
  function FormatTimestamp(now: int, timestamp: int): (r: string)
    ensures var diff := now - timestamp;
      && (diff >= DayMs ==> r == NatToString(diff / DayMs) + "d ago")
      && (HourMs <= diff < DayMs ==> r == NatToString(diff / HourMs) + "h ago" && 1 <= diff / HourMs <= 23)
      && (diff < HourMs ==> r == "Just now")
  {
    var diff := now - timestamp;
    var hours := diff / HourMs;
    var days := hours / 24;
    FloorOfFloor(diff);
    if days > 0 then NatToString(days) + "d ago"
    else if hours > 0 then NatToString(hours) + "h ago"
    else "Just now"
  }

  /** Flooring to hours and then to days is flooring to days. */
  lemma FloorOfFloor(diff: int)
    ensures (diff / HourMs) / 24 == diff / DayMs
    ensures diff / HourMs > 0 <==> diff >= HourMs
    ensures diff / DayMs > 0 <==> diff >= DayMs
  {
    var h := diff / HourMs;
    var d := h / 24;
    assert diff == HourMs * h + diff % HourMs;
    assert h == 24 * d + h % 24;
    assert diff == DayMs * d + (HourMs * (h % 24) + diff % HourMs);
  }

  /** A label reads back as the elapsed whole days it names. */
  lemma DaysLabelReadsBack(now: int, timestamp: int)
    requires now - timestamp >= DayMs
    ensures var r := FormatTimestamp(now, timestamp);
      && |r| > 5 && r[|r| - 5..] == "d ago"
      && IsDigits(r[..|r| - 5]) && DigitsValue(r[..|r| - 5]) == (now - timestamp) / DayMs
  {
    var r := FormatTimestamp(now, timestamp);
    var n := (now - timestamp) / DayMs;
    assert r[..|r| - 5] == NatToString(n);
    NatToStringRoundTrip(n);
  }

  // ---------------------------------------------------------------------------
  // Filter, slice, view
  // ---------------------------------------------------------------------------

  datatype Selection = All | Only(platform: Platform)

  function OnPlatform(p: Platform): Post -> bool
  {
    (q: Post) => q.platform == p
  }

  /** `filteredPosts`. */
  function Filtered(posts: seq<Post>, selected: Selection): (r: seq<Post>)
    ensures selected.All? ==> r == posts
    ensures selected.Only? ==> forall i :: 0 <= i < |r| ==> r[i].platform == selected.platform && r[i] in posts
    ensures selected.Only? ==> forall i :: 0 <= i < |posts| && posts[i].platform == selected.platform ==> posts[i] in r
  {
    if selected.All? then posts else Filter(posts, OnPlatform(selected.platform))
  }

  /** Each platform tab keeps its posts in feed order, so a tab of two lists joined is the two tabs joined. */
  lemma TabOfConcatenation(a: seq<Post>, b: seq<Post>, p: Platform)
    ensures Filtered(a + b, Only(p)) == Filtered(a, Only(p)) + Filtered(b, Only(p))
  {
    FilterAppend(a, b, OnPlatform(p));
  }

  /** The two platform tabs split the feed between them. */
  lemma TabsPartitionFeed(posts: seq<Post>)
    ensures |Filtered(posts, Only(Twitter))| + |Filtered(posts, Only(Bluesky))| == |posts|
  {
    FilterPartition(posts, OnPlatform(Twitter), OnPlatform(Bluesky));
  }

  /** `xs.slice(0, end)`: a negative end counts back from the length. */
  function SliceTo<T>(xs: seq<T>, end: int): (r: seq<T>)
    ensures |r| <= |xs| && r == xs[..|r|]
    ensures end >= 0 ==> |r| == if end < |xs| then end else |xs|
    ensures end < 0 ==> |r| == if |xs| + end > 0 then |xs| + end else 0
  {
    var stop := if end < 0 then (if |xs| + end > 0 then |xs| + end else 0)
                else if end < |xs| then end else |xs|;
    xs[..stop]
  }

  /** What is drawn under the tabs. */
  datatype View = Skeleton | ErrorMessage | NoPostsForPlatform | PostList(posts: seq<Post>)

  function Render(s: State, selected: Selection, maxPosts: int): (v: View)
    ensures v.Skeleton? <==> s.loading
    ensures v.ErrorMessage? <==> !s.loading && Truthy(s.error)
    ensures v.PostList? ==> var shown := Filtered(s.posts, selected);
      0 < |shown| && |v.posts| <= |shown| && v.posts == shown[..|v.posts|]
    ensures v.PostList? && maxPosts >= 0 ==> |v.posts| <= maxPosts
    ensures !s.loading && !Truthy(s.error) ==> (v.NoPostsForPlatform? <==> |Filtered(s.posts, selected)| == 0)
    ensures v.PostList? ==> v.posts == SliceTo(Filtered(s.posts, selected), maxPosts)
  {
    if s.loading then Skeleton
    else if Truthy(s.error) then ErrorMessage
    else
      var shown := Filtered(s.posts, selected);
      if |shown| == 0 then NoPostsForPlatform
      else PostList(SliceTo(shown, maxPosts))
  }

  /** JavaScript truthiness of an optional string. */
  predicate Truthy(s: Option<string>)
  {
    s.Some? && s.value != ""
  }

  /**
   * After a successful load, the list shows the newest posts of the selected
   * platform: the first `maxPosts` of them, in the sorted order.
   */
  lemma ShowsNewestOfPlatform(bluesky: Option<RouteResponse>, twitter: Option<RouteResponse>,
                              selected: Selection, maxPosts: int)
    requires |Received(bluesky)| + |Received(twitter)| > 0
    requires maxPosts >= 0
    ensures var s := Load(Initial, bluesky, twitter);
      var shown := Filtered(s.posts, selected);
      var v := Render(s, selected, maxPosts);
      && (|shown| == 0 <==> v == NoPostsForPlatform)
      && (v.PostList? ==>
            && NewestFirst(v.posts)
            && |v.posts| == (if maxPosts < |shown| then maxPosts else |shown|))
  {
    var s := Load(Initial, bluesky, twitter);
    var v := Render(s, selected, maxPosts);
    if v.PostList? {
      var shown := Filtered(s.posts, selected);
      FilterKeepsOrder(s.posts, selected);
    }
  }

  /** Filtering a list that is newest first leaves it newest first. */
  lemma FilterKeepsOrder(posts: seq<Post>, selected: Selection)
    requires NewestFirst(posts)
    ensures NewestFirst(Filtered(posts, selected))
  {
    if selected.Only? {
      FilterNewestFirst(posts, OnPlatform(selected.platform));
    }
  }

  /** Filtering keeps a bound on the timestamps. */
  lemma {:induction false} FilterBounded(posts: seq<Post>, keep: Post -> bool, t: int)
    requires forall i :: 0 <= i < |posts| ==> posts[i].timestamp <= t
    ensures forall i :: 0 <= i < |Filter(posts, keep)| ==> Filter(posts, keep)[i].timestamp <= t
  {
    if |posts| > 0 {
      FilterBounded(posts[1..], keep, t);
    }
  }

  /** A post no older than every post of a newest-first list can go in front of it. */
  lemma ConsNewestFirst(p: Post, rest: seq<Post>)
    requires NewestFirst(rest)
    requires forall i :: 0 <= i < |rest| ==> rest[i].timestamp <= p.timestamp
    ensures NewestFirst([p] + rest)
  {
    var r := [p] + rest;
    forall i, j | 0 <= i < j < |r|
      ensures r[i].timestamp >= r[j].timestamp
    {
      assert r[j] == rest[j - 1];
      if i > 0 {
        assert r[i] == rest[i - 1];
      }
    }
  }

  lemma {:induction false} FilterNewestFirst(posts: seq<Post>, keep: Post -> bool)
    requires NewestFirst(posts)
    ensures NewestFirst(Filter(posts, keep))
  {
    if |posts| > 0 {
      var tail := posts[1..];
      assert NewestFirst(tail) by {
        assert forall i :: 0 <= i < |tail| ==> tail[i] == posts[i + 1];
      }
      FilterNewestFirst(tail, keep);
      FilterBounded(tail, keep, posts[0].timestamp);
      var rest := Filter(tail, keep);
      if keep(posts[0]) {
        ConsNewestFirst(posts[0], rest);
      }
    }
  }
}

=== FILE: social_post.dfy ===
/**
 * The common post record both social routes produce and the feed consumes,
 * and the JSON body the routes answer with.
 */
module SocialPost {
  import opened Wrappers

  datatype Platform = Twitter | Bluesky

  datatype Author = Author(username: string, displayName: string, avatar: Option<string>)

  datatype Metrics = Metrics(likes: int, reposts: int, replies: int)

  /** A post; `timestamp` is the instant in milliseconds that the record's date string denotes. */
  datatype Post = Post(
    id: string,
    platform: Platform,
    author: Author,
    content: string,
    timestamp: int,
    url: string,
    metrics: Metrics)

  /** A route's answer: `{ posts }` with status 200, or `{ error }` with an error status. */
  datatype RouteResponse = PostsBody(posts: seq<Post>) | ErrorBody(status: int, error: string)
  {
    function Status(): int
    {
      if PostsBody? then 200 else status
    }
  }
}

=== FILE: strings.dfy ===
/**
 * String helpers shared by the routes and components: JavaScript's
 * `split` with a one-character separator and its inverse `join`, the
 * `filter(Boolean)` that drops empty parts, ASCII case mapping, and the
 * decimal rendering of a natural number used by template literals.
 */
module Strings {
  import opened Wrappers

  /** `x || fallback` on an optional string: absent and empty both fall back. */
  function OrDefault(x: Option<string>, fallback: string): (r: string)
    ensures x.Some? && x.value != "" ==> r == x.value
    ensures x.None? || x == Some("") ==> r == fallback
  {
    if x.Some? && x.value != "" then x.value else fallback
  }

  /** `s.split(sep)`: the maximal `sep`-free runs of `s`, empty ones included. */
  function Split(s: string, sep: char): (r: seq<string>)
    ensures |r| >= 1
    ensures forall i :: 0 <= i < |r| ==> sep !in r[i]
    decreases |s|
  {
    if |s| == 0 then [""]
    else
      var rest := Split(s[1..], sep);
      if s[0] == sep then [""] + rest
      else [[s[0]] + rest[0]] + rest[1..]
  }

  /** `parts.join(sep)`. */
  function Join(parts: seq<string>, sep: char): string
  {
    if |parts| == 0 then ""
    else if |parts| == 1 then parts[0]
    else parts[0] + [sep] + Join(parts[1..], sep)
  }

  /** Joining the parts of a split gives back the original string. */
  lemma {:induction false} JoinSplit(s: string, sep: char)
    ensures Join(Split(s, sep), sep) == s
    decreases |s|
  {
    if |s| > 0 {
      var rest := Split(s[1..], sep);
      JoinSplit(s[1..], sep);
      assert s == [s[0]] + s[1..];
      if s[0] != sep && |rest| > 1 {
        assert rest == [rest[0]] + rest[1..];
        assert Join(rest, sep) == rest[0] + [sep] + Join(rest[1..], sep);
      }
    }
  }

  /** A string without the separator splits into itself alone. */
  lemma {:induction false} SplitWithoutSep(s: string, sep: char)
    requires sep !in s
    ensures Split(s, sep) == [s]
    decreases |s|
  {
    if |s| > 0 {
      SplitWithoutSep(s[1..], sep);
      assert s == [s[0]] + s[1..];
    }
  }

  /** The first separator ends the first part. */
  lemma {:induction false} SplitAtSep(a: string, sep: char, b: string)
    requires sep !in a
    ensures Split(a + [sep] + b, sep) == [a] + Split(b, sep)
    decreases |a|
  {
    var s := a + [sep] + b;
    if |a| == 0 {
      assert s[1..] == b;
    } else {
      assert s[1..] == a[1..] + [sep] + b;
      SplitAtSep(a[1..], sep, b);
      assert [a[0]] + a[1..] == a;
    }
  }

  /** Splitting a join of separator-free parts gives back the parts. */
  lemma {:induction false} SplitJoin(parts: seq<string>, sep: char)
    requires |parts| >= 1
    requires forall i :: 0 <= i < |parts| ==> sep !in parts[i]
    ensures Split(Join(parts, sep), sep) == parts
    decreases |parts|
  {
    if |parts| == 1 {
      SplitWithoutSep(parts[0], sep);
    } else {
      SplitJoin(parts[1..], sep);
      SplitAtSep(parts[0], sep, Join(parts[1..], sep));
      assert parts == [parts[0]] + parts[1..];
    }
  }

  /** `parts.filter(Boolean)`: the non-empty parts, in order. */
  function Compact(parts: seq<string>): (r: seq<string>)
    ensures |r| <= |parts|
    ensures forall i :: 0 <= i < |r| ==> r[i] != "" && r[i] in parts
    ensures forall i :: 0 <= i < |parts| && parts[i] != "" ==> parts[i] in r
  {
    if |parts| == 0 then []
    else if parts[0] == "" then Compact(parts[1..])
    else [parts[0]] + Compact(parts[1..])
  }

  /** `Compact` distributes over concatenation, so it keeps the order of the parts. */
  lemma {:induction false} CompactAppend(a: seq<string>, b: seq<string>)
    ensures Compact(a + b) == Compact(a) + Compact(b)
    decreases |a|
  {
    if |a| == 0 {
      assert a + b == b;
    } else {
      assert (a + b)[0] == a[0];
      assert (a + b)[1..] == a[1..] + b;
      CompactAppend(a[1..], b);
    }
  }

  /** `s.split(sep)[0]`: the text before the first separator. */
  function FirstPart(s: string, sep: char): (r: string)
    ensures sep !in r
    ensures |r| <= |s| && r == s[..|r|]
    ensures |r| < |s| ==> s[|r|] == sep
  {
    FirstPartIsPrefix(s, sep);
    Split(s, sep)[0]
  }

  lemma {:induction false} FirstPartIsPrefix(s: string, sep: char)
    ensures var first := Split(s, sep)[0];
      |first| <= |s| && first == s[..|first|] && (|first| < |s| ==> s[|first|] == sep)
    decreases |s|
  {
    if |s| > 0 && s[0] != sep {
      FirstPartIsPrefix(s[1..], sep);
      assert [s[0]] + s[1..] == s;
    }
  }

  /** The first part ends exactly at the first separator. */
  lemma FirstPartAt(s: string, sep: char, i: nat)
    requires i < |s| && s[i] == sep
    requires forall j :: 0 <= j < i ==> s[j] != sep
    ensures FirstPart(s, sep) == s[..i]
  {
    var r := FirstPart(s, sep);
    assert |r| <= i by {
      assert forall j :: 0 <= j < |r| ==> r[j] == s[j] && r[j] != sep;
    }
  }

  /** The part after the last separator: `s.split(sep).pop()`. */
  function LastPart(s: string, sep: char): (r: string)
    ensures sep !in r
    ensures |r| <= |s| && r == s[|s| - |r|..]
    ensures |r| < |s| ==> s[|s| - |r| - 1] == sep
  {
    var parts := Split(s, sep);
    LastPartIsSuffix(s, sep);
    parts[|parts| - 1]
  }

  /** The part after the last separator of `a + [sep] + b` is `b`, when `b` holds no separator. */
  lemma LastPartAfterSep(a: string, sep: char, b: string)
    requires sep !in b
    ensures LastPart(a + [sep] + b, sep) == b
  {
    var s := a + [sep] + b;
    var r := LastPart(s, sep);
    assert s[|a|] == sep;
    assert forall i :: |a| < i < |s| ==> s[i] == b[i - |a| - 1] != sep;
    assert forall i :: 0 <= i < |r| ==> r[i] == s[|s| - |r| + i];
    assert s[|s| - |b|..] == b;
  }

  lemma {:induction false} LastPartIsSuffix(s: string, sep: char)
    ensures var parts := Split(s, sep);
      var last := parts[|parts| - 1];
      && |last| <= |s| && last == s[|s| - |last|..]
      && (|parts| == 1 ==> last == s)
      && (|parts| > 1 ==> |last| < |s| && s[|s| - |last| - 1] == sep)
    decreases |s|
  {
    if |s| > 0 {
      var t := s[1..];
      var rest := Split(t, sep);
      LastPartIsSuffix(t, sep);
      var last := rest[|rest| - 1];
      var parts := Split(s, sep);
      if s[0] == sep {
        assert parts == [""] + rest;
        assert parts[|parts| - 1] == last;
        assert t[|t| - |last|..] == s[|s| - |last|..];
        if |rest| > 1 {
          assert t[|t| - |last| - 1] == s[|s| - |last| - 1];
        }
      } else if |rest| > 1 {
        assert parts == [[s[0]] + rest[0]] + rest[1..];
        assert parts[|parts| - 1] == last;
        assert t[|t| - |last|..] == s[|s| - |last|..];
        assert t[|t| - |last| - 1] == s[|s| - |last| - 1];
      } else {
        assert parts == [[s[0]] + rest[0]];
        assert [s[0]] + t == s;
      }
    }
  }

  /** ASCII `toUpperCase` of one character; every other character is unchanged. */
  function UpperChar(c: char): (r: char)
    ensures 'a' <= c <= 'z' ==> 'A' <= r <= 'Z' && r as int - c as int == 'A' as int - 'a' as int
    ensures !('a' <= c <= 'z') ==> r == c
  {
    if 'a' <= c <= 'z' then (c as int - 'a' as int + 'A' as int) as char else c
  }

  /** ASCII `toLowerCase` of one character; every other character is unchanged. */
  function LowerChar(c: char): (r: char)
    ensures 'A' <= c <= 'Z' ==> 'a' <= r <= 'z' && r as int - c as int == 'a' as int - 'A' as int
    ensures !('A' <= c <= 'Z') ==> r == c
  {
    if 'A' <= c <= 'Z' then (c as int - 'A' as int + 'a' as int) as char else c
  }

  /** `s.toLowerCase()` restricted to ASCII letters. */
  function Lower(s: string): (r: string)
    ensures |r| == |s|
    ensures forall i :: 0 <= i < |s| ==> r[i] == LowerChar(s[i])
  {
    seq(|s|, i requires 0 <= i < |s| => LowerChar(s[i]))
  }

  /** Lowering twice is lowering once. */
  lemma LowerIdempotent(s: string)
    ensures Lower(Lower(s)) == Lower(s)
  {
  }

  /** `name.charAt(0).toUpperCase()`: the upper-cased first character, or "" for "". */
  function UpperFirst(name: string): (r: string)
    ensures |r| <= 1
    ensures |r| == 0 <==> |name| == 0
    ensures |name| > 0 ==> r[0] == UpperChar(name[0])
  {
    if |name| == 0 then "" else [UpperChar(name[0])]
  }

  function DigitChar(d: nat): (c: char)
    requires d < 10
    ensures '0' <= c <= '9' && c as int - '0' as int == d
  {
    ('0' as int + d) as char
  }

  predicate IsDigits(s: string)
  {
    forall i :: 0 <= i < |s| ==> '0' <= s[i] <= '9'
  }

  /** The decimal text of `n` that a template literal `${n}` produces. */
  function NatToString(n: nat): (r: string)
    ensures |r| >= 1 && IsDigits(r)
    ensures |r| > 1 ==> r[0] != '0'
    ensures n > 0 ==> r[0] != '0'
    decreases n
  {
    if n < 10 then [DigitChar(n)] else NatToString(n / 10) + [DigitChar(n % 10)]
  }

  /** Reads a string of decimal digits back as a number. */
  function DigitsValue(s: string): nat
    requires IsDigits(s)
  {
    if |s| == 0 then 0
    else DigitsValue(s[..|s| - 1]) * 10 + (s[|s| - 1] as int - '0' as int)
  }

  /** Reading the decimal text of `n` gives back `n`. */
  lemma {:induction false} NatToStringRoundTrip(n: nat)
    ensures DigitsValue(NatToString(n)) == n
    decreases n
  {
    if n >= 10 {
      NatToStringRoundTrip(n / 10);
      var s := NatToString(n);
      assert s[..|s| - 1] == NatToString(n / 10);
    }
  }
}

=== FILE: tech_card.dfy ===
/**
 * The "Things I Use" section: the column count the breakpoints select, how
 * many cards the collapsed grid shows, and when the show-more toggle
 * appears. Cards are opaque values.
 */
module TechCard {

  /** The grid's column count. */
  type Columns = c: int | 1 <= c <= 3 witness 3

  /** Before the media queries are read the section assumes three columns. */
  const InitialColumns: Columns := 3

  /** The `update` handler: the md breakpoint wins over sm. */
  function ColumnsFor(sm: bool, md: bool): (c: Columns)
    ensures md ==> c == 3
    ensures !md && sm ==> c == 2
    ensures !md && !sm ==> c == 1
  {
    if md then 3 else if sm then 2 else 1
  }

  /** `responsiveDisplayCount`. */
  function DisplayCount(columns: Columns): (n: nat)
    ensures columns == 1 ==> n == 3
    ensures columns == 2 ==> n == 4
    ensures columns == 3 ==> n == 6
  {
    if columns == 1 then 3 else if columns == 2 then 4 else 6
  }

  /** `displayedTechCards`: all cards when expanded, else the first `DisplayCount` of them. */
  function Displayed<T>(cards: seq<T>, expanded: bool, columns: Columns): (r: seq<T>)
    ensures expanded ==> r == cards
    ensures !expanded ==> |r| == (if |cards| < DisplayCount(columns) then |cards| else DisplayCount(columns))
    ensures r == cards[..|r|]
  {
    if expanded then cards
    else if |cards| < DisplayCount(columns) then cards
    else cards[..DisplayCount(columns)]
  }

  /** Whether the show-more/show-less button is rendered. */
  function ShowToggle<T>(cards: seq<T>, columns: Columns): bool
  {
    |cards| > DisplayCount(columns)
  }

  /** The button appears exactly when the collapsed grid leaves some card out. */
  lemma ToggleIffSomethingHidden<T>(cards: seq<T>, columns: Columns)
    ensures ShowToggle(cards, columns) <==> Displayed(cards, false, columns) != cards
  {
    if ShowToggle(cards, columns) {
      assert |Displayed(cards, false, columns)| < |cards|;
    }
  }

  /** The collapsed grid always fills whole rows of the current layout when there are enough cards. */
  lemma CollapsedFillsRows<T>(cards: seq<T>, columns: Columns)
    requires |cards| >= DisplayCount(columns)
    ensures |Displayed(cards, false, columns)| % columns == 0
  {
  }

  /** A wider layout never shows fewer cards when collapsed. */
  lemma WiderShowsMore<T>(cards: seq<T>, a: Columns, b: Columns)
    requires a <= b
    ensures |Displayed(cards, false, a)| <= |Displayed(cards, false, b)|
    ensures Displayed(cards, false, a) == Displayed(cards, false, b)[..|Displayed(cards, false, a)|]
  {
  }
}

=== FILE: twitter_route.dfy ===
/**
 * The X (Twitter) posts route: a token check, a username lookup, a tweet
 * fetch, and the mapping of each tweet to a common post. Upstream answers
 * are parameters; a non-ok answer or a thrown error becomes the same 500.
 * `parseDate` stands for `new Date(created_at).getTime()`.
 */
module TwitterRoute {
  import opened Wrappers
  import opened Strings
  import opened Seqs
  import opened SocialPost

  const DefaultUsername: string := "LunarcatOwO"
  const DefaultLimit: string := "5"

  datatype User = User(id: string, name: Option<string>, username: Option<string>, profileImageUrl: Option<string>)

  datatype PublicMetrics = PublicMetrics(likeCount: Option<int>, retweetCount: Option<int>, replyCount: Option<int>)

  datatype Tweet = Tweet(id: string, text: string, authorId: Option<string>, createdAt: string, publicMetrics: Option<PublicMetrics>)

  /** The username lookup: `data.id` of an ok answer (absent `data` throws), or a failure. */
  datatype UserLookup = UserOk(data: Option<string>) | UserFailed

  /** The tweets answer: optional `data` and optional `includes.users`, or a failure. */
  datatype TweetsFetch = TweetsOk(data: Option<seq<Tweet>>, users: Option<seq<User>>) | TweetsFailed

  const TokenMissing: RouteResponse := ErrorBody(500, "Twitter API token not configured")
  const FetchFailed: RouteResponse := ErrorBody(500, "Failed to fetch Twitter posts")

  function UserUrl(username: string): string
  {
    "https://api.twitter.com/2/users/by/username/" + username
  }

  /** The user in `includes` whose id is the tweet's author id, if any. */
  function FindAuthor(users: Option<seq<User>>, authorId: Option<string>): (r: Option<User>)
    ensures r.Some? ==> users.Some? && r.value in users.value && authorId == Some(r.value.id)
    ensures r.None? && users.Some? && authorId.Some? ==> forall u :: u in users.value ==> u.id != authorId.value
  {
    if users.None? || authorId.None? then None
    else match FirstMatch(users.value, (u: User) => u.id == authorId.value)
      case None => None
      case Some(i) => Some(users.value[i])
  }

  /** The username a post is attributed to: the author's, when found and non-empty, else the requested one. */
  function AuthorUsername(author: Option<User>, username: string): (r: string)
    ensures author.Some? && author.value.username.Some? && author.value.username.value != "" ==> r == author.value.username.value
    ensures author.None? || author.value.username.None? || author.value.username == Some("") ==> r == username
  {
    if author.Some? then OrDefault(author.value.username, username) else username
  }

  /** The display name: the author's name, when found and non-empty, else the requested username. */
  function AuthorDisplayName(author: Option<User>, username: string): (r: string)
    ensures author.Some? && author.value.name.Some? && author.value.name.value != "" ==> r == author.value.name.value
    ensures author.None? || author.value.name.None? || author.value.name == Some("") ==> r == username
  {
    if author.Some? then OrDefault(author.value.name, username) else username
  }

  function PostUrl(authorUsername: string, id: string): string
  {
    "https://x.com/" + authorUsername + "/status/" + id
  }

  /** The mapping of one tweet to a post. */
  function ToPost(tweet: Tweet, users: Option<seq<User>>, username: string, parseDate: string -> int): (p: Post)
    ensures p.id == tweet.id && p.platform == Twitter && p.content == tweet.text
    ensures p.url == PostUrl(p.author.username, tweet.id)
    ensures tweet.publicMetrics.None? ==> p.metrics == Metrics(0, 0, 0)
    // the post is attributed to the author found in `includes.users`, with the requested username as fallback
    ensures var a := FindAuthor(users, tweet.authorId);
      && p.author.username == AuthorUsername(a, username)
      && p.author.displayName == AuthorDisplayName(a, username)
      && p.author.avatar == (if a.Some? then a.value.profileImageUrl else None)
  {
    var author := FindAuthor(users, tweet.authorId);
    var m := tweet.publicMetrics.GetOr(PublicMetrics(None, None, None));
    Post(
      tweet.id,
      Twitter,
      Author(AuthorUsername(author, username), AuthorDisplayName(author, username),
             if author.Some? then author.value.profileImageUrl else None),
      tweet.text,
      parseDate(tweet.createdAt),
      PostUrl(AuthorUsername(author, username), tweet.id),
      Metrics(m.likeCount.GetOr(0), m.retweetCount.GetOr(0), m.replyCount.GetOr(0)))
  }

  /** `tweetsData.data?.map(...) || []`. */
  function ToPosts(data: Option<seq<Tweet>>, users: Option<seq<User>>, username: string, parseDate: string -> int): (r: seq<Post>)
    ensures data.None? ==> r == []
    ensures data.Some? ==> |r| == |data.value|
    ensures data.Some? ==> forall i :: 0 <= i < |r| ==> r[i] == ToPost(data.value[i], users, username, parseDate)
  {
    match data
    case None => []
    case Some(tweets) => seq(|tweets|, i requires 0 <= i < |tweets| => ToPost(tweets[i], users, username, parseDate))
  }

  /**
   * `GET ?username=…&limit=…`: `user(url)` answers the username lookup and
   * `tweets(userId, limit)` the tweet fetch.
   */
  function Get(usernameParam: Option<string>, limitParam: Option<string>, bearerToken: Option<string>,
               user: string -> UserLookup, tweets: (string, string) -> TweetsFetch,
               parseDate: string -> int): (r: RouteResponse)
    ensures r.ErrorBody? ==> r.status == 500
    ensures bearerToken.None? || bearerToken == Some("") ==> r == TokenMissing
  {
    var username := OrDefault(usernameParam, DefaultUsername);
    var limit := OrDefault(limitParam, DefaultLimit);
    if bearerToken.None? || bearerToken.value == "" then TokenMissing
    else match user(UserUrl(username))
      case UserFailed => FetchFailed
      case UserOk(None) => FetchFailed
      case UserOk(Some(userId)) =>
        match tweets(userId, limit)
        case TweetsFailed => FetchFailed
        case TweetsOk(data, users) => PostsBody(ToPosts(data, users, username, parseDate))
  }

  /** Without a token the answer is the same whatever the upstream would have said. */
  lemma MissingTokenCallsNothing(usernameParam: Option<string>, limitParam: Option<string>, bearerToken: Option<string>,
                                 user1: string -> UserLookup, tweets1: (string, string) -> TweetsFetch,
                                 user2: string -> UserLookup, tweets2: (string, string) -> TweetsFetch,
                                 parseDate: string -> int)
    requires bearerToken.None? || bearerToken == Some("")
    ensures Get(usernameParam, limitParam, bearerToken, user1, tweets1, parseDate)
         == Get(usernameParam, limitParam, bearerToken, user2, tweets2, parseDate)
         == TokenMissing
  {
  }

  /**
   * With a token, a failed lookup or fetch gives the generic 500, and a
   * successful one gives one post per tweet, in order, attributed to the
   * author in `includes` or, failing that, to the requested username (by
   * default `LunarcatOwO`), and linked under that name.
   */
  lemma PostsFollowTweets(usernameParam: Option<string>, limitParam: Option<string>, token: string,
                          user: string -> UserLookup, tweets: (string, string) -> TweetsFetch,
                          parseDate: string -> int)
    requires token != ""
    ensures var r := Get(usernameParam, limitParam, Some(token), user, tweets, parseDate);
      var username := if usernameParam.None? || usernameParam == Some("") then DefaultUsername else usernameParam.value;
      var limit := if limitParam.None? || limitParam == Some("") then "5" else limitParam.value;
      var lookup := user(UserUrl(username));
      && (lookup.UserFailed? || lookup == UserOk(None) ==> r == FetchFailed)
      && (lookup.UserOk? && lookup.data.Some? ==>
            var fetched := tweets(lookup.data.value, limit);
            && (fetched.TweetsFailed? ==> r == FetchFailed)
            && (fetched.TweetsOk? ==>
                  && r.PostsBody?
                  && |r.posts| == (if fetched.data.Some? then |fetched.data.value| else 0)
                  && forall i :: 0 <= i < |r.posts| ==>
                       var tweet := fetched.data.value[i];
                       var author := FindAuthor(fetched.users, tweet.authorId);
                       && r.posts[i].id == tweet.id
                       && r.posts[i].platform == Twitter
                       && (author.None? ==> r.posts[i].author.username == username && r.posts[i].author.displayName == username)
                       && r.posts[i].url == "https://x.com/" + r.posts[i].author.username + "/status/" + tweet.id))
  {
  }

  /** Missing counts in a tweet's public metrics become zero. */
  lemma MissingMetricsAreZero(tweet: Tweet, users: Option<seq<User>>, username: string, parseDate: string -> int)
    requires tweet.publicMetrics.Some?
    ensures var p := ToPost(tweet, users, username, parseDate);
      && p.metrics.likes == tweet.publicMetrics.value.likeCount.GetOr(0)
      && p.metrics.reposts == tweet.publicMetrics.value.retweetCount.GetOr(0)
      && p.metrics.replies == tweet.publicMetrics.value.replyCount.GetOr(0)
  {
  }
}

=== FILE: wrappers.dfy ===
/** Optional values: JavaScript's `null` / `undefined` next to a present value. */
module Wrappers {

  datatype Option<+T> = None | Some(value: T) {

    /** The value if present, otherwise `default` (JavaScript's `x ?? default`). */
    function GetOr(default: T): (r: T)
      ensures Some? ==> r == value
      ensures None? ==> r == default
    {
      match this
      case Some(v) => v
      case None => default
    }
  }
}
